=== FILE: README.md ===
# superdux core, modelled in Dafny

superdux is a Qt/SDL front end for the SameBoy Game Boy emulator. Most of
it is user interface, threads and calls into SameBoy. This project models
the deterministic part: the byte, string and state logic that the front
end performs on its own. Each source component is a Dafny module, and
each module lives in a file of its own:

- `padder.dfy` (`Padder`) is the build-time script that pads a binary
  with zero bytes. `header_gen.dfy` (`HeaderGen`) is the script that
  renders a binary as a C array.
- `cartridge.dfy` (`Cartridge`) covers the ROM checks in `load_rom`: size,
  header checksum, logo and global checksum, and the warn/decline
  decision. The checks follow "The Cartridge Header" of the Pan Docs.
- `models.dfy` (`Models`) holds the five Game Boy types and their
  per-type settings. It covers `boot_rom_for_type`,
  `use_fast_boot_rom_for_type`, `use_border_for_type` and the fallback
  for a stored type that is out of range.
- `recent_roms.dfy` (`RecentRoms`) is the recent-ROM list.
  `save_states.dfy` (`SaveStates`) is the bounded undo/redo buffer of
  temporary save states. `save_paths.dfy` (`SavePaths`) covers
  `std::filesystem::path::replace_extension` as the window uses it for
  `.sav` and `.sN` paths.
- `game_instance.dfy` covers three things:
  - `Pixels`: ARGB packing and byte-wise blending.
  - `FrameBuffers`: the three-buffer rotation at vblank, the reset on
    resize, and `read_pixel_buffer`.
  - `Audio`: volume clamping and the sample queue.
- `backtrace.dfy` (`Backtrace`) is `get_backtrace`. It assigns the
  addresses, splits the text into lines and assigns the lines.
- `disassembly.dfy` has two modules:
  - `Disassembly` is the line parser shared by the two disassembler
    views. One flag says whether `CALL` follows the text after the comma.
  - `Navigation` covers keys, wheel, scroll targets, the history stack
    and the breakpoint lookup.
- `input_device.dfy` has two modules:
  - `InputCodes` covers controller key codes, their decoding, the
    keyboard modifier names and the gamepad strings.
  - `InputNames` covers the enum-name tables and the default gamepad
    mapping.
- `gb_proxy.dfy` has two modules:
  - `GbRegisters` covers register get/set and palette selection.
  - `Tileset` is the tileset-usage classifier. It works over OAM, VRAM,
    LCDC, the window registers and the CGB flag, given as data.
- `trace_export.dfy` (`TraceExport`) is the break-and-trace results
  dialog. It covers the register panel and the CSV/JSON export of a
  trace tree.
- `model_dialog.dfy` (`ModelDialog`) is the advanced model dialog:
  revision selection, the reset decision and committing the form.
- `speed_dialog.dfy` (`SpeedDialog`) is the speed dialog: slider and
  textbox conversions, and validation on accept.
- `getline.dfy` (`GetLine`) is the `getline` replacement over a
  character stream.
- `bytes.dfy` (`Bytes`) and `text.dfy` (`Text`) hold shared helpers. They
  cover byte and word types, and the Qt-like string operations the
  source relies on: trimming, searching, hex and decimal text, `toInt`,
  and Python's `int()` with its underscore-separated digit groups.

Some inputs come from outside the logic: SameBoy's output text, the user's
answers to dialogs, whether a file could be loaded, and the SDL name
tables. These are parameters of the functions.

## Model

| member | source | states |
|---|---|---|
| Padder.Padding | append.py:17-20 | a short file gets exactly `length - len(data)` appended bytes, all zero; a file at or over the target gets none |
| Padder.Pad | append.py:14-23 | too large iff longer than the target; otherwise the result has the target length, keeps the data as its prefix and is zero after it; equal length leaves the data as it is |
| Padder.PadIdempotent | append.py:14-23 | padding a padded file again appends nothing and gives the same result |
| Padder.Run | append.py:5-23 | a wrong argument count is a usage error; with four arguments, the length is invalid iff `int()` rejects it; no error path changes the file; with a length `int()` accepts, the outcome follows `Pad`, and only zero bytes are ever appended |
| Text.PythonIntAgrees | append.py:9 | without underscores, `int()` reads a length exactly as the plain signed decimal reader does |
| Text.PythonIntJoin | append.py:9 | two digit groups joined by one underscore, as in "1_000", read as the digits written together |
| Text.PythonIntEdgeUnderscore | append.py:9 | an underscore at either end of the trimmed text makes `int()` fail |
| Text.PythonIntOfInt | append.py:9 | `int(str(n))` is `n` |
| Padder.Sized | append.py:14-23 | too large iff the file is longer than the length, with the error text naming the file and the length; equal length leaves it unchanged; otherwise zero bytes bring it exactly to the length, keeping its content as a prefix |
| Padder.RunIdempotent | append.py:14-23 | running the script a second time on its own output changes nothing |
| HeaderGen.Literal | bin_to_c_header.py:20 | each byte becomes `0x` and two upper-case hex digits whose values are its high and low nibble |
| HeaderGen.Render | bin_to_c_header.py:14-29 | the loop builds the same text as the reference definition (template around the joined literals) |
| HeaderGen.HeaderShape | bin_to_c_header.py:25-29 | the output starts with the banner, carries the name verbatim, then the literals, and ends with `\n};\n` |
| HeaderGen.ParseBodyRoundTrip | bin_to_c_header.py:14-22 | reading the literals back gives exactly the input bytes, in order |
| HeaderGen.BodyCommas | bin_to_c_header.py:16-17 | the body has one comma fewer than there are bytes, hence no trailing comma |
| HeaderGen.BodyLineBreaks | bin_to_c_header.py:18-19 | the body holds `(n - 1) / 8` line breaks for `n` bytes, one per multiple of 8 below `n` |
| HeaderGen.BodyLineBreakAt | bin_to_c_header.py:16-20 | after the first `j` literals, for `0 < j < n`, comes a comma and then a line break exactly when `j` is a multiple of 8; with the count above, there are no other breaks |
| HeaderGen.EmptyInput | bin_to_c_header.py:12-29 | empty input gives an empty body between the indent and the closing line |
| HeaderGen.Run | bin_to_c_header.py:5-29 | usage error iff the argument count is not 4; otherwise the text between the opening and closing parts parses back to the data |
| Cartridge.HeaderFoldClosedForm | src/game_window.cpp:905-909 | the 8-bit fold `x := x - b - 1` equals minus (sum of bytes + count), modulo 256 |
| Cartridge.ComputeHeaderChecksum | src/game_window.cpp:905-909 | the loop over 0x134..0x14C computes the fold, which is minus (sum + 25) modulo 256 |
| Cartridge.FullLogoImpliesCgbLogo | src/game_window.cpp:912-914 | a full 48-byte logo match implies the 24-byte CGB match |
| Cartridge.StoredGlobalChecksum | src/game_window.cpp:924-931 | the stored checksum is big-endian: its high byte is at 0x14E and its low byte at 0x14F |
| Cartridge.ComputeGlobalChecksum | src/game_window.cpp:917-923 | the two loops compute the 16-bit wrapping sum of every byte except 0x14E and 0x14F |
| Cartridge.GlobalSumExcludesChecksum | src/game_window.cpp:917-923 | the global sum is the sum of all bytes minus the two checksum bytes, modulo 65536 |
| Cartridge.Check | src/game_window.cpp:899-938 | each verdict field is its check on the ROM (header checksum, 48-byte logo, 24-byte CGB logo, global checksum); would-load iff header ok and the logo check for the model; corrupt iff the header, logo or global check fails; not corrupt implies compatible |
| Cartridge.Fails | src/game_window.cpp:941-947 | fails iff (corrupt check enabled and corrupt) or (compatibility check enabled and incompatible) |
| Cartridge.Issues | src/game_window.cpp:952-966 | each message line appears iff its check fails; the logo line says "second half" iff only the full logo check fails |
| Cartridge.Load | src/game_window.cpp:846-1009 | .isx images bypass the checks and start the game iff their loader returns 0; an empty file fails at the read; a ROM is too small iff it has 1 to 0x14F bytes; it is declined iff the checks run, fail and the user does not accept, with the issues listed |
| Cartridge.TooSmallClosesTwiceAsWritten | src/game_window.cpp:876-891 | as written, an image of 1 to 0x14F bytes is closed, then closed again: the stream is not closed exactly once |
| Cartridge.StreamCalls | src/game_window.cpp:850-891 | with the second `fclose` removed the stream is opened first, closed last and exactly once, and every other size makes the same calls as the source |
| Cartridge.IntactRomLoads | src/game_window.cpp:936-947 | a ROM that passes all three checks loads under every setting |
| Models.ModelFromSetting | src/game_window.cpp:270-278 | a stored value in range selects that type, anything else falls back to GBC |
| Models.ModelSettingRoundTrip | src/game_window.cpp:270-278 | storing a type and reading it back gives the same type |
| Models.BootRomFor | src/game_window.cpp:211-228 | the boot ROM path is none whenever custom boot ROMs are disallowed for the type, and the stored path otherwise |
| Models.FastBootFor | src/game_window.cpp:230-245 | fast boot is always off for GB and GBA, and is the stored switch for GBC, SGB and SGB2 |
| Models.BorderModeFor | src/game_window.cpp:247-262 | the border is always shown iff the type's border switch is on |
| RecentRoms.RemoveAll | src/game_window.cpp:834 | the result holds exactly the entries other than the path, and is no longer than the list |
| RecentRoms.Open | src/game_window.cpp:834-836 | the loaded path comes first, occurs once, and is followed by the other entries in their previous order, as many as fit in 10 |
| RecentRoms.RemoveAllKeepsOrder | src/game_window.cpp:834 | two remaining entries keep their relative order |
| RecentRoms.OpenIdempotent | src/game_window.cpp:834-836 | loading the same path twice in a row gives the same list as once |
| RecentRoms.RemoveAllAbsent | src/game_window.cpp:834 | removing a path that is not listed leaves the list unchanged |
| SaveStates.LoadAsWritten | src/game_window.cpp:1805-1832 | the code as written has no defined result exactly when a successful load meets a zero-capacity buffer |
| SaveStates.ZeroCapacityLoadUndefined | src/game_window.cpp:1813-1821 | with capacity 0, a successful load erases from an empty vector |
| SaveStates.Load | src/game_window.cpp:1805-1832 | the buffer stays valid with the same capacity; a refused or failed load changes nothing; a successful one stores the backup at slot `next-1` and leaves `size == next`, dropping the oldest backup when full |
| SaveStates.LoadMatchesAsWritten | src/game_window.cpp:1805-1832 | with capacity at least 1, the corrected load is exactly the code as written |
| SaveStates.Revert | src/game_window.cpp:1891-1913 | nothing to do iff `next == 0`; otherwise, if the load succeeds, the state at `next-1` is loaded, `next` is decremented and that slot holds the backup; a failure changes nothing |
| SaveStates.Unrevert | src/game_window.cpp:1916-1939 | nothing to do iff `next == size`; otherwise, if the load succeeds, the state at `next` is loaded and replaced by the backup, and `next` is incremented |
| SaveStates.RevertThenUnrevert | src/game_window.cpp:1891-1939 | a successful revert followed by an unrevert restores the session |
| SaveStates.UnrevertThenRevert | src/game_window.cpp:1891-1939 | a successful unrevert followed by a revert restores the session |
| SaveStates.RevertUndoesLoad | src/game_window.cpp:1805-1913 | reverting right after a successful load gets back the state from before the load |
| SavePaths.ReplaceExtension | src/game_window.cpp:840 | the path up to its extension (all of it when it has none) followed by the new extension |
| SavePaths.AppendedExtension | src/game_window.cpp:840 | a simple extension appended to a non-empty file name is read back as that file's extension |
| SavePaths.ReplaceTwice | src/game_window.cpp:1777-1781 | replacing the extension twice is the same as replacing it once with the second one |
| SavePaths.SavePath | src/game_window.cpp:840 | the ROM path up to its extension (all of it when it has none) followed by `.sav` |
| SavePaths.ReplaceExtensionInjective | src/game_window.cpp:1777-1781 | different extensions give different paths |
| SavePaths.SaveStatePathsDistinct | src/game_window.cpp:1777-1781 | different slot numbers give different save state paths |
| Pixels.RgbEncode | src/game_instance.cpp:59-61 | the top byte is 0xFF, and red, green and blue are recovered from bytes 2, 1 and 0 |
| Pixels.BlendPixel | src/game_instance.cpp:282-287 | each byte of the result is the floor of the mean of the two input bytes |
| Pixels.BlendSame | src/game_instance.cpp:282-287 | blending a pixel with itself leaves it unchanged |
| Pixels.BlendEncoded | src/game_instance.cpp:282-287 | blending two encoded colours averages each channel and stays opaque |
| FrameBuffers.VBlank | src/game_instance.cpp:74-76 | `work' = (work+1) % 3`, `previous' = work`, `previous_second' = previous`, and all indices stay below 3 |
| FrameBuffers.RolesDistinctAfterTwoFrames | src/game_instance.cpp:74-76 | after two frames the three roles use three different buffers |
| FrameBuffers.ThreeFramesCycle | src/game_instance.cpp:74-76 | three frames bring the work buffer back to where it was |
| FrameBuffers.Resize | src/game_instance.cpp:330-338 | every buffer is refilled with opaque black at the new size and all three indices are reset to 0 |
| FrameBuffers.BlendFrames | src/game_instance.cpp:282-287 | every byte of every pixel is the floor of the mean of the two frames' bytes |
| FrameBuffers.ReadPixels | src/game_instance.cpp:266-292 | succeeds iff the lengths match, otherwise leaves the destination alone; single mode copies the work buffer, double mode the previous one, and blend mode averages previous and second-previous |
| FrameBuffers.ReadAfterResize | src/game_instance.cpp:330-338 | a read right after a resize yields opaque black in every mode |
| Audio.ClampVolume | src/game_instance.cpp:634-636 | the stored volume is `min(100, max(0, v))` |
| Audio.ClampIdempotent | src/game_instance.cpp:636 | clamping twice is clamping once |
| Audio.TakeIsTransferToEmpty | src/game_instance.cpp:340-353 | handing the queue out gives the same buffer and empty queue as transferring it into an empty buffer |
| Audio.TakeTwiceLosesNothing | src/game_instance.cpp:340-346 | two hand-outs with samples queued in between return every sample exactly once, in order, and leave the queue empty |
| Audio.TransferSamples | src/game_instance.cpp:348-353 | the queue is appended after the destination's prior contents and left empty |
| Audio.TransferTwice | src/game_instance.cpp:348-353 | a second transfer right after the first adds nothing |
| Backtrace.Lines | src/game_instance.cpp:236-245 | one line per line break, none containing a line break |
| Backtrace.LinesOfPrefix | src/game_instance.cpp:236-245 | the lines of a prefix of the text are a prefix of the text's lines, so a trailing fragment adds none |
| Backtrace.AssignAddresses | src/game_instance.cpp:226-233 | entry 0 holds the PC and entry `n-b` holds return address `b` for `1 <= b < n` |
| Backtrace.AssignLines | src/game_instance.cpp:236-245 | addresses are kept; entry i gets the i-th complete line when there is one and stays empty otherwise |
| Backtrace.GetBacktrace | src/game_instance.cpp:220-249 | the combination of the two: n entries, the address mapping, and the text lines in order, with a trailing fragment dropped |
| FollowTargets.FollowFor | src/game_disassembler.cpp:287-305 | a follow target is produced iff the instruction starts with the prefix |
| Disassembly.ParseLine | src/game_disassembler.cpp:265-314 | keeps the raw line; `current_location` is always false; a line not led by a space is a marker carrying the text before the colon; any other line has an address |
| Disassembly.ParseLines | src/game_disassembler.cpp:265-317 | no more entries than lines, each from a line with a colon |
| Disassembly.EntriesFollowLines | src/debugger_disassembler.cpp:354-404 | the entries correspond one to one, in order, to the lines that contain a colon |
| FollowTargets.PrefixesExclusive | src/debugger_disassembler.cpp:396 | at most one of the four prefixes matches, so the first matching rule decides |
| FollowTargets.FollowChain | src/debugger_disassembler.cpp:376-396 | the follow target is the one given by the rule for the instruction's prefix |
| FollowTargets.ConditionalTargetAfterComma | src/debugger_disassembler.cpp:376-396 | in the debugger view, CALL, JP and JR with a comma follow the trimmed text after the comma |
| FollowTargets.PlainTarget | src/game_disassembler.cpp:287-307 | without a comma, the target is the trimmed text after the prefix, in both views |
| FollowTargets.GameCallFollowsCondition | src/game_disassembler.cpp:298 | for `CALL NZ, $1234` the game view follows "NZ" and the debugger view follows "$1234" |
| FollowTargets.GameCallCarryFollowsConditionComma | src/game_disassembler.cpp:298 | for `CALL C, $1234` the game view follows "C," (condition and comma) and the debugger view follows "$1234" |
| Disassembly.LayoutRoundTrip | src/game_disassembler.cpp:273-284 | a line laid out as SameBoy prints it parses back to its address, instruction and comment |
| Navigation.Back | src/game_disassembler.cpp:162 | subtraction saturating at 0 |
| Navigation.Forward | src/game_disassembler.cpp:185 | addition of 1 saturating at 65535 |
| Navigation.Later | src/game_disassembler.cpp:214-215 | only addresses strictly after the current one, no more than there are entries |
| Navigation.ComputeTargets | src/game_disassembler.cpp:208-228 | the short, medium and far targets are the 1st, 2nd and 10th later address, else the last one found, else the current address |
| Navigation.TargetsMoveForward | src/game_disassembler.cpp:208-228 | a target is after the current address when some later address exists, and is the current one otherwise |
| Navigation.KeyPress | src/game_disassembler.cpp:172-196 | PageUp goes back 10 and Up/Left back 1, saturating; Right goes forward 1, saturating; Down and PageDown use the short and far targets; other keys do nothing |
| Navigation.Wheel | src/game_disassembler.cpp:159-170 | wheel up goes back 1, saturating; wheel down goes to the medium target |
| Navigation.GoTo | src/debugger_disassembler.cpp:54-59 | the new address is current and the old one is pushed on the history |
| Navigation.GoBack | src/debugger_disassembler.cpp:61-67 | the last history entry becomes current and is popped |
| Navigation.GoToThenBack | src/game_disassembler.cpp:35-48 | `go_to` followed by `go_back` restores both the address and the history |
| Navigation.AddressIsBreakpoint | src/debugger_disassembler.cpp:216-224 | true iff the address is in the breakpoint list |
| InputCodes.ButtonKey | src/input_device.cpp:88-90 | a button key lies in the low 16 bits, with no axis field and no sign |
| InputCodes.AxisKey | src/input_device.cpp:92-94 | an axis key has no button field and no sign; its axis field is `a+1` modulo 128 |
| InputCodes.FieldsDisjoint | src/input_device.cpp:79-94 | a non-zero button key never equals an axis key |
| InputCodes.Decode | src/input_device.cpp:96-106 | decodes a button iff the button field is set, else the axis; codes with neither field are excluded, since the source terminates on them |
| InputCodes.ButtonRoundTrip | src/input_device.cpp:88-102 | decoding a button key gives the button back |
| InputCodes.AxisRoundTrip | src/input_device.cpp:92-106 | decoding an axis event gives the axis back, whatever its sign |
| InputCodes.AxisEvent | src/input_device.cpp:190-192 | the sign bit is set iff the value is negative; the rest is the axis key |
| InputCodes.FindBinding | src/input_device.cpp:60-69 | finds the lowest-index input whose list holds the code, and none iff no list does |
| InputCodes.KeyboardToString | src/input_device.cpp:109-123 | the three modifiers always get names; other keys use the key-sequence text |
| InputCodes.KeyboardFromString | src/input_device.cpp:125-142 | "Shift", "Control" and "Alt" map to their key codes |
| InputCodes.ModifierRoundTrip | src/input_device.cpp:109-142 | every modifier key survives a trip through its name |
| InputCodes.GamepadToString | src/input_device.cpp:145-159 | an axis name ends in `-` iff the sign bit is set and in `+` otherwise, after the SDL axis name |
| InputCodes.GamepadFromStringAsWritten | src/input_device.cpp:161-176 | the code as written never returns a negative axis code |
| InputCodes.NegativeAxisLosesDirection | src/input_device.cpp:161-176 | the name of a negative axis event reads back as the positive axis key |
| InputCodes.GamepadFromString | src/input_device.cpp:161-176 | a negative code is returned only for a name ending in `-` |
| InputCodes.GamepadRoundTrip | src/input_device.cpp:145-176 | every button and signed axis code survives a trip through its name |
| InputNames.NameOf | src/input_device.hpp:40-47 | a name exists iff the value is in range, and it is the table entry |
| InputNames.FromName | src/input_device.hpp:49-54 | gives the first index holding the string, and none iff the string is not in the table |
| InputNames.InputTypeRoundTrip | src/input_device.hpp:40-54 | every input type survives a trip through its name; out-of-range types and unknown strings give none |
| InputNames.ControllerRoundTrip | src/input_device.hpp:129-142 | the same for all 22 controller inputs |
| InputNames.DefaultBindingsShape | src/input_device.hpp:154-162 | the default mapping binds A..Right and R2→Turbo in slot 0 only, and every other slot is empty |
| GbRegisters.Get | src/gb_proxy.c:72-93 | an unknown register aborts; an 8-bit register reads below 256 |
| GbRegisters.Set | src/gb_proxy.c:95-116 | an unknown register aborts |
| GbRegisters.GetAfterSet | src/gb_proxy.c:58-116 | reading after setting to v gives v for a 16-bit register and `v mod 256` for an 8-bit one; other registers are unchanged |
| GbRegisters.SetWhatIsThere | src/gb_proxy.c:58-116 | writing back the value just read changes nothing |
| GbRegisters.Palette | src/gb_proxy.c:135-152 | background and OAM select four entries at `4*(index % 8)`; every other type gives the fixed grey palette |
| GbRegisters.PaletteIndexWraps | src/gb_proxy.c:151 | indices i and i+8 select the same palette |
| Tileset.GridLayout | src/gb_proxy.c:194-213 | every block has a tile index below 384 and a bank of 0 or 1, its address lies below 0x9800, and different blocks name different tiles |
| Tileset.SpriteTile | src/gb_proxy.c:231-234 | in 8x16 mode the sprite's tile has its low bit cleared |
| Tileset.SpritePalette | src/gb_proxy.c:254 | `flags & 7` in CGB mode and bit 4 of the flags otherwise |
| Tileset.FirstSprite | src/gb_proxy.c:222-268 | the first of the 40 OAM entries that uses the tile and is on screen, and none iff there is no such entry |
| Tileset.MapTileId | src/gb_proxy.c:273-279 | in 8800 mode, ids below 128 become id + 0x100; otherwise the id is kept |
| Tileset.MapTileIdInjective | src/gb_proxy.c:273-279 | different ids never land on the same tile |
| Tileset.FirstCell | src/gb_proxy.c:303-318 | the first map cell in row-major order that uses the tile, and none iff no cell does |
| Tileset.SpriteInfo | src/gb_proxy.c:220-269 | an OAM hit exists iff sprites are on and some visible sprite uses the tile; it records that sprite's palette, tile and index |
| Tileset.MapHit | src/gb_proxy.c:272-300 | a map hit records the access type and the block's own tile index and bank |
| Tileset.Classify | src/gb_proxy.c:215-319 | OAM takes precedence over the window, which takes precedence over the background; a block nothing uses stays zero |
| Tileset.TallMatchEvenColumn | src/gb_proxy.c:228-265 | an 8x16 sprite hit is always on an even column, so the next block is on the same row |
| Tileset.MarkNotChained | src/gb_proxy.c:259-265 | a block marked by the tile before it is on an odd column and has no OAM hit of its own |
| Tileset.OamAccess | src/gb_proxy.c:220-269 | a block is OAM-accessed iff a sprite uses it or, in 8x16 mode, the tile before it |
| Tileset.DmgUsesBankZero | src/gb_proxy.c:227-290 | outside CGB mode only bank 0 is ever marked as accessed |
| Tileset.AllOff | src/gb_proxy.c:181-192 | with sprites and background/window off, no block is accessed |
| Tileset.NextMarked | src/gb_proxy.c:259-265 | the next block is marked iff this one had its own OAM hit and sprites are 8x16 |
| Tileset.VisitBlock | src/gb_proxy.c:194-325 | one iteration fixes this block's entry and pre-marks only the next one |
| Tileset.TilesetObjectInfo | src/gb_proxy.c:165-326 | the loop leaves every one of the 768 entries equal to the block-wise definition |
| TraceExport.PairFlagBit | src/debugger_break_and_trace_results_dialog.cpp:95-120 | testing a flag mask on the packed AF pair is testing F |
| TraceExport.ShowInfo | src/debugger_break_and_trace_results_dialog.cpp:90-120 | no selection gives zeros and `____`; otherwise both bytes of each pair are recovered, and each flag letter appears iff its bit is set |
| TraceExport.PanelText | src/debugger_break_and_trace_results_dialog.cpp:124 | the panel text is 85 characters of register lines followed by the four flag characters |
| TraceExport.RegisterPair | src/debugger_break_and_trace_results_dialog.cpp:124 | one register line is 20 characters, with the two values as four hex digits at columns 5 and 16 |
| TraceExport.PanelFirstLine | src/debugger_break_and_trace_results_dialog.cpp:124 | AF and HL sit as four lower-case hex digits at columns 17 and 28 of the text |
| TraceExport.PanelSecondLine | src/debugger_break_and_trace_results_dialog.cpp:124 | BC and SP sit as four lower-case hex digits at columns 39 and 50 of the text |
| TraceExport.PanelThirdLine | src/debugger_break_and_trace_results_dialog.cpp:124 | DE and PC sit as four lower-case hex digits at columns 61 and 72 of the text |
| TraceExport.PanelTextReadsBack | src/debugger_break_and_trace_results_dialog.cpp:124 | the register values read back from the panel text |
| TraceExport.FormatOfExtension | src/debugger_break_and_trace_results_dialog.cpp:144 | `.csv` gives CSV, `.json` gives JSON, and upper-case `.CSV` gives JSON |
| TraceExport.PreorderDepths | src/debugger_break_and_trace_results_dialog.cpp:188-244 | no row is shallower than its directory, and a directory's first row is its first node at that depth |
| TraceExport.PreorderRoundTrip | src/debugger_break_and_trace_results_dialog.cpp:188-263 | the pre-order rows with their depths determine the whole tree, so the export loses no node and no nesting |
| TraceExport.FlagDigit | src/debugger_break_and_trace_results_dialog.cpp:206-209 | a flag column is `1` iff the bit is set and `0` otherwise |
| TraceExport.CsvRowFlags | src/debugger_break_and_trace_results_dialog.cpp:195-210 | each row ends with the four flag columns C, H, N, Z |
| TraceExport.CsvRowDepth | src/debugger_break_and_trace_results_dialog.cpp:197-198 | the first column of a row reads back as the node's depth |
| TraceExport.CsvLines | src/debugger_break_and_trace_results_dialog.cpp:174-263 | the header line, then one row per node in pre-order |
| TraceExport.Members | src/debugger_break_and_trace_results_dialog.cpp:213-236 | an object has eleven member texts; the first ten start with a quote and end with a comma, the last is `"zero"` and ends with a comma exactly when children follow |
| TraceExport.MembersRule | src/debugger_break_and_trace_results_dialog.cpp:213-237 | the ten member lines before `"zero"` end with a comma |
| TraceExport.DirRule | src/debugger_break_and_trace_results_dialog.cpp:188-261 | a directory's lines keep the comma rule, and run from `{` to a final `}` |
| TraceExport.NodeRule | src/debugger_break_and_trace_results_dialog.cpp:213-260 | an object's lines keep the comma rule and close with `}` if it is last in its list and `},` otherwise |
| TraceExport.JsonWellPunctuated | src/debugger_break_and_trace_results_dialog.cpp:177-268 | the whole file sits between `[` and `]`, and a line ends with a comma exactly when the next line does not close a bracket |
| TraceExport.ZeroComma | src/debugger_break_and_trace_results_dialog.cpp:236 | the `"zero"` line ends with a comma iff the node has children |
| TraceExport.ExportLines | src/debugger_break_and_trace_results_dialog.cpp:144-268 | the lines written are the CSV lines for a `.csv` path and the indented JSON lines otherwise |
| ModelDialog.RevisionIndex | src/edit_advanced_game_boy_model_dialog.cpp:92-101 | the last index whose revision equals the current one, or 0 if none does |
| ModelDialog.SelectRevision | src/edit_advanced_game_boy_model_dialog.cpp:92-102 | the loop selects that index, and the combo is enabled iff there is more than one revision |
| ModelDialog.RevisionChoice | src/edit_advanced_game_boy_model_dialog.cpp:150-178 | only the GBC and SGB tabs offer a choice of revision |
| ModelDialog.PathOf | src/edit_advanced_game_boy_model_dialog.cpp:263-270 | empty text becomes no path; any other text becomes that path |
| ModelDialog.InitialTab | src/edit_advanced_game_boy_model_dialog.cpp:57-101 | the tab shows the stored revision when it is offered, and otherwise one that is offered |
| ModelDialog.CommitTab | src/edit_advanced_game_boy_model_dialog.cpp:243-275 | revision, custom switch, border and path come from the tab; fast boot comes from it only where the tab has a skip-intro box |
| ModelDialog.Commit | src/edit_advanced_game_boy_model_dialog.cpp:243-275 | every type's settings are committed from its own tab |
| ModelDialog.TabRoundTrip | src/edit_advanced_game_boy_model_dialog.cpp:57-275 | committing an untouched tab gives back the stored settings |
| ModelDialog.ReopenUnchanged | src/edit_advanced_game_boy_model_dialog.cpp:57-275 | pressing OK on an untouched dialog leaves every setting as it was |
| ModelDialog.UntouchedDialogResetsAsWritten | src/edit_advanced_game_boy_model_dialog.cpp:205-232 | with a stored path and custom ROMs off, OK on an untouched dialog asks to reset under the code as written but not under the corrected rule |
| ModelDialog.NoGameNoReset | src/edit_advanced_game_boy_model_dialog.cpp:203-232 | with no ROM loaded, no reset is ever required |
| ModelDialog.UntouchedDialogKeepsGame | src/edit_advanced_game_boy_model_dialog.cpp:205-232 | under the corrected rule, an untouched dialog never requires a reset |
| ModelDialog.NoResetKeepsGame | src/edit_advanced_game_boy_model_dialog.cpp:209-285 | when the corrected rule requires no reset, the running type keeps its revision, its effective boot ROM (unless GBC fast boot overrides it) and its fast-boot setting |
| ModelDialog.Finish | src/edit_advanced_game_boy_model_dialog.cpp:231-291 | given the reset decision: cancelled iff a reset is needed and not confirmed; otherwise the form is committed, the border follows the tab, and the game is reloaded iff a reset is needed, from the new settings |
| ModelDialog.AcceptAsWritten | src/edit_advanced_game_boy_model_dialog.cpp:201-291 | the code as written: cancelled iff the as-written rule asks for a reset and it is not confirmed; otherwise the form is committed and the game is reloaded iff that rule asked for a reset |
| ModelDialog.Accept | src/edit_advanced_game_boy_model_dialog.cpp:201-291 | corrected (compares the text field with the stored path): cancelled iff a reset is required and not confirmed; otherwise the form is committed, the border follows the tab, and the game is reloaded iff a reset is required, with the tab's revision and boot ROM |
| ModelDialog.AcceptAgrees | src/edit_advanced_game_boy_model_dialog.cpp:206-227 | when custom boot ROMs are allowed or no path is stored, the code as written and the corrected version give the same outcome |
| ModelDialog.UntouchedDialogAcceptAsWritten | src/edit_advanced_game_boy_model_dialog.cpp:206-239 | for the "boot.bin" settings with custom ROMs off, the code as written cancels everything when the user declines and reloads when the user confirms; the corrected version applies the form with no reload |
| SpeedDialog.SliderRanges | src/edit_speed_control_settings_dialog.cpp:79-89 | turbo 4..32 with tick 4, slowmo 0..20 with tick 5, rewind 3..36 with tick 3 |
| SpeedDialog.Clamp | src/edit_speed_control_settings_dialog.cpp:164-166 | the slider keeps a value in range and moves an out-of-range one to the nearer bound |
| SpeedDialog.UnsignedQuotient | src/edit_speed_control_settings_dialog.cpp:164-166 | for non-negative text the quotient is the plain integer quotient |
| SpeedDialog.SliderForTextAsWritten | src/edit_speed_control_settings_dialog.cpp:159-171 | the code as written always lands the slider within its range |
| SpeedDialog.NegativeTextAsWritten | src/edit_speed_control_settings_dialog.cpp:164-166 | under the code as written, a negative value drives the slider to its maximum |
| SpeedDialog.SliderForText | src/edit_speed_control_settings_dialog.cpp:159-171 | the corrected conversion also lands within range |
| SpeedDialog.NegativeText | src/edit_speed_control_settings_dialog.cpp:164-166 | under the corrected conversion, a negative value moves the slider to its minimum |
| SpeedDialog.SliderRoundTrip | src/edit_speed_control_settings_dialog.cpp:164-181 | slider → text → slider is the identity under both conversions |
| SpeedDialog.TextRoundsDown | src/edit_speed_control_settings_dialog.cpp:164-181 | text → slider → text rounds a non-negative in-range value down to a multiple of the granularity |
| SpeedDialog.Amount | src/edit_speed_control_settings_dialog.cpp:127-129 | parsed iff the text is a number, and then its value |
| SpeedDialog.AcceptAsWritten | src/edit_speed_control_settings_dialog.cpp:125-157 | the code as written: every refusal is silent; the check naming slowmo fails only on a bad slowmo parse or a negative turbo, and the one naming turbo only on a bad turbo parse or a negative slowmo |
| SpeedDialog.Accept | src/edit_speed_control_settings_dialog.cpp:125-157 | corrected (each check tests its own field and its message is shown): accepted iff all three fields parse and are non-negative; a refusal names the first bad field in check order; on acceptance the values and switches are stored, and rewind is reset iff its length changed |
| SpeedDialog.SilentRefusalAsWritten | src/edit_speed_control_settings_dialog.cpp:130-137 | as written, a rewind length that does not parse is refused with no message shown; the corrected version shows one |
| SpeedDialog.CrossWiredSameVerdict | src/edit_speed_control_settings_dialog.cpp:130-139 | the code as written refuses exactly the forms the corrected version refuses, and accepts with the same result |
| SpeedDialog.CrossWiredMessage | src/edit_speed_control_settings_dialog.cpp:138-139 | with valid rewind and slowmo but a negative turbo, the code as written is stopped by the check whose (unshown) box names slowmo, while the corrected one names turbo |
| SpeedDialog.CrossWiredExample | src/edit_speed_control_settings_dialog.cpp:138-139 | the concrete form turbo "-100", slowmo "50", rewind "60" is stopped by the slowmo-named check |
| SpeedDialog.AcceptUnchanged | src/edit_speed_control_settings_dialog.cpp:95-157 | OK on an untouched dialog keeps every value and does not reset rewind |
| SpeedDialog.OpeningSliders | src/edit_speed_control_settings_dialog.cpp:95-99 | the sliders start within their ranges under the as-written conversion |
| SpeedDialog.OpeningSlidersFollowWindow | src/edit_speed_control_settings_dialog.cpp:95-99 | with the non-negative amounts the window passes, each slider opens at its amount over the granularity, clamped, and the as-written unsigned division agrees with the signed one |
| GetLine.FirstBreak | src/getline.cpp:10-20 | the first line break, and none iff there is none |
| GetLine.ReadLine | src/getline.cpp:4-27 | with a line break, returns and counts the characters up to and including the first one, and the buffer is that line plus NUL; without one, returns -1 with `*n` = characters consumed, the buffer untouched and the stream exhausted |
| GetLine.ReadLineMeaning | src/getline.cpp:11-26 | success iff the stream holds a line break; the line ends with its only line break and its length is the return value and `*n` |
| GetLine.SplitUnique | src/getline.cpp:17-19 | only one line-and-rest split of that shape exists |
| GetLine.LinesCoverStream | src/getline.cpp:10-20 | reading line by line gives back the stream except a final fragment without a line break |

## Left out

- Threads, mutexes and busy-waits are not modelled: the game loop, input
  polling, the locking getters and setters, and the debugger's event loop.
  Each operation here is one sequential step.
- SDL audio is not modelled: sample queue heuristics, device set-up and
  rumble. These are device I/O and timing.
- Floating-point behaviour is not modelled:
  - the logarithmic volume scale, emulation-speed curves and frame-rate
    averaging;
  - the speed dialog's `/ 100.0` conversions.
- SpeedDialog.Amount: the source parses the three fields with `toDouble`.
  The model reads them as decimal integers, so fractional input is outside
  the model.
- Qt widgets, menus, file and message dialogs, and `QSettings` persistence
  are not modelled. Dialog answers and the loaded ROM flag are parameters
  instead.
- Calls into SameBoy are not modelled. Disassembler output is an input
  string, OAM/VRAM/registers are given as data, and the backtrace count
  and addresses are inputs.
- The SDL axis/button name tables and `QKeySequence` text are parameters
  (`SdlNames`, `sequenceText`, `parsed`). The gamepad round trip assumes
  the tables invert each other.
- The keyboard `load_sane_defaults` and the larger `InputType` set used by
  `input_device.cpp` are not modelled. The names and defaults follow
  `input_device.hpp`.
- The `.isx` loader is not modelled. The model keeps only the fact that
  it skips the header checks, and takes its return value as a parameter.
- `GB_model_t` numeric codes are not modelled. Revisions are an
  enumeration, since the dialog only compares them for equality.
- The per-type "allow custom boot ROM" switch is one field,
  `allowCustomBootRom`. The dialog reads and writes
  `*_allow_custom_boot_rom`, while `boot_rom_for_type` and the settings
  loader use `*_allow_external_boot_rom`. The header that would declare
  them is out of date, so the model takes them to be the same member.
- The Game Boy type enumeration is not modelled from a declaration. Its
  order GB, GBC, GBA, SGB, SGB2 is taken from the `switch` statements in
  `game_window.cpp`, because the header that declares it is out of date.
- Register aliasing is not modelled: SameBoy stores the 8-bit registers
  inside the 16-bit pairs. `GbRegisters` keeps every register in a cell of
  its own, so writing A does not change AF.
- TraceExport.CsvRow: `snprintf` truncates a row to 1023 characters. The
  model does not, so its flag-column property holds only for rows shorter
  than that.
- Instruction text is written into CSV and JSON without escaping, as in
  the source. The model makes no claim that the output parses as CSV or
  JSON when the text holds quotes or commas.
- Status-bar messages and `print_debug_message` output are not modelled.
- The tree widget, double-click navigation and the file dialog's default
  suffix are not modelled.
- The `vram_viewer`, printer, controls dialog and debugger window are not
  modelled. They are UI plumbing over SameBoy calls.
- File reads and writes in the two Python scripts are not modelled. They
  are pure functions over byte sequences, with exit codes as outcomes.
- The SGB skip-intro box: as in the source, changing it never makes the
  dialog ask for a reset. Only the GBC tab compares fast boot.

- Padder.Run: Python's `int()` also accepts Unicode decimal digits
  other than 0 to 9 (for example "١٢") and strips U+001C to U+001F, which
  `str.isspace` counts as white space. The model accepts only the digits 0
  to 9 and trims the white space of `QChar::isSpace`, so for those lengths
  it reports `InvalidLength` where the script pads.
- Cartridge.Load: a failed `fopen`, a failed `ftell` and a failed buffer
  allocation are not modelled. They are I/O failures with their own
  status messages, and the model takes the file's bytes as given. What
  the `.isx` loader returns is a parameter, not computed from the file.

## Findings

| source | as written | input that shows it | evidently intended | confidence | as-written member | corrected member |
|---|---|---|---|---|---|---|
| src/game_disassembler.cpp:298 | for `CALL` with a comma, the follow target is `mid(5, length - comma - 5)`: a slice after `CALL ` whose length depends on what follows the comma, never the call target | `CALL NZ, $1234` follows "NZ"; `CALL C, $1234` follows "C," | follow the text after the comma, as the newer debugger view does | high, not executed | FollowTargets.GameCallCarryFollowsConditionComma | FollowTargets.ConditionalTargetAfterComma |
| src/edit_speed_control_settings_dialog.cpp:164-166 | `toInt()` divided by a `uint32_t` granularity converts a negative value to unsigned. This is latent: `update_sliders` runs only from the constructor (line 99), on window values that are clamped to at least 0 and only ever stored after passing the non-negative checks, so no negative text reaches it in this source | text "-100", if it reached the division, would put the turbo slider at its maximum, 800% | a negative value moves the slider to its minimum | low (latent), not executed | SpeedDialog.NegativeTextAsWritten | SpeedDialog.NegativeText |
| src/edit_advanced_game_boy_model_dialog.cpp:206-227 | the effective boot ROM is compared with the text field. The effective ROM is empty when custom ROMs are off; the field shows the stored path | GB, ROM loaded, stored path "boot.bin", custom off, OK pressed without changes: the dialog asks to reset, and declining throws away the (unchanged) form | compare the field with the stored path | medium, not executed | ModelDialog.UntouchedDialogAcceptAsWritten | ModelDialog.Accept |
| src/game_window.cpp:1813-1821 | with a buffer length of 0, a successful load erases the first element of an empty vector and writes slot -1 | capacity 0, any successful load | keep no backup when the capacity is 0 | medium, not executed | SaveStates.ZeroCapacityLoadUndefined | SaveStates.LoadMatchesAsWritten |
| src/input_device.cpp:161-166 | a name ending in `-` is looked up as an axis, but the sign is not put back into the code | the name of a negative axis event, such as "lefty-", reads back as the positive axis key | set the sign bit for a `-` suffix, so the name round-trips | high, not executed | InputCodes.NegativeAxisLosesDirection | InputCodes.GamepadRoundTrip |
| src/edit_speed_control_settings_dialog.cpp:138-139 | the slowmo check tests the turbo amount and the turbo check tests the slowmo amount. The same forms are refused either way, so the swap would show only in the message, which is never shown (next row) | turbo "-100", slowmo "50", rewind "60": the refusing check's message names slowmo | each check tests its own field | low (no visible effect today), not executed | SpeedDialog.CrossWiredExample | SpeedDialog.CrossWiredMessage |
| src/edit_speed_control_settings_dialog.cpp:130-133 | `COMPLAIN_IF_INVALID` builds a temporary `QMessageBox` and never calls `exec()` or `show()`, so a refusal gives no feedback | rewind text "abc": OK does nothing visible and the dialog stays open | show the message box (`exec()`) before returning | high, not executed | SpeedDialog.SilentRefusalAsWritten | SpeedDialog.Accept |
| src/game_window.cpp:883-889 | after the read the stream is closed, and the too-small branch closes it again; closing a closed `FILE *` is undefined behaviour | any non-`.isx` file of 1 to 0x14F bytes | close the stream once | high, not executed | Cartridge.TooSmallClosesTwiceAsWritten | Cartridge.StreamCalls |

=== FILE: backtrace.dfy ===
/**
  `GameInstance::get_backtrace`: the call stack as (text, address)
  pairs. SameBoy supplies the number of frames, the return address of
  each frame and the text of its `backtrace` command; those become the
  parameters here.
 */
module Backtrace {
  import opened Bytes
  import opened Text

  /** The complete lines of `t`, without their `\n`; text after the last
      `\n` is not a line. */
  function Lines(t: string): (ls: seq<string>)
    ensures |ls| == Count(t, '\n')
    ensures forall k :: 0 <= k < |ls| ==> '\n' !in ls[k]
  {
    if t == [] then []
    else
      var init := t[..|t| - 1];
      if t[|t| - 1] == '\n' then
        var start := LastIndexOf(init, '\n') + 1;
        Lines(init) + [init[start..]]
      else Lines(init)
  }

  /** The lines of a prefix are a prefix of the lines. */
  lemma {:induction false} LinesOfPrefix(t: string, b: nat)
    requires b <= |t|
    ensures |Lines(t[..b])| <= |Lines(t)|
    ensures Lines(t[..b]) == Lines(t)[..|Lines(t[..b])|]
    decreases |t| - b
  {
    if b < |t| {
      LinesOfPrefix(t, b + 1);
      assert t[..b + 1][..b] == t[..b];
    } else {
      assert t[..b] == t;
    }
  }

  /** A line break closes the line that started after the previous one. */
  lemma LinesSnocBreak(init: string)
    ensures Lines(init + ['\n']) == Lines(init) + [init[LastIndexOf(init, '\n') + 1..]]
  {
    var p := init + ['\n'];
    assert p[..|p| - 1] == init;
  }

  lemma LastBreakSnoc(init: string)
    ensures LastIndexOf(init + ['\n'], '\n') == |init|
  {
  }

  /** Any other character adds no line and moves no line start. */
  lemma LinesSnocOther(init: string, c: char)
    requires c != '\n'
    ensures Lines(init + [c]) == Lines(init)
    ensures LastIndexOf(init + [c], '\n') == LastIndexOf(init, '\n')
  {
    var p := init + [c];
    assert p[..|p| - 1] == init;
  }

  /** The text of one frame and its address. */
  datatype Frame = Frame(text: string, address: u16)

  /** The address half: frame 0 is the current PC and frame `n - b` the
      return address SameBoy numbers `b`; `returnAddress[0]` is not used. */
  method AssignAddresses(count: nat, returnAddress: seq<u16>, pc: u16) returns (frames: seq<Frame>)
    requires |returnAddress| == count
    ensures |frames| == count
    ensures forall i :: 0 <= i < count ==> frames[i].text == ""
    ensures count > 0 ==> frames[0].address == pc
    ensures forall b :: 1 <= b < count ==> frames[count - b].address == returnAddress[b]
  {
    frames := seq(count, _ => Frame("", 0));
    var b := 1;
    while b < count
      invariant 1 <= b <= count || count == 0
      invariant |frames| == count
      invariant forall i :: 0 <= i < count ==> frames[i].text == ""
      invariant forall c :: 1 <= c < b && c < count ==> frames[count - c].address == returnAddress[c]
    {
      frames := frames[count - b := frames[count - b].(address := returnAddress[b])];
      b := b + 1;
    }
    if count > 0 {
      frames := frames[0 := frames[0].(address := pc)];
    }
  }

  /** The state of the text loop after reading `t[..b]`: `line` complete
      lines went to the first frames, the line being read starts at
      `start`, and everything else is as it was. */
  predicate Assigned(frames0: seq<Frame>, frames: seq<Frame>, t: string, b: nat, line: nat, start: int)
  {
    b <= |t| && |frames| == |frames0| && line == |Lines(t[..b])| && line <= |frames0| &&
    start == LastIndexOf(t[..b], '\n') + 1 &&
    (forall i :: 0 <= i < |frames| ==> frames[i].address == frames0[i].address) &&
    (forall i :: 0 <= i < line ==> frames[i].text == Lines(t[..b])[i]) &&
    (forall i :: line <= i < |frames| ==> frames[i].text == frames0[i].text)
  }

  /** One iteration: read `t[b]`, and on a line break hand the line that
      ends there to the next frame. */
  method ReadChar(frames0: seq<Frame>, frames: seq<Frame>, t: string, b: nat, line: nat, start: int)
    returns (frames': seq<Frame>, line': nat, start': int)
    requires b < |t| && line < |frames0| && Assigned(frames0, frames, t, b, line, start)
    ensures Assigned(frames0, frames', t, b + 1, line', start')
  {
    TakeSnoc(t, b);
    if t[b] == '\n' {
      frames', line', start' := ReadBreak(frames0, frames, t, b, line, start);
    } else {
      LinesSnocOther(t[..b], t[b]);
      frames', line', start' := frames, line, start;
    }
  }

  /** A line break at `t[b]` ends line number `line`. */
  method ReadBreak(frames0: seq<Frame>, frames: seq<Frame>, t: string, b: nat, line: nat, start: int)
    returns (frames': seq<Frame>, line': nat, start': int)
    requires b < |t| && t[b] == '\n' && line < |frames0| && Assigned(frames0, frames, t, b, line, start)
    ensures Assigned(frames0, frames', t, b + 1, line', start')
  {
    var init := t[..b];
    TakeSnoc(t, b);
    LinesSnocBreak(init);
    LastBreakSnoc(init);
    var l := t[start..b];
    assert init[start..] == l;
    frames' := frames[line := frames[line].(text := l)];
    start' := b + 1;
    line' := line + 1;
    HandOver(frames0, frames, frames', Lines(init), l, line);
  }

  /** Giving frame `line` the next line keeps the frames consistent. */
  lemma HandOver(frames0: seq<Frame>, frames: seq<Frame>, frames': seq<Frame>, lines: seq<string>, l: string, line: nat)
    requires |frames| == |frames0| && line < |frames| && |lines| == line
    requires frames' == frames[line := frames[line].(text := l)]
    requires forall i :: 0 <= i < |frames| ==> frames[i].address == frames0[i].address
    requires forall i :: 0 <= i < line ==> frames[i].text == lines[i]
    requires forall i :: line <= i < |frames| ==> frames[i].text == frames0[i].text
    ensures |frames'| == |frames0|
    ensures forall i :: 0 <= i < |frames'| ==> frames'[i].address == frames0[i].address
    ensures forall i :: 0 <= i < line + 1 ==> frames'[i].text == (lines + [l])[i]
    ensures forall i :: line + 1 <= i < |frames'| ==> frames'[i].text == frames0[i].text
  {
  }

  /** The text half: the first frames take the complete lines of the text
      in order, at most one per frame; the others keep their text. */
  method AssignLines(frames0: seq<Frame>, text: string) returns (frames: seq<Frame>)
    ensures |frames| == |frames0|
    ensures forall i :: 0 <= i < |frames| ==> frames[i].address == frames0[i].address
    ensures forall i :: 0 <= i < |frames| ==>
      frames[i].text == if i < |Lines(text)| then Lines(text)[i] else frames0[i].text
  {
    frames := frames0;
    var start := 0;
    var line: nat := 0;
    var b: nat := 0;
    assert text[..0] == [];
    while b < |text| && line < |frames0|
      invariant Assigned(frames0, frames, text, b, line, start)
      decreases |text| - b
    {
      frames, line, start := ReadChar(frames0, frames, text, b, line, start);
      b := b + 1;
    }
    LinesOfPrefix(text, b);
    if b == |text| {
      assert text[..b] == text;
    }
  }

  /** The whole of `get_backtrace`. */
  method GetBacktrace(count: nat, returnAddress: seq<u16>, pc: u16, text: string) returns (frames: seq<Frame>)
    requires |returnAddress| == count
    ensures |frames| == count
    ensures count > 0 ==> frames[0].address == pc
    ensures forall b :: 1 <= b < count ==> frames[count - b].address == returnAddress[b]
    ensures forall i :: 0 <= i < count ==>
      frames[i].text == if i < |Lines(text)| then Lines(text)[i] else ""
  {
    var addressed := AssignAddresses(count, returnAddress, pc);
    frames := AssignLines(addressed, text);
  }
}

=== FILE: bytes.dfy ===
/**
  Fixed-width unsigned integers and the small failure-carrying datatypes
  shared by every other module. Integers are unbounded in Dafny; each
  width below is a subset of `int`, and every wrap-around the C++ code
  performs is written out explicitly where it happens.
 */
module Bytes {

  type byte = b: int | 0 <= b < 0x100
  type u16 = v: int | 0 <= v < 0x1_0000
  type u32 = v: int | 0 <= v < 0x1_0000_0000

  /** The C++ `std::optional` / a nullable pointer. */
  datatype Option<+T> = None | Some(value: T)

  /** A value reduced modulo 2^8, as a store into a `uint8_t` does. */
  function Wrap8(x: int): (r: byte)
    ensures (r - x) % 0x100 == 0
  {
    x % 0x100
  }

  /** A value reduced modulo 2^16, as a store into a `uint16_t` does. */
  function Wrap16(x: int): (r: u16)
    ensures (r - x) % 0x1_0000 == 0
  {
    x % 0x1_0000
  }

  /** Wrapping leaves a value that already fits in 16 bits alone. */
  lemma Wrap16Small(x: int)
    requires 0 <= x < 0x1_0000
    ensures Wrap16(x) == x
  {
  }

  /** The high byte of a 16-bit value. */
  function Hi(v: u16): byte { v / 0x100 }

  /** The low byte of a 16-bit value. */
  function Lo(v: u16): byte { v % 0x100 }

  /** `hi << 8 | lo` on two bytes: the register-pair packing. */
  function Pack(hi: byte, lo: byte): (r: u16)
    ensures Hi(r) == hi && Lo(r) == lo
  {
    hi * 0x100 + lo
  }

  /** Bit `k` of a non-negative value, i.e. `(v >> k) & 1 != 0`. */
  predicate Bit(v: nat, k: nat)
  {
    (v / Pow2(k)) % 2 == 1
  }

  function Pow2(k: nat): (r: nat)
    ensures r >= 1
  {
    if k == 0 then 1 else 2 * Pow2(k - 1)
  }

  // Sequence equalities that are cheap on their own and expensive inside
  // a large proof context.

  /** A non-empty sequence is its front followed by its last element. */
  lemma InitLast<T>(s: seq<T>)
    requires s != []
    ensures s[..|s| - 1] + [s[|s| - 1]] == s
  {
  }

  /** The three parts of a concatenation, sliced back out. */
  lemma Concat3<T>(a: seq<T>, b: seq<T>, c: seq<T>)
    ensures var s := a + b + c;
      s[..|a|] == a && s[|a|..|a| + |b|] == b && s[|a| + |b|..] == c
  {
  }

  /** The last `k` elements of `a + b` are the last `k` of `b`. */
  lemma SuffixOfAppend<T>(a: seq<T>, b: seq<T>, k: nat)
    requires k <= |b|
    ensures (a + b)[|a + b| - k..] == b[|b| - k..]
  {
  }

  /** A slice inside the left operand of `+`. */
  lemma SliceOfLeft<T>(x: seq<T>, y: seq<T>, i: nat, j: nat)
    requires i <= j <= |x|
    ensures (x + y)[i..j] == x[i..j]
  {
  }

  /** A slice inside the right operand of `+`, shifted by the left one. */
  lemma SliceOfRight<T>(x: seq<T>, y: seq<T>, i: nat, j: nat)
    requires i <= j <= |y|
    ensures (x + y)[|x| + i..|x| + j] == y[i..j]
  {
  }

  /** The middle operand of `x + y + z` sits right after `x`. */
  lemma SliceOfMiddle<T>(x: seq<T>, y: seq<T>, z: seq<T>)
    ensures (x + y + z)[|x|..|x| + |y|] == y
  {
  }

  /** A slice of a slice. */
  lemma SliceOfSlice<T>(s: seq<T>, k: nat, n: nat, i: nat, j: nat)
    requires k + n <= |s| && i <= j <= n
    ensures s[k + i..k + j] == s[k..k + n][i..j]
  {
    var a := s[k..k + n];
    forall m | 0 <= m < j - i
      ensures a[i..j][m] == s[k + i..k + j][m]
    {
      assert a[i + m] == s[k + i + m];
    }
  }

  /** Cutting at two points and gluing the parts back. */
  lemma Split3<T>(s: seq<T>, i: nat, j: nat)
    requires i <= j <= |s|
    ensures s == s[..i] + s[i..j] + s[j..]
  {
  }

  /** A slice of a prefix is a slice of the whole. */
  lemma InfixOfPrefix<T>(s: seq<T>, k: nat, i: nat, j: nat)
    requires i <= j <= k <= |s|
    ensures s[..k][i..j] == s[i..j]
  {
  }

  /** Taking the whole length gives the sequence back. */
  lemma TakeAll<T>(s: seq<T>)
    ensures s[..|s|] == s
  {
  }

  lemma TakeSnoc<T>(s: seq<T>, n: nat)
    requires n < |s|
    ensures s[..n + 1] == s[..n] + [s[n]]
  {
  }
}

=== FILE: cartridge.dfy ===
/**
  The integrity checks `GameWindow::load_rom` runs on a ROM image before
  handing it to the emulator, following the cartridge header layout of
  the Pan Docs ("The Cartridge Header"): the header checksum at 0x14D,
  the logo at 0x104-0x133 and the big-endian global checksum at
  0x14E-0x14F, combined into a "corrupt" and an "incompatible" verdict.
 */
module Cartridge {
  import opened Bytes

  /** A ROM shorter than this has no complete header and is rejected. */
  const MinRomSize: nat := 0x150

  const HeaderStart: nat := 0x134
  const HeaderChecksumAt: nat := 0x14D
  const GlobalChecksumAt: nat := 0x14E
  const LogoAt: nat := 0x104

  /** The 48 logo bytes every cartridge must carry at 0x104. */
  const Logo: seq<byte> := [
    0xCE, 0xED, 0x66, 0x66, 0xCC, 0x0D, 0x00, 0x0B, 0x03, 0x73, 0x00, 0x83,
    0x00, 0x0C, 0x00, 0x0D, 0x00, 0x08, 0x11, 0x1F, 0x88, 0x89, 0x00, 0x0E,
    0xDC, 0xCC, 0x6E, 0xE6, 0xDD, 0xDD, 0xD9, 0x99, 0xBB, 0xBB, 0x67, 0x63,
    0x6E, 0x0E, 0xEC, 0xCC, 0xDD, 0xDC, 0x99, 0x9F, 0xBB, 0xB9, 0x33, 0x3E]

  /** The plain sum of some bytes. */
  function Sum(s: seq<byte>): nat
  {
    if s == [] then 0 else Sum(s[..|s| - 1]) + s[|s| - 1]
  }

  lemma {:induction false} SumAppend(a: seq<byte>, b: seq<byte>)
    ensures Sum(a + b) == Sum(a) + Sum(b)
    decreases |b|
  {
    if b == [] {
      assert a + b == a;
    } else {
      assert (a + b)[..|a + b| - 1] == a + b[..|b| - 1];
      SumAppend(a, b[..|b| - 1]);
    }
  }

  /** The header checksum fold `x = x - b - 1` in a `uint8_t`, starting at
      0, over the given bytes in order. */
  function HeaderFold(s: seq<byte>): byte
  {
    if s == [] then 0 else Wrap8(HeaderFold(s[..|s| - 1]) - s[|s| - 1] - 1)
  }

  lemma ModShift8(x: int, y: int)
    ensures (x % 0x100 - y) % 0x100 == (x - y) % 0x100
  {
    var q := x / 0x100;
    assert x == q * 0x100 + x % 0x100;
  }

  lemma ModShift16(x: int, y: int)
    ensures (x % 0x1_0000 + y) % 0x1_0000 == (x + y) % 0x1_0000
  {
    var q := x / 0x1_0000;
    assert x == q * 0x1_0000 + x % 0x1_0000;
  }

  /** The fold is the negated sum of the bytes, one subtracted per byte,
      reduced modulo 256: the closed form the Pan Docs give. */
  lemma {:induction false} HeaderFoldClosedForm(s: seq<byte>)
    ensures HeaderFold(s) == (-(Sum(s) + |s|)) % 0x100
    decreases |s|
  {
    if s != [] {
      var init := s[..|s| - 1];
      HeaderFoldClosedForm(init);
      ModShift8(-(Sum(init) + |init|), s[|s| - 1] as int + 1);
    }
  }

  /** The loop over 0x134..0x14C as written. */
  method ComputeHeaderChecksum(rom: seq<byte>) returns (x: byte)
    requires |rom| >= MinRomSize
    ensures x == HeaderFold(rom[HeaderStart..HeaderChecksumAt])
    ensures x == (-(Sum(rom[HeaderStart..HeaderChecksumAt]) + 25)) % 0x100
  {
    x := 0;
    var i := HeaderStart;
    while i < HeaderChecksumAt
      invariant HeaderStart <= i <= HeaderChecksumAt
      invariant x == HeaderFold(rom[HeaderStart..i])
    {
      assert rom[HeaderStart..i + 1][..i - HeaderStart] == rom[HeaderStart..i];
      x := Wrap8(x - rom[i] - 1);
      i := i + 1;
    }
    HeaderFoldClosedForm(rom[HeaderStart..HeaderChecksumAt]);
  }

  predicate ValidHeaderChecksum(rom: seq<byte>)
    requires |rom| >= MinRomSize
  {
    HeaderFold(rom[HeaderStart..HeaderChecksumAt]) == rom[HeaderChecksumAt]
  }

  /** All 48 logo bytes match. */
  predicate ValidLogo(rom: seq<byte>)
    requires |rom| >= MinRomSize
  {
    rom[LogoAt..LogoAt + 48] == Logo
  }

  /** Only the first half (24 bytes) of the logo matches; this is all a
      Game Boy Color checks. */
  predicate ValidLogoCgb(rom: seq<byte>)
    requires |rom| >= MinRomSize
  {
    rom[LogoAt..LogoAt + 24] == Logo[..24]
  }

  /** A full logo match implies the half match. */
  lemma FullLogoImpliesCgbLogo(rom: seq<byte>)
    requires |rom| >= MinRomSize
    ensures ValidLogo(rom) ==> ValidLogoCgb(rom)
  {
    if ValidLogo(rom) {
      assert rom[LogoAt..LogoAt + 24] == rom[LogoAt..LogoAt + 48][..24];
    }
  }

  /** The 16-bit wrapping sum of every byte except the two checksum bytes. */
  function GlobalSum(rom: seq<byte>): u16
    requires |rom| >= MinRomSize
  {
    Wrap16(Sum(rom[..GlobalChecksumAt]) + Sum(rom[MinRomSize..]))
  }

  /** The checksum stored big-endian at 0x14E-0x14F; the byte swap the
      code performs on little-endian hosts makes the result the same on
      both byte orders. */
  function StoredGlobalChecksum(rom: seq<byte>): (c: u16)
    requires |rom| >= MinRomSize
    ensures Hi(c) == rom[GlobalChecksumAt] && Lo(c) == rom[GlobalChecksumAt + 1]
  {
    Pack(rom[GlobalChecksumAt], rom[GlobalChecksumAt + 1])
  }

  /** The two accumulation loops as written: everything before 0x14E, then everything from 0x150 on. */
  method ComputeGlobalChecksum(rom: seq<byte>) returns (sum: u16)
    requires |rom| >= MinRomSize
    ensures sum == GlobalSum(rom)
    ensures sum == (Sum(rom) - rom[GlobalChecksumAt] as int - rom[GlobalChecksumAt + 1]) % 0x1_0000
  {
    sum := AddRange(rom, 0, GlobalChecksumAt, 0);
    assert rom[0..GlobalChecksumAt] == rom[..GlobalChecksumAt];
    ghost var low := Sum(rom[..GlobalChecksumAt]);
    var front := sum;
    sum := AddRange(rom, MinRomSize, |rom|, front);
    assert rom[MinRomSize..|rom|] == rom[MinRomSize..];
    ModShift16(low, Sum(rom[MinRomSize..]));
    GlobalSumExcludesChecksum(rom);
  }

  /** One accumulation loop: adds rom[lo..hi] to a 16-bit running sum, wrapping. */
  method AddRange(rom: seq<byte>, lo: nat, hi: nat, start: u16) returns (sum: u16)
    requires lo <= hi <= |rom|
    ensures sum == (start + Sum(rom[lo..hi])) % 0x1_0000
  {
    sum := start;
    var i := lo;
    assert rom[lo..lo] == [];
    while i < hi
      invariant lo <= i <= hi
      invariant sum == (start + Sum(rom[lo..i])) % 0x1_0000
    {
      SumSliceSnoc(rom, lo, i);
      ModShift16(start + Sum(rom[lo..i]), rom[i]);
      sum := Wrap16(sum + rom[i]);
      i := i + 1;
    }
  }

  lemma SumSliceSnoc(s: seq<byte>, lo: nat, i: nat)
    requires lo <= i < |s|
    ensures Sum(s[lo..i + 1]) == Sum(s[lo..i]) + s[i]
  {
    assert s[lo..i + 1][..i - lo] == s[lo..i];
  }

  lemma SumPair(m: seq<byte>)
    requires |m| == 2
    ensures Sum(m) == m[0] as int + m[1]
  {
    var head := m[..1];
    assert Sum(m) == Sum(head) + m[1];
    assert head[..0] == [];
    assert Sum(head) == Sum(head[..0]) + m[0];
  }

  /** The global sum covers the whole image except 0x14E and 0x14F. */
  lemma GlobalSumExcludesChecksum(rom: seq<byte>)
    requires |rom| >= MinRomSize
    ensures GlobalSum(rom) == (Sum(rom) - rom[GlobalChecksumAt] as int - rom[GlobalChecksumAt + 1]) % 0x1_0000
  {
    var low, mid, high := rom[..GlobalChecksumAt], rom[GlobalChecksumAt..MinRomSize], rom[MinRomSize..];
    Split3(rom, GlobalChecksumAt, MinRomSize);
    SumAppend(low + mid, high);
    SumAppend(low, mid);
    SumPair(mid);
  }

  predicate ValidGlobalChecksum(rom: seq<byte>)
    requires |rom| >= MinRomSize
  {
    GlobalSum(rom) == StoredGlobalChecksum(rom)
  }

  /** The three checks and the two verdicts drawn from them. */
  datatype Verdict = Verdict(
    headerOk: bool, logoOk: bool, logoCgbOk: bool, globalOk: bool,
    wouldLoad: bool, corrupt: bool, incompatible: bool)

  function Check(rom: seq<byte>, modelIsGbc: bool): (v: Verdict)
    requires |rom| >= MinRomSize
    ensures v.headerOk == ValidHeaderChecksum(rom)
    ensures v.logoOk == ValidLogo(rom)
    ensures v.logoCgbOk == ValidLogoCgb(rom)
    ensures v.globalOk == ValidGlobalChecksum(rom)
    ensures v.wouldLoad <==> v.headerOk && (if modelIsGbc then v.logoCgbOk else v.logoOk)
    ensures v.corrupt <==> !(v.headerOk && v.logoOk && v.globalOk)
    ensures v.incompatible <==> !v.wouldLoad
    ensures !v.corrupt ==> !v.incompatible
  {
    var header := ValidHeaderChecksum(rom);
    var logo := ValidLogo(rom);
    var logoCgb := ValidLogoCgb(rom);
    var global := ValidGlobalChecksum(rom);
    var wouldLoad := header && (if modelIsGbc then logoCgb else logo);
    FullLogoImpliesCgbLogo(rom);
    Verdict(header, logo, logoCgb, global, wouldLoad, !(logo && global && header), !wouldLoad)
  }

  /** Whether the warning dialog is shown, given which checks are enabled. */
  function Fails(v: Verdict, checkCorrupt: bool, checkCompatible: bool): (f: bool)
    ensures f <==> (checkCorrupt && v.corrupt) || (checkCompatible && v.incompatible)
  {
    var f0 := false;
    var f1 := if checkCorrupt then f0 || v.corrupt else f0;
    if checkCompatible then f1 || v.incompatible else f1
  }

  /** One line of the warning text per failed check. */
  datatype Issue = BadHeaderChecksum | BadLogoSecondHalf | BadLogo | BadGlobalChecksum

  function Issues(v: Verdict): (r: seq<Issue>)
    ensures BadHeaderChecksum in r <==> !v.headerOk
    ensures BadLogoSecondHalf in r <==> !v.logoOk && v.logoCgbOk
    ensures BadLogo in r <==> !v.logoOk && !v.logoCgbOk
    ensures BadGlobalChecksum in r <==> !v.globalOk
  {
    (if !v.headerOk then [BadHeaderChecksum] else [])
    + (if v.logoOk then [] else if v.logoCgbOk then [BadLogoSecondHalf] else [BadLogo])
    + (if !v.globalOk then [BadGlobalChecksum] else [])
  }

  /** How an attempt to open a ROM image ends. */
  datatype LoadOutcome =
    | ReadFailed                     // "Error: Failed to read ROM"
    | TooSmall                       // "Error: Invalid ROM"
    | Declined(issues: seq<Issue>)   // the user cancelled the warning
    | IsxFailed                      // the `.isx` loader failed: the game is not started, silently
    | Loaded

  /** The checks of `load_rom` once the file has been read. An `.isx`
      image goes to a different loader without any of these checks; that
      loader's return value is `isxResult`, and the game starts only when
      it is zero. An empty file fails at the read: `fread` with an element
      size of zero reads no element. `acceptWarning` is the user's answer
      to the warning dialog. */
  function Load(rom: seq<byte>, isIsx: bool, isxResult: int, modelIsGbc: bool,
                checkCorrupt: bool, checkCompatible: bool, acceptWarning: bool): (o: LoadOutcome)
    ensures isIsx ==> (o.Loaded? <==> isxResult == 0) && (o.IsxFailed? <==> isxResult != 0)
    ensures o.IsxFailed? ==> isIsx
    ensures !isIsx ==> (o.ReadFailed? <==> |rom| == 0)
    ensures !isIsx ==> (o.TooSmall? <==> 0 < |rom| < MinRomSize)
    ensures o.Declined? <==>
      !isIsx && |rom| >= MinRomSize && !acceptWarning
      && Fails(Check(rom, modelIsGbc), checkCorrupt, checkCompatible)
    ensures o.Declined? ==> o.issues == Issues(Check(rom, modelIsGbc))
  {
    if isIsx then (if isxResult == 0 then Loaded else IsxFailed)
    else if |rom| == 0 then ReadFailed
    else if |rom| < MinRomSize then TooSmall
    else if !(checkCorrupt || checkCompatible) then Loaded
    else
      var v := Check(rom, modelIsGbc);
      if Fails(v, checkCorrupt, checkCompatible) && !acceptWarning then Declined(Issues(v))
      else Loaded
  }

  /** A ROM whose three checks all pass is never questioned, whatever
      checks are enabled and whatever model is selected. */
  lemma IntactRomLoads(rom: seq<byte>, modelIsGbc: bool, checkCorrupt: bool, checkCompatible: bool, acceptWarning: bool)
    requires |rom| >= MinRomSize
    requires ValidHeaderChecksum(rom) && ValidLogo(rom) && ValidGlobalChecksum(rom)
    ensures Load(rom, false, 0, modelIsGbc, checkCorrupt, checkCompatible, acceptWarning) == Loaded
  {
  }

  // ---------------------------------------------------------------------
  // The file stream

  /** The calls `load_rom` makes on the stream of a non-`.isx` file, once
      `fopen` and the buffer allocation succeed. */
  datatype StreamCall = Open | SeekEnd | Tell | SeekStart | Read | Close

  /** Opened first, closed last, and neither in between: every call is
      made on an open stream and the stream is closed exactly once. */
  predicate ClosedOnce(t: seq<StreamCall>)
  {
    && |t| >= 2 && t[0] == Open && t[|t| - 1] == Close
    && forall i :: 0 < i < |t| - 1 ==> t[i] != Open && t[i] != Close
  }

  const StreamPrefix: seq<StreamCall> := [Open, SeekEnd, Tell, SeekStart, Read]

  /** The calls as written: a failed read closes the stream and returns,
      a good read closes it, and an image under 0x150 bytes then closes
      it a second time before returning. */
  function StreamCallsAsWritten(size: nat): (t: seq<StreamCall>)
  {
    if size == 0 then StreamPrefix + [Close]
    else if size < MinRomSize then StreamPrefix + [Close, Close]
    else StreamPrefix + [Close]
  }

  /** As written, an image of 1 to 0x14F bytes is closed twice; closing a
      closed stream is undefined behaviour in C. */
  lemma TooSmallClosesTwiceAsWritten(size: nat)
    requires 0 < size < MinRomSize
    ensures !ClosedOnce(StreamCallsAsWritten(size))
    ensures var t := StreamCallsAsWritten(size); t[|t| - 2] == Close && t[|t| - 1] == Close
  {
    var t := StreamCallsAsWritten(size);
    assert t[|t| - 2] == Close;
  }

  /** The calls with the second `fclose` removed. */
  function StreamCalls(size: nat): (t: seq<StreamCall>)
    ensures ClosedOnce(t)
    ensures size == 0 || size >= MinRomSize ==> t == StreamCallsAsWritten(size)
  {
    StreamPrefix + [Close]
  }
}

=== FILE: disassembly.dfy ===
/**
  The jump target of one disassembled instruction (the `add_follow`
  rules of both disassembler windows): the operand of `CALL`, `RST`,
  `JP` or `JR`.
 */
module FollowTargets {
  import opened Bytes
  import opened Text

  /** The `add_follow` lambda for one mnemonic prefix: `None` when the
      instruction does not start with it. With a comma, either the text
      after the comma is taken (`afterComma`) or the code's length
      arithmetic `len - comma - |prefix|` is used as a character count;
      without one, the text after the prefix. */
  function FollowFor(instr: string, prefix: string, afterComma: bool): (r: Option<string>)
    ensures r.Some? <==> StartsWith(instr, prefix)
  {
    if !StartsWith(instr, prefix) then None
    else Some(FollowText(instr, |prefix|, IndexOf(instr, ',', 0), afterComma))
  }

  /** The target text once a prefix of length `n` has matched, given the
      position of the first comma (-1 for none). */
  function FollowText(instr: string, n: nat, comma: int, afterComma: bool): string
    requires -1 <= comma < |instr|
  {
    if comma == -1 then Trim(Mid(instr, n, -1))
    else if afterComma then Trim(Mid(instr, comma + 1, -1))
    else Trim(Mid(instr, n, |instr| - comma - n))
  }

  /** The chain `CALL || RST || JP || JR`: the first prefix that matches
      decides; no match leaves the target empty. `callAfterComma` is the
      flag the copy passes for `CALL`. */
  function Follow(instr: string, callAfterComma: bool): string
  {
    match FollowFor(instr, "CALL ", callAfterComma)
    case Some(f) => f
    case None =>
      match FollowFor(instr, "RST ", false)
      case Some(f) => f
      case None =>
        match FollowFor(instr, "JP ", true)
        case Some(f) => f
        case None =>
          match FollowFor(instr, "JR ", true)
          case Some(f) => f
          case None => ""
  }

  // ---------------------------------------------------------------------
  // What the parser promises about the instruction text

  /** The four mnemonic prefixes exclude one another. */
  lemma PrefixesExclusive(instr: string)
    ensures StartsWith(instr, "RST ") ==> !StartsWith(instr, "CALL ")
    ensures StartsWith(instr, "JP ") ==> !StartsWith(instr, "CALL ") && !StartsWith(instr, "RST ")
    ensures StartsWith(instr, "JR ") ==>
      !StartsWith(instr, "CALL ") && !StartsWith(instr, "RST ") && !StartsWith(instr, "JP ")
  {
    if StartsWith(instr, "RST ") || StartsWith(instr, "JP ") || StartsWith(instr, "JR ") {
      assert instr[0] == 'R' || instr[0] == 'J';
      assert !StartsWith(instr, "CALL ") by {
        if |instr| >= 5 { assert instr[..5][0] == instr[0]; }
      }
    }
    if StartsWith(instr, "JP ") || StartsWith(instr, "JR ") {
      assert !StartsWith(instr, "RST ") by {
        if |instr| >= 4 { assert instr[..4][0] == instr[0]; }
      }
    }
    if StartsWith(instr, "JR ") {
      assert instr[1] == instr[..3][1] == 'R';
      assert !StartsWith(instr, "JP ") by {
        if |instr| >= 3 { assert instr[..3][1] == instr[1]; }
      }
    }
  }

  /** What the chain gives once the matching prefix is known. */
  lemma FollowChain(instr: string, prefix: string, callAfterComma: bool)
    requires prefix == "CALL " || prefix == "RST " || prefix == "JP " || prefix == "JR "
    requires StartsWith(instr, prefix)
    ensures Follow(instr, callAfterComma) ==
      FollowFor(instr, prefix, if prefix == "CALL " then callAfterComma else prefix != "RST ").value
  {
    PrefixesExclusive(instr);
  }

  /** A jump or a call with a condition follows the operand after the
      comma in the newer copy. */
  lemma ConditionalTargetAfterComma(instr: string, prefix: string)
    requires prefix == "CALL " || prefix == "JP " || prefix == "JR "
    requires StartsWith(instr, prefix) && ',' in instr
    ensures Follow(instr, true) == Trim(instr[IndexOf(instr, ',', 0) + 1..])
  {
    if prefix == "CALL " {
      FollowChain(instr, "CALL ", true);
    } else if prefix == "JP " {
      FollowChain(instr, "JP ", true);
    } else {
      FollowChain(instr, "JR ", true);
    }
    assert IndexOf(instr, ',', 0) != -1 by {
      var k :| 0 <= k < |instr| && instr[k] == ',';
    }
    FollowForAfterComma(instr, prefix);
  }

  /** With a comma and the flag set, one rule takes the text after it. */
  lemma FollowForAfterComma(instr: string, prefix: string)
    requires StartsWith(instr, prefix) && IndexOf(instr, ',', 0) != -1
    ensures FollowFor(instr, prefix, true) == Some(Trim(instr[IndexOf(instr, ',', 0) + 1..]))
  {
    var comma := IndexOf(instr, ',', 0);
    var t := FollowText(instr, |prefix|, comma, true);
    FollowTextAfterComma(instr, |prefix|, comma);
    assert FollowFor(instr, prefix, true) == Some(t);
  }

  lemma FollowTextAfterComma(instr: string, n: nat, comma: int)
    requires 0 <= comma < |instr|
    ensures FollowText(instr, n, comma, true) == Trim(instr[comma + 1..])
  {
  }

  /** Without a comma every prefix follows the text after it. */
  lemma PlainTarget(instr: string, prefix: string, callAfterComma: bool)
    requires prefix == "CALL " || prefix == "RST " || prefix == "JP " || prefix == "JR "
    requires StartsWith(instr, prefix) && ',' !in instr
    ensures Follow(instr, callAfterComma) == Trim(instr[|prefix|..])
  {
    FollowChain(instr, prefix, callAfterComma);
    assert IndexOf(instr, ',', 0) == -1;
  }

  const CallExample: string := "CALL NZ, $1234"

  lemma CallExampleColumns()
    ensures StartsWith(CallExample, "CALL ") && |CallExample| == 14
    ensures IndexOf(CallExample, ',', 0) == 7
    ensures CallExample[5..7] == "NZ" && CallExample[8..] == " $1234"
  {
    assert CallExample[..5] == "CALL ";
    assert CallExample[7] == ',';
    assert forall k :: 0 <= k < 7 ==> CallExample[k] != ',';
  }

  lemma TrimCondition()
    ensures Trim("NZ") == "NZ"
  {
    TrimOfTrimmed("NZ");
  }

  lemma TrimTarget()
    ensures Trim(" $1234") == "$1234"
  {
    var s: string := " $1234";
    TrimOneSpace(s);
    assert s[1..] == "$1234";
  }

  /** In the older copy a conditional `CALL` takes `len - comma - 5`
      characters after the mnemonic instead of the operand after the
      comma: for `CALL NZ, $1234` the target is the condition `NZ`. */
  lemma GameCallFollowsCondition()
    ensures Follow(CallExample, false) == "NZ"
    ensures Follow(CallExample, true) == "$1234"
  {
    var s := CallExample;
    CallExampleColumns();
    GameCallSlice(s, 7);
    assert Mid(s, 5, 2) == s[5..7] == "NZ";
    TrimCondition();
    assert ',' in s by { assert s[7] == ','; }
    ConditionalTargetAfterComma(s, "CALL ");
    TrimTarget();
  }

  const CallCarryExample: string := "CALL C, $1234"

  lemma CallCarryExampleColumns()
    ensures StartsWith(CallCarryExample, "CALL ") && |CallCarryExample| == 13
    ensures IndexOf(CallCarryExample, ',', 0) == 6
    ensures CallCarryExample[5..7] == "C,"
  {
    assert CallCarryExample[..5] == "CALL ";
    assert CallCarryExample[6] == ',';
    assert forall k :: 0 <= k < 6 ==> CallCarryExample[k] != ',';
  }

  /** The older copy's `CALL` rule with a comma, over any instruction:
      a slice of `len - comma - 5` characters after the mnemonic. */
  lemma GameCallSlice(instr: string, comma: int)
    requires StartsWith(instr, "CALL ") && 0 <= comma && IndexOf(instr, ',', 0) == comma
    ensures Follow(instr, false) == Trim(Mid(instr, 5, |instr| - comma - 5))
  {
    FollowChain(instr, "CALL ", false);
  }

  /** The slice length depends on what follows the comma, not on the
      condition: with a one-letter condition the older copy follows the
      condition and the comma, `C,`, and still never the call target. */
  lemma GameCallCarryFollowsConditionComma()
    ensures Follow(CallCarryExample, false) == "C,"
    ensures Follow(CallCarryExample, true) == "$1234"
  {
    var s := CallCarryExample;
    CallCarryExampleColumns();
    GameCallSlice(s, 6);
    assert Mid(s, 5, 2) == s[5..7] == "C,";
    TrimOfTrimmed("C,");
    assert ',' in s by { assert s[6] == ','; }
    ConditionalTargetAfterComma(s, "CALL ");
    assert s[7..] == " $1234";
    TrimTarget();
  }

}

/**
  The disassembly view of the two debugger windows
  (`GameDisassembler` and its newer copy `DebuggerDisassembler`). SameBoy's
  disassembler output is the input text here; each line holding a colon
  becomes an entry: an instruction line (led by a space) with its
  address, instruction, comment and jump target, or a marker line (a
  label) otherwise.
 */
module Disassembly {
  import opened Bytes
  import opened Text
  import opened FollowTargets

  datatype Entry = Entry(
    address: Option<u16>,
    currentLocation: bool,
    isMarker: bool,
    instruction: string,
    comment: string,
    follow: string,
    raw: string)

  /** The hex value of columns 4-7 (0 when they do not parse), narrowed
      to 16 bits. */
  function LineAddress(l: string): u16
  {
    Wrap16(ParseHexU32(Mid(l, 4, 4)))
  }

  /** The instruction: the text between the colon and the first `;` at or
      after column 8, or the rest of the line without one, trimmed. */
  function LineInstruction(l: string, colon: nat): string
  {
    var semi := IndexOf(l, ';', 8);
    if semi >= 0 then Trim(Mid(l, colon + 1, semi - colon - 1)) else Trim(From(l, colon + 1))
  }

  /** The comment: from the first `;` at or after column 8, trimmed. */
  function LineComment(l: string): string
  {
    var semi := IndexOf(l, ';', 8);
    if semi >= 0 then Trim(From(l, semi)) else ""
  }

  /** One line holding a colon: an instruction line when it starts with a
      space, a marker otherwise. */
  function ParseLine(l: string, callAfterComma: bool): (e: Entry)
    requires ':' in l
    ensures e.raw == l
    ensures !e.currentLocation
    ensures e.isMarker <==> l[0] != ' '
    ensures e.isMarker ==> e.address == None && e.instruction == l[..IndexOf(l, ':', 0)] && e.follow == ""
    ensures !e.isMarker ==> e.address.Some?
  {
    var colon := IndexOf(l, ':', 0);
    if l[0] == ' ' then
      var instr := LineInstruction(l, colon);
      Entry(Some(LineAddress(l)), l[0] == '-', false, instr, LineComment(l), Follow(instr, callAfterComma), l)
    else
      Entry(None, false, true, Mid(l, 0, colon), "", "", l)
  }

  /** What every parsed entry satisfies: its raw line holds a colon and it
      is not the current location. */
  predicate FromColonLine(e: Entry)
  {
    ':' in e.raw && !e.currentLocation
  }

  /** `disassemble_at_address` over the captured text: split at `\n`,
      lines without a colon skipped, the others parsed in order. */
  function ParseLines(lines: seq<string>, callAfterComma: bool): (es: seq<Entry>)
    ensures |es| <= |lines|
    ensures forall k :: 0 <= k < |es| ==> FromColonLine(es[k])
  {
    if lines == [] then []
    else
      var rest := ParseLines(lines[1..], callAfterComma);
      if ':' !in lines[0] then rest else [ParseLine(lines[0], callAfterComma)] + rest
  }

  /** The lines that hold a colon, in order. */
  function WithColon(lines: seq<string>): seq<string>
  {
    if lines == [] then []
    else (if ':' in lines[0] then [lines[0]] else []) + WithColon(lines[1..])
  }

  /** One entry per line holding a colon, in the same order, each keeping
      its line as the raw text. */
  lemma {:induction false} EntriesFollowLines(lines: seq<string>, callAfterComma: bool)
    ensures |ParseLines(lines, callAfterComma)| == |WithColon(lines)|
    ensures forall k :: 0 <= k < |WithColon(lines)| ==> ParseLines(lines, callAfterComma)[k].raw == WithColon(lines)[k]
    decreases |lines|
  {
    if lines != [] {
      EntriesFollowLines(lines[1..], callAfterComma);
      var rest := ParseLines(lines[1..], callAfterComma);
      if ':' in lines[0] {
        var e := ParseLine(lines[0], callAfterComma);
        assert ParseLines(lines, callAfterComma) == [e] + rest;
        assert WithColon(lines) == [lines[0]] + WithColon(lines[1..]);
        RawCons(e, rest, lines[0], WithColon(lines[1..]));
      } else {
        assert ParseLines(lines, callAfterComma) == rest;
        assert WithColon(lines) == WithColon(lines[1..]);
      }
    }
  }

  lemma RawCons(e: Entry, rest: seq<Entry>, l: string, ls: seq<string>)
    requires e.raw == l && |rest| == |ls|
    requires forall k :: 0 <= k < |rest| ==> rest[k].raw == ls[k]
    ensures |[e] + rest| == |[l] + ls|
    ensures forall k :: 0 <= k < |[l] + ls| ==> ([e] + rest)[k].raw == ([l] + ls)[k]
  {
  }

  function Disassemble(text: string, callAfterComma: bool): seq<Entry>
  {
    ParseLines(Split(text, '\n'), callAfterComma)
  }

  /** `GameDisassembler::disassemble_at_address`: `CALL` does not use the
      text after the comma. */
  function GameDisassemble(text: string): seq<Entry> { Disassemble(text, false) }

  /** `DebuggerDisassembler::disassemble_at_address`: `CALL` follows the
      text after the comma, like `JP` and `JR`. */
  function DebuggerDisassemble(text: string): seq<Entry> { Disassemble(text, true) }

  // ---------------------------------------------------------------------
  // Round trip through the column layout

  /** An instruction line laid out as the parser reads it: four columns
      of indentation, the address in four hex digits, a colon, the
      instruction and, when present, `;` and the comment. */
  function Layout(address: u16, instr: string, comment: string): string
  {
    LayoutHeadText(address) + (instr + (if comment == [] then "" else ";" + comment))
  }

  /** The first nine columns: indentation, address digits and colon. */
  function LayoutHeadText(address: u16): string
  {
    "    " + Hex4Lower(address) + ":"
  }

  /** The fixed columns of a laid-out line: the colon at column 8 is the
      first, and columns 4-7 hold the address digits. */
  lemma LayoutColumns(address: u16, rest: string)
    ensures var l := LayoutHeadText(address) + rest;
      IndexOf(l, ':', 0) == 8 && Mid(l, 4, 4) == Hex4Lower(address) && l[0] == ' '
  {
    var h := Hex4Lower(address);
    var l := "    " + h + ":" + rest;
    LowerHexDigits(address, 4);
    assert forall k :: 0 <= k < 4 ==> IsHexDigit(h[k]);
    assert forall k :: 0 <= k < 8 ==> l[k] != ':';
    assert l[8] == ':';
    assert l[4..8] == h;
  }

  /** The address digits read back as the address. */
  lemma LayoutAddress(address: u16)
    ensures ParseHexU32(Hex4Lower(address)) == address
  {
    var h := Hex4Lower(address);
    LowerHexDigits(address, 4);
    assert IsHexDigit(h[0]) && IsHexDigit(h[1]) && IsHexDigit(h[3]);
    Hex4LowerValue(address);
    ParseHexOfFourDigits(h, address as nat);
  }

  /** Where the comment starts: the first `;` after column 8, if any. */
  lemma LayoutComment(address: u16, instr: string, comment: string)
    requires ';' !in instr
    ensures var l := Layout(address, instr, comment);
      && (comment == [] ==> IndexOf(l, ';', 8) == -1 && From(l, 9) == instr)
      && (comment != [] ==>
            IndexOf(l, ';', 8) == 9 + |instr| && Mid(l, 9, |instr|) == instr && From(l, 9 + |instr|) == ";" + comment)
  {
    var head := LayoutHeadText(address);
    var l := Layout(address, instr, comment);
    assert |head| == 9;
    if comment == [] {
      assert l == head + instr;
      assert forall k :: 9 <= k < |l| ==> l[k] == instr[k - 9];
    } else {
      assert l == head + instr + (";" + comment);
      assert forall k :: 9 <= k < 9 + |instr| ==> l[k] == instr[k - 9];
      assert l[9 + |instr|] == ';';
    }
  }

  lemma LayoutHead(address: u16, instr: string, comment: string)
    ensures var l := Layout(address, instr, comment);
      IndexOf(l, ':', 0) == 8 && l[0] == ' ' && LineAddress(l) == address
  {
    var l := Layout(address, instr, comment);
    LayoutColumns(address, instr + (if comment == [] then "" else ";" + comment));
    LayoutAddress(address);
    AddressColumns(l, address);
  }

  lemma AddressColumns(l: string, address: u16)
    requires Mid(l, 4, 4) == Hex4Lower(address) && ParseHexU32(Hex4Lower(address)) == address
    ensures LineAddress(l) == address
  {
    var v := ParseHexU32(Mid(l, 4, 4));
    assert v == address;
    Wrap16Small(v);
  }

  lemma LayoutFields(address: u16, instr: string, comment: string)
    requires ';' !in instr
    ensures var l := Layout(address, instr, comment);
      && LineInstruction(l, 8) == Trim(instr)
      && LineComment(l) == (if comment == [] then "" else Trim(";" + comment))
  {
    LayoutComment(address, instr, comment);
  }

  /** Reading a laid-out line gives back its address, its trimmed
      instruction and its trimmed comment (which keeps its `;`). */
  lemma LayoutRoundTrip(address: u16, instr: string, comment: string, callAfterComma: bool)
    requires ';' !in instr
    ensures ':' in Layout(address, instr, comment)
    ensures var e := ParseLine(Layout(address, instr, comment), callAfterComma);
      && e.address == Some(address)
      && e.instruction == Trim(instr)
      && e.comment == (if comment == [] then "" else Trim(";" + comment))
      && !e.isMarker
  {
    var l := Layout(address, instr, comment);
    LayoutHead(address, instr, comment);
    LayoutFields(address, instr, comment);
    assert l[8] == ':';
  }
}

/**
  Scrolling and history of the disassembly view. The address is a
  `uint16_t`; scrolling up saturates at 0 and scrolling right at 65535,
  while scrolling down jumps to addresses found in the last refresh.
 */
module Navigation {
  import opened Bytes
  import opened Disassembly

  /** `a -= std::min(k, a)`. */
  function Back(a: u16, k: u16): (r: u16)
    ensures a >= k ==> r == a - k
    ensures a < k ==> r == 0
  {
    a - (if k < a then k else a)
  }

  /** `std::min(65535u, a + 1)` */
  function Forward(a: u16): (r: u16)
    ensures a < 0xFFFF ==> r == a + 1
    ensures a == 0xFFFF ==> r == a
  {
    if 0xFFFF < a + 1 then 0xFFFF else a + 1
  }

  /** The scroll targets computed by `refresh_view`. */
  datatype Targets = Targets(short: u16, medium: u16, far: u16)

  /** The addresses of the entries that lie strictly after `current`, in
      entry order. */
  function Later(es: seq<Entry>, current: u16): (r: seq<u16>)
    ensures |r| <= |es|
    ensures forall k :: 0 <= k < |r| ==> r[k] > current
  {
    if es == [] then []
    else
      var rest := Later(es[1..], current);
      match es[0].address
      case Some(a) => if a > current then [a] + rest else rest
      case None => rest
  }

  /** The `n`-th later address (1-based), the last one found when there
      are fewer, or `current` when there are none. */
  function Nth(later: seq<u16>, n: nat, current: u16): u16
    requires n >= 1
  {
    if later == [] then current else if |later| >= n then later[n - 1] else later[|later| - 1]
  }

  /** The loop of `refresh_view` as written: a counter of later
      addresses, with the three targets overwritten while it is at most
      1, 2 and 10 respectively. */
  method ComputeTargets(es: seq<Entry>, current: u16) returns (t: Targets)
    ensures t.short == Nth(Later(es, current), 1, current)
    ensures t.medium == Nth(Later(es, current), 2, current)
    ensures t.far == Nth(Later(es, current), 10, current)
  {
    t := Targets(current, current, current);
    var found := 0;
    var i := 0;
    while i < |es|
      invariant 0 <= i <= |es|
      invariant found == |Later(es[..i], current)|
      invariant TargetsOf(t, Later(es[..i], current), current)
    {
      LaterSnoc(es[..i], es[i], current);
      assert es[..i + 1] == es[..i] + [es[i]];
      t, found := TargetsStep(t, found, Later(es[..i], current), es[i], current);
      i := i + 1;
    }
    assert es[..i] == es;
  }

  /** The three targets as picked from the later addresses seen so far. */
  predicate TargetsOf(t: Targets, later: seq<u16>, current: u16)
  {
    t.short == Nth(later, 1, current) && t.medium == Nth(later, 2, current) && t.far == Nth(later, 10, current)
  }

  /** One pass of the loop body: an entry after `current` bumps the
      counter and overwrites each target whose bound it has not passed. */
  method TargetsStep(t: Targets, found: nat, seen: seq<u16>, e: Entry, current: u16) returns (t': Targets, found': nat)
    requires found == |seen| && TargetsOf(t, seen, current)
    ensures var seen' := seen + (if e.address.Some? && e.address.value > current then [e.address.value] else []);
      found' == |seen'| && TargetsOf(t', seen', current)
  {
    t', found' := t, found;
    match e.address {
      case Some(a) =>
        if a > current {
          NthSnoc(seen, a, 1, current);
          NthSnoc(seen, a, 2, current);
          NthSnoc(seen, a, 10, current);
          found' := found + 1;
          if found' <= 1 { t' := t'.(short := a); }
          if found' <= 2 { t' := t'.(medium := a); }
          if found' <= 10 { t' := t'.(far := a); }
        }
      case None =>
    }
  }

  /** A new later address becomes the `n`-th target exactly when fewer
      than `n` were seen before it. */
  lemma NthSnoc(later: seq<u16>, a: u16, n: nat, current: u16)
    requires n >= 1
    ensures Nth(later + [a], n, current) == if |later| < n then a else Nth(later, n, current)
  {
  }

  lemma {:induction false} LaterSnoc(es: seq<Entry>, e: Entry, current: u16)
    ensures Later(es + [e], current) ==
      Later(es, current) + (if e.address.Some? && e.address.value > current then [e.address.value] else [])
    decreases |es|
  {
    if es == [] {
      assert es + [e] == [e];
    } else {
      assert (es + [e])[1..] == es[1..] + [e];
      LaterSnoc(es[1..], e, current);
    }
  }

  /** Every target lies after the current address, unless there is
      nothing after it, in which case scrolling down stays put. */
  lemma TargetsMoveForward(later: seq<u16>, current: u16, n: nat)
    requires n >= 1
    requires forall k :: 0 <= k < |later| ==> later[k] > current
    ensures later != [] ==> Nth(later, n, current) > current
    ensures later == [] ==> Nth(later, n, current) == current
  {
  }

  /** The view state: the address shown, the history of earlier
      addresses, and the scroll targets of the last refresh. */
  datatype View = View(current: u16, history: seq<u16>, targets: Targets)

  datatype Key = PageDown | PageUp | Up | Left | Right | Down | OtherKey

  /** `keyPressEvent`: the new address, or `None` when the key is not one
      the view handles (the event is left to the parent). */
  function KeyPress(v: View, key: Key): (r: Option<u16>)
    ensures r == None <==> key == OtherKey
    ensures key == PageUp ==> r == Some(Back(v.current, 10))
    ensures key == Up || key == Left ==> r == Some(Back(v.current, 1))
    ensures key == Right ==> r == Some(Forward(v.current))
    ensures key == Down ==> r == Some(v.targets.short)
    ensures key == PageDown ==> r == Some(v.targets.far)
  {
    match key
    case PageDown => Some(v.targets.far)
    case PageUp => Some(Back(v.current, 10))
    case Up => Some(Back(v.current, 1))
    case Left => Some(Back(v.current, 1))
    case Right => Some(Forward(v.current))
    case Down => Some(v.targets.short)
    case OtherKey => None
  }

  /** `wheelEvent`: up one address for a positive delta, to the medium
      target for a negative one, unchanged for zero. */
  function Wheel(v: View, delta: int): (r: u16)
    ensures delta > 0 ==> r == Back(v.current, 1)
    ensures delta < 0 ==> r == v.targets.medium
    ensures delta == 0 ==> r == v.current
  {
    if delta > 0 then Back(v.current, 1) else if delta < 0 then v.targets.medium else v.current
  }

  /** `go_to`: the current address is pushed on the history. */
  function GoTo(v: View, where: u16): (r: View)
    ensures r.current == where && r.history == v.history + [v.current]
  {
    v.(history := v.history + [v.current], current := where)
  }

  /** `go_back`: the newest history entry is popped and shown. The
      context menu only offers it when the history is not empty. */
  function GoBack(v: View): (r: View)
    requires v.history != []
    ensures r.current == v.history[|v.history| - 1]
    ensures r.history == v.history[..|v.history| - 1]
  {
    var where := |v.history| - 1;
    v.(current := v.history[where], history := v.history[..where])
  }

  /** Going somewhere and back restores the address and the history. */
  lemma GoToThenBack(v: View, where: u16)
    ensures GoBack(GoTo(v, where)).current == v.current
    ensures GoBack(GoTo(v, where)).history == v.history
  {
    assert (v.history + [v.current])[..|v.history|] == v.history;
  }

  /** `address_is_breakpoint`: a linear search of the breakpoint list. */
  method AddressIsBreakpoint(breakpoints: seq<u16>, address: u16) returns (found: bool)
    ensures found <==> address in breakpoints
  {
    var q := 0;
    while q < |breakpoints|
      invariant 0 <= q <= |breakpoints|
      invariant address !in breakpoints[..q]
    {
      if breakpoints[q] == address {
        return true;
      }
      assert breakpoints[..q + 1] == breakpoints[..q] + [breakpoints[q]];
      q := q + 1;
    }
    assert breakpoints[..q] == breakpoints;
    return false;
  }
}

=== FILE: game_instance.dfy ===
/**
  ARGB pixels as the emulator's callback encodes them, and the byte-wise
  blend that `read_pixel_buffer` applies in the blended double-buffer
  mode. A pixel is a 32-bit value; its bytes (lanes) are numbered from
  the least significant.
 */
module Pixels {
  import opened Bytes

  /** Lane `k` (0..3) of a pixel: `(c >> 8k) & 0xFF`. */
  function Lane(c: u32, k: nat): byte
    requires k < 4
  {
    if k == 0 then c % 0x100
    else if k == 1 then (c / 0x100) % 0x100
    else if k == 2 then (c / 0x1_0000) % 0x100
    else c / 0x100_0000
  }

  /** The pixel with the given four lanes. */
  function FromLanes(l0: byte, l1: byte, l2: byte, l3: byte): (c: u32)
    ensures Lane(c, 0) == l0 && Lane(c, 1) == l1 && Lane(c, 2) == l2 && Lane(c, 3) == l3
  {
    var c := l0 + 0x100 * l1 + 0x1_0000 * l2 + 0x100_0000 * l3;
    assert c / 0x100 == l1 + 0x100 * l2 + 0x1_0000 * l3;
    assert c / 0x1_0000 == l2 + 0x100 * l3;
    c
  }

  /** Every pixel is the pixel of its own lanes. */
  lemma LanesDetermine(c: u32)
    ensures FromLanes(Lane(c, 0), Lane(c, 1), Lane(c, 2), Lane(c, 3)) == c
  {
    var q1 := c / 0x100;
    var q2 := q1 / 0x100;
    assert c == q1 * 0x100 + c % 0x100;
    assert q1 == q2 * 0x100 + q1 % 0x100;
    assert q2 == c / 0x1_0000;
    assert q2 == (q2 / 0x100) * 0x100 + q2 % 0x100;
    assert q2 / 0x100 == c / 0x100_0000;
  }

  /** `rgb_encode`: `0xFF000000 | r << 16 | g << 8 | b`. */
  function RgbEncode(r: byte, g: byte, b: byte): (c: u32)
    ensures Lane(c, 3) == 0xFF && Lane(c, 2) == r && Lane(c, 1) == g && Lane(c, 0) == b
  {
    FromLanes(b, g, r, 0xFF)
  }

  /** The colour of a freshly resized buffer. */
  const OpaqueBlack: u32 := 0xFF00_0000

  /** `(a[q] + b[q]) / 2` on every byte of the pixel. */
  function BlendPixel(a: u32, b: u32): (c: u32)
    ensures forall k :: 0 <= k < 4 ==> Lane(c, k) == (Lane(a, k) + Lane(b, k)) / 2
  {
    var c := FromLanes((Lane(a, 0) + Lane(b, 0)) / 2, (Lane(a, 1) + Lane(b, 1)) / 2,
                       (Lane(a, 2) + Lane(b, 2)) / 2, (Lane(a, 3) + Lane(b, 3)) / 2);
    c
  }

  /** Blending a pixel with itself gives it back. */
  lemma BlendSame(a: u32)
    ensures BlendPixel(a, a) == a
  {
    LanesDetermine(a);
  }

  /** Blending two opaque pixels gives an opaque pixel, and blending two
      encoded colours gives the encoding of the averaged components. */
  lemma BlendEncoded(r1: byte, g1: byte, b1: byte, r2: byte, g2: byte, b2: byte)
    ensures BlendPixel(RgbEncode(r1, g1, b1), RgbEncode(r2, g2, b2))
         == RgbEncode((r1 + r2) / 2, (g1 + g2) / 2, (b1 + b2) / 2)
  {
    var c := BlendPixel(RgbEncode(r1, g1, b1), RgbEncode(r2, g2, b2));
    assert Lane(c, 0) == (b1 + b2) / 2 && Lane(c, 1) == (g1 + g2) / 2;
    assert Lane(c, 2) == (r1 + r2) / 2 && Lane(c, 3) == 0xFF;
    LanesDetermine(c);
  }
}

/**
  The three pixel buffers of `GameInstance`: SameBoy draws into the work
  buffer, and at every vertical blank the roles rotate so that the frame
  just finished becomes the previous one.
 */
module FrameBuffers {
  import opened Bytes
  import opened Pixels

  const BufferCount: nat := 3

  datatype Mode = Single | Double | DoubleBlend

  datatype Buffers = Buffers(
    pixels: seq<seq<u32>>, work: nat, previous: nat, previousSecond: nat, mode: Mode)

  predicate Valid(b: Buffers)
  {
    && |b.pixels| == BufferCount
    && |b.pixels[1]| == |b.pixels[0]| && |b.pixels[2]| == |b.pixels[0]|
    && b.work < BufferCount && b.previous < BufferCount && b.previousSecond < BufferCount
  }

  /** The index rotation of `on_vblank`. */
  function VBlank(b: Buffers): (r: Buffers)
    requires Valid(b)
    ensures Valid(r) && r.pixels == b.pixels && r.mode == b.mode
    ensures r.work == (b.work + 1) % BufferCount
    ensures r.previous == b.work && r.previousSecond == b.previous
  {
    b.(previousSecond := b.previous, previous := b.work, work := (b.work + 1) % BufferCount)
  }

  /** Once two frames have gone by since a reset or in steady state, the
      three roles are held by three different buffers. */
  lemma RolesDistinctAfterTwoFrames(b: Buffers)
    requires Valid(b)
    ensures var r := VBlank(VBlank(b)); r.work != r.previous && r.previous != r.previousSecond && r.work != r.previousSecond
  {
  }

  /** Three vertical blanks bring the work buffer back where it started. */
  lemma ThreeFramesCycle(b: Buffers)
    requires Valid(b)
    ensures VBlank(VBlank(VBlank(b))).work == b.work
  {
  }

  /** `update_pixel_buffer_size`: every buffer refilled with opaque black
      at the new size and every index back to 0. */
  function Resize(b: Buffers, size: nat): (r: Buffers)
    ensures Valid(r) && r.mode == b.mode
    ensures r.work == 0 && r.previous == 0 && r.previousSecond == 0
    ensures forall k :: 0 <= k < BufferCount ==>
      |r.pixels[k]| == size && forall i :: 0 <= i < size ==> r.pixels[k][i] == OpaqueBlack
  {
    var fill := seq(size, _ => OpaqueBlack);
    Buffers([fill, fill, fill], 0, 0, 0, b.mode)
  }

  /** The blended frame: each byte the floor average of the previous and
      the second previous frame. */
  function BlendFrames(a: seq<u32>, c: seq<u32>): (r: seq<u32>)
    requires |a| == |c|
    ensures |r| == |a|
    ensures forall i, k :: 0 <= i < |a| && 0 <= k < 4 ==>
      Lane(r[i], k) == (Lane(a[i], k) + Lane(c[i], k)) / 2
  {
    seq(|a|, i requires 0 <= i < |a| => BlendPixel(a[i], c[i]))
  }

  /** `read_pixel_buffer`: the destination is filled only when its length
      is the buffer length, from the buffer the mode selects. */
  function ReadPixels(b: Buffers, destination: seq<u32>): (r: (bool, seq<u32>))
    requires Valid(b)
    ensures r.0 <==> |destination| == |b.pixels[0]|
    ensures !r.0 ==> r.1 == destination
    ensures r.0 && b.mode == Single ==> r.1 == b.pixels[b.work]
    ensures r.0 && b.mode == Double ==> r.1 == b.pixels[b.previous]
    ensures r.0 && b.mode == DoubleBlend ==>
      |r.1| == |destination| &&
      forall i, k :: 0 <= i < |r.1| && 0 <= k < 4 ==>
        Lane(r.1[i], k) == (Lane(b.pixels[b.previous][i], k) + Lane(b.pixels[b.previousSecond][i], k)) / 2
  {
    if |destination| != |b.pixels[0]| then (false, destination)
    else match b.mode
      case Single => (true, b.pixels[b.work])
      case Double => (true, b.pixels[b.previous])
      case DoubleBlend => (true, BlendFrames(b.pixels[b.previous], b.pixels[b.previousSecond]))
  }

  /** Right after a resize every mode shows the same all-black frame. */
  lemma ReadAfterResize(b: Buffers, size: nat, destination: seq<u32>)
    requires |destination| == size
    ensures ReadPixels(Resize(b, size), destination) == (true, seq(size, _ => OpaqueBlack))
  {
    var r := Resize(b, size);
    var fill := seq(size, _ => OpaqueBlack);
    if b.mode == DoubleBlend {
      var blended := BlendFrames(fill, fill);
      forall i | 0 <= i < size ensures blended[i] == fill[i] {
        BlendSame(fill[i]);
        assert blended[i] == BlendPixel(fill[i], fill[i]);
      }
      assert blended == fill;
    }
  }
}

/**
  Audio samples and volume as `GameInstance` keeps them.
 */
module Audio {

  /** `set_volume`: the value clamped to 0..100. */
  function ClampVolume(v: int): (r: int)
    ensures 0 <= r <= 100
    ensures 0 <= v <= 100 ==> r == v
    ensures v < 0 ==> r == 0
    ensures v > 100 ==> r == 100
  {
    if 100 < (if 0 > v then 0 else v) then 100 else if 0 > v then 0 else v
  }

  lemma ClampIdempotent(v: int)
    ensures ClampVolume(ClampVolume(v)) == ClampVolume(v)
  {
  }

  /** `get_sample_buffer`: the queued samples are handed out and the
      queue left empty. */
  function TakeSamples(queue: seq<int>): (r: (seq<int>, seq<int>))
    ensures r.0 == queue && r.1 == []
  {
    (queue, [])
  }

  /** `transfer_sample_buffer`: the queued samples are appended to the
      destination, whose earlier contents are kept, and the queue left
      empty. */
  function TransferSamples(destination: seq<int>, queue: seq<int>): (r: (seq<int>, seq<int>))
    ensures |r.0| == |destination| + |queue|
    ensures r.0[..|destination|] == destination && r.0[|destination|..] == queue
    ensures r.1 == []
  {
    (destination + queue, [])
  }

  /** Handing the queue out is transferring it into an empty buffer. */
  lemma TakeIsTransferToEmpty(queue: seq<int>)
    ensures TakeSamples(queue) == TransferSamples([], queue)
  {
    assert [] + queue == queue;
  }

  /** Two hand-outs with samples queued in between give every sample
      exactly once, in order, and leave the queue empty. */
  lemma TakeTwiceLosesNothing(queue: seq<int>, more: seq<int>)
    ensures var first := TakeSamples(queue);
      var second := TakeSamples(first.1 + more);
      first.0 + second.0 == queue + more && second.1 == []
  {
    assert [] + more == more;
  }

  /** Transferring twice in a row moves nothing the second time. */
  lemma TransferTwice(destination: seq<int>, queue: seq<int>)
    ensures var first := TransferSamples(destination, queue);
      TransferSamples(first.0, first.1) == first
  {
    var first := TransferSamples(destination, queue);
    assert first.0 + [] == first.0;
  }
}

=== FILE: gb_proxy.dfy ===
/**
  Register and palette access of the C proxy into SameBoy's internals
  (`gb_proxy.c`). The register file is the set of cells the proxy names:
  eight 8-bit registers and six 16-bit ones. SameBoy's storage overlays
  the pairs on the single registers; that layout belongs to SameBoy and
  is not part of this model.
 */
module GbRegisters {
  import opened Bytes

  datatype Register =
    | A | B | C | D | E | F | H | L
    | HL | PC | SP | BC | AF | DE
    | Unknown(code: int)   // any other `sm83_register` value

  predicate Is8Bit(r: Register) { r.A? || r.B? || r.C? || r.D? || r.E? || r.F? || r.H? || r.L? }

  predicate Is16Bit(r: Register) { r.HL? || r.PC? || r.SP? || r.BC? || r.AF? || r.DE? }

  datatype Cpu = Cpu(
    a: byte, b: byte, c: byte, d: byte, e: byte, f: byte, h: byte, l: byte,
    hl: u16, pc: u16, sp: u16, bc: u16, af: u16, de: u16)

  /** `get_gb_register`: an 8-bit register is widened, a 16-bit one is
      returned as is; any other register aborts (`None`). */
  function Get(cpu: Cpu, r: Register): (v: Option<u16>)
    ensures v.None? <==> r.Unknown?
    ensures v.Some? && Is8Bit(r) ==> v.value < 0x100
  {
    match r
    case A => Some(cpu.a)
    case B => Some(cpu.b)
    case C => Some(cpu.c)
    case D => Some(cpu.d)
    case E => Some(cpu.e)
    case F => Some(cpu.f)
    case H => Some(cpu.h)
    case L => Some(cpu.l)
    case HL => Some(cpu.hl)
    case PC => Some(cpu.pc)
    case SP => Some(cpu.sp)
    case BC => Some(cpu.bc)
    case AF => Some(cpu.af)
    case DE => Some(cpu.de)
    case Unknown(_) => None
  }

  /** `set_gb_register`: an 8-bit register receives the value converted to
      `uint8_t` (its low byte); any other register aborts (`None`). */
  function Set(cpu: Cpu, r: Register, v: u16): (r': Option<Cpu>)
    ensures r'.None? <==> r.Unknown?
  {
    match r
    case A => Some(cpu.(a := v % 0x100))
    case B => Some(cpu.(b := v % 0x100))
    case C => Some(cpu.(c := v % 0x100))
    case D => Some(cpu.(d := v % 0x100))
    case E => Some(cpu.(e := v % 0x100))
    case F => Some(cpu.(f := v % 0x100))
    case H => Some(cpu.(h := v % 0x100))
    case L => Some(cpu.(l := v % 0x100))
    case HL => Some(cpu.(hl := v))
    case PC => Some(cpu.(pc := v))
    case SP => Some(cpu.(sp := v))
    case BC => Some(cpu.(bc := v))
    case AF => Some(cpu.(af := v))
    case DE => Some(cpu.(de := v))
    case Unknown(_) => None
  }

  /** Reading a register back after setting it gives the value, cut to 8
      bits for the single registers; every other register keeps its
      value. */
  lemma GetAfterSet(cpu: Cpu, r: Register, v: u16, other: Register)
    requires !r.Unknown?
    ensures Get(Set(cpu, r, v).value, r) == Some(if Is8Bit(r) then v % 0x100 else v)
    ensures other != r ==> Get(Set(cpu, r, v).value, other) == Get(cpu, other)
  {
  }

  /** Setting a register to the value it holds changes nothing. */
  lemma SetWhatIsThere(cpu: Cpu, r: Register)
    requires !r.Unknown?
    ensures Set(cpu, r, Get(cpu, r).value) == Some(cpu)
  {
  }

  // ---------------------------------------------------------------------
  // Palettes

  const PaletteNone: seq<u32> := [0xFFFF_FFFF, 0xFFAA_AAAA, 0xFF55_5555, 0xFF00_0000]

  datatype PaletteType = Background | Oam | NoPalette | Auto | OtherPalette(code: int)

  /** SameBoy's RGB palette tables: 8 palettes of 4 colours each. */
  predicate ValidTables(background: seq<u32>, oam: seq<u32>)
  {
    |background| == 32 && |oam| == 32
  }

  /** `get_gb_palette`: the four colours at `4 * (index % 8)` of the
      background or sprite table, or the fixed grey ramp for any other
      palette type. */
  function Palette(background: seq<u32>, oam: seq<u32>, t: PaletteType, index: byte): (p: seq<u32>)
    requires ValidTables(background, oam)
    ensures |p| == 4
    ensures t.Background? ==> forall k :: 0 <= k < 4 ==> p[k] == background[4 * (index % 8) + k]
    ensures t.Oam? ==> forall k :: 0 <= k < 4 ==> p[k] == oam[4 * (index % 8) + k]
    ensures !t.Background? && !t.Oam? ==> p == PaletteNone
  {
    match t
    case Background => background[4 * (index % 8)..4 * (index % 8) + 4]
    case Oam => oam[4 * (index % 8)..4 * (index % 8) + 4]
    case _ => PaletteNone
  }

  /** Indices that differ by 8 select the same palette. */
  lemma PaletteIndexWraps(background: seq<u32>, oam: seq<u32>, t: PaletteType, index: byte)
    requires ValidTables(background, oam) && index + 8 < 0x100
    ensures Palette(background, oam, t, index + 8) == Palette(background, oam, t, index)
  {
    assert (index + 8) % 8 == index % 8;
  }
}

/**
  The tileset viewer's usage classifier (`get_tileset_object_info`). The
  viewer shows the 384 tiles of each VRAM bank as a 32 x 24 grid of
  blocks, bank 0 on the left half and bank 1 on the right; for every
  block it records whether a visible sprite, the window or the
  background uses that tile. Object attribute memory and the tile maps
  follow the OAM and VRAM tile-map sections of Pan Docs.
 */
module Tileset {
  import opened Bytes

  const BlockWidth: nat := 32
  const BlockHeight: nat := 24
  const PageWidth: nat := 16
  const BlockCount: nat := BlockWidth * BlockHeight
  const SpriteCount: nat := 40

  /** Offsets into SameBoy's VRAM copy: the two tile maps, and the bank-1
      attribute maps 0x2000 after them. */
  const Map9800: nat := 0x1800
  const Map9C00: nat := 0x1C00
  const AttributeOffset: nat := 0x2000

  /** What the classifier reads: OAM, VRAM, LCDC (0xFF40), WX (0xFF4B),
      WY (0xFF4A) and whether the machine runs in CGB mode. */
  datatype Video = Video(oam: seq<byte>, vram: seq<byte>, lcdc: byte, windowX: byte, windowY: byte, cgb: bool)

  /** 40 four-byte sprites; one VRAM bank, two in CGB mode. */
  predicate Valid(v: Video)
  {
    |v.oam| >= 4 * SpriteCount && |v.vram| >= AttributeOffset && (v.cgb ==> |v.vram| >= 2 * AttributeOffset)
  }

  function SpriteHeight(v: Video): nat { if Bit(v.lcdc, 2) then 16 else 8 }
  predicate SpritesEnabled(v: Video) { Bit(v.lcdc, 1) }
  predicate BgWindowEnabled(v: Video) { v.cgb || Bit(v.lcdc, 0) }
  predicate WindowEnabled(v: Video) { Bit(v.lcdc, 5) && BgWindowEnabled(v) }
  function BackgroundMap(v: Video): nat { if Bit(v.lcdc, 3) then Map9C00 else Map9800 }
  function WindowMap(v: Video): nat { if Bit(v.lcdc, 6) then Map9C00 else Map9800 }
  /** LCDC bit 4 clear: the tile maps address tiles 0-127 at 0x9000. */
  predicate Mode8800(v: Video) { !Bit(v.lcdc, 4) }

  // ---------------------------------------------------------------------
  // The grid

  /** Block `k` is column `k % 32` of row `k / 32`. */
  function TileNumber(k: nat): nat { (k % 32) % 16 + 16 * (k / 32) }
  function TileBank(k: nat): nat { if k % 32 >= 16 then 1 else 0 }
  function TileAddress(k: nat): nat { 0x8000 + TileNumber(k) * 0x10 }

  /** Every block shows a different tile: the grid covers tiles 0-383 of
      both banks, each once. */
  lemma GridLayout(k: nat, j: nat)
    requires k < BlockCount && j < BlockCount
    ensures TileNumber(k) < 384 && TileBank(k) <= 1
    ensures TileAddress(k) < 0x9800
    ensures (TileNumber(k), TileBank(k)) == (TileNumber(j), TileBank(j)) ==> k == j
  {
    if TileNumber(k) == TileNumber(j) && TileBank(k) == TileBank(j) {
      assert (k % 32) % 16 == TileNumber(k) % 16 && k / 32 == TileNumber(k) / 16;
      assert (j % 32) % 16 == TileNumber(j) % 16 && j / 32 == TileNumber(j) / 16;
    }
  }

  // ---------------------------------------------------------------------
  // Sprites

  function SpriteY(v: Video, i: nat): byte requires Valid(v) && i < SpriteCount { v.oam[4 * i] }
  function SpriteX(v: Video, i: nat): byte requires Valid(v) && i < SpriteCount { v.oam[4 * i + 1] }
  function SpriteFlags(v: Video, i: nat): byte requires Valid(v) && i < SpriteCount { v.oam[4 * i + 3] }

  /** The sprite's tile, with bit 0 cleared in 8x16 mode. */
  function SpriteTile(v: Video, i: nat): (t: nat)
    requires Valid(v) && i < SpriteCount
    ensures t < 0x100
    ensures SpriteHeight(v) == 16 ==> t % 2 == 0
  {
    var t := v.oam[4 * i + 2];
    if SpriteHeight(v) == 16 then t - t % 2 else t
  }

  /** Flags bit 3 in CGB mode; bank 0 otherwise. */
  function SpriteBank(v: Video, i: nat): nat
    requires Valid(v) && i < SpriteCount
  {
    if v.cgb && Bit(SpriteFlags(v, i), 3) then 1 else 0
  }

  /** Flags bits 0-2 in CGB mode, flags bit 4 otherwise. */
  function SpritePalette(v: Video, i: nat): (p: byte)
    requires Valid(v) && i < SpriteCount
    ensures v.cgb ==> p == SpriteFlags(v, i) % 8
    ensures !v.cgb ==> p == (if Bit(SpriteFlags(v, i), 4) then 1 else 0)
  {
    if v.cgb then SpriteFlags(v, i) % 8 else (SpriteFlags(v, i) / 16) % 2
  }

  /** On screen: `0 < x < 168` and the sprite's rows reach below line 16
      and start above line 160. */
  predicate SpriteVisible(v: Video, i: nat)
    requires Valid(v) && i < SpriteCount
  {
    0 < SpriteX(v, i) < 168 && 16 < SpriteY(v, i) + SpriteHeight(v) && SpriteY(v, i) < 160
  }

  predicate SpriteUses(v: Video, i: nat, tile: int, bank: nat)
    requires Valid(v) && i < SpriteCount
  {
    SpriteTile(v, i) == tile && SpriteBank(v, i) == bank && SpriteVisible(v, i)
  }

  predicate SomeSpriteUses(v: Video, tile: int, bank: nat)
    requires Valid(v)
  {
    exists i :: 0 <= i < SpriteCount && SpriteUses(v, i, tile, bank)
  }

  /** The first sprite at or after `from` that uses the tile. */
  function FirstSprite(v: Video, tile: nat, bank: nat, from: nat): (r: Option<nat>)
    requires Valid(v)
    ensures r.Some? ==> from <= r.value < SpriteCount && SpriteUses(v, r.value, tile, bank)
    ensures r.Some? ==> forall j :: from <= j < r.value ==> !SpriteUses(v, j, tile, bank)
    ensures r.None? <==> forall j :: from <= j < SpriteCount ==> !SpriteUses(v, j, tile, bank)
    decreases SpriteCount - from
  {
    if from >= SpriteCount then None
    else if SpriteUses(v, from, tile, bank) then Some(from)
    else FirstSprite(v, tile, bank, from + 1)
  }

  // ---------------------------------------------------------------------
  // Tile maps

  /** The tile a map entry selects: in 0x8800 mode ids below 128 mean
      tiles 256-383. */
  function MapTileId(id: byte, mode8800: bool): (t: nat)
    ensures t < 384
    ensures !mode8800 ==> t == id
    ensures mode8800 ==> 128 <= t && t % 0x100 == id
  {
    if mode8800 && id < 128 then id + 0x100 else id
  }

  /** Different ids select different tiles in either mode. */
  lemma MapTileIdInjective(a: byte, b: byte, mode8800: bool)
    requires MapTileId(a, mode8800) == MapTileId(b, mode8800)
    ensures a == b
  {
  }

  function CellTile(v: Video, tileMap: nat, cx: nat, cy: nat): nat
    requires Valid(v) && (tileMap == Map9800 || tileMap == Map9C00) && cx < 32 && cy < 32
  {
    MapTileId(v.vram[tileMap + cx + 32 * cy], Mode8800(v))
  }

  /** Attribute bit 3 in CGB mode; bank 0 otherwise. */
  function CellBank(v: Video, tileMap: nat, cx: nat, cy: nat): nat
    requires Valid(v) && (tileMap == Map9800 || tileMap == Map9C00) && cx < 32 && cy < 32
  {
    if v.cgb && Bit(v.vram[AttributeOffset + tileMap + cx + 32 * cy], 3) then 1 else 0
  }

  /** Attribute bits 0-2 in CGB mode; 0 otherwise. */
  function CellPalette(v: Video, tileMap: nat, cx: nat, cy: nat): byte
    requires Valid(v) && (tileMap == Map9800 || tileMap == Map9C00) && cx < 32 && cy < 32
  {
    if v.cgb then v.vram[AttributeOffset + tileMap + cx + 32 * cy] % 8 else 0
  }

  /** The area a scan covers: `w` columns of `h` rows of a tile map. */
  predicate Area(tileMap: nat, w: nat, h: nat)
  {
    (tileMap == Map9800 || tileMap == Map9C00) && w <= 32 && h <= 32
  }

  predicate CellUses(v: Video, tileMap: nat, cx: nat, cy: nat, tile: nat, bank: nat)
    requires Valid(v) && (tileMap == Map9800 || tileMap == Map9C00) && cx < 32 && cy < 32
  {
    CellTile(v, tileMap, cx, cy) == tile && CellBank(v, tileMap, cx, cy) == bank
  }

  datatype Cell = Cell(x: nat, y: nat)

  /** Row-major order: cell (`ax`, `ay`) is visited before (`rx`, `ry`). */
  predicate Precedes(ay: nat, ax: nat, ry: nat, rx: nat)
  {
    ay < ry || (ay == ry && ax < rx)
  }

  /** The nested `for` loops of a scan: the first cell at or after column
      `x` of row `y`, visiting rows in order and columns within a row in
      order, whose entry selects the tile. */
  function FirstCell(v: Video, tileMap: nat, w: nat, h: nat, tile: nat, bank: nat, y: nat, x: nat): (r: Option<Cell>)
    requires Valid(v) && Area(tileMap, w, h) && x <= w
    ensures r.Some? ==> r.value.y < h && r.value.x < w && CellUses(v, tileMap, r.value.x, r.value.y, tile, bank)
    ensures r.Some? ==> !Precedes(r.value.y, r.value.x, y, x)
    ensures r.Some? ==> forall cy: nat, cx: nat :: cx < w && !Precedes(cy, cx, y, x) && Precedes(cy, cx, r.value.y, r.value.x) ==>
                                         !CellUses(v, tileMap, cx, cy, tile, bank)
    ensures r.None? <==> forall cy: nat, cx: nat :: cy < h && cx < w && !Precedes(cy, cx, y, x) ==>
                                          !CellUses(v, tileMap, cx, cy, tile, bank)
    decreases h - y, w - x
  {
    if y >= h then None
    else if x >= w then FirstCell(v, tileMap, w, h, tile, bank, y + 1, 0)
    else if CellUses(v, tileMap, x, y, tile, bank) then Some(Cell(x, y))
    else FirstCell(v, tileMap, w, h, tile, bank, y, x + 1)
  }

  /** The window is scanned only when it is enabled and placed on screen
      (WX <= 166, WY <= 143), over the `32 - WY/8` rows and `32 - WX/8`
      columns it can show. */
  predicate WindowScanned(v: Video)
  {
    WindowEnabled(v) && v.windowX <= 166 && v.windowY <= 143
  }

  function WindowColumns(v: Video): nat { 32 - v.windowX / 8 }
  function WindowRows(v: Video): nat { 32 - v.windowY / 8 }

  // ---------------------------------------------------------------------
  // One block

  datatype Access = NotAccessed | ByOam | ByWindow | ByBackground

  datatype TileInfo = TileInfo(
    tileIndex: nat,
    tileBank: nat,
    tileAddress: nat,
    accessed: Access,
    palette: byte,
    accessedTileIndex: nat,
    userIndex: nat)

  /** The zero-initialised record. */
  const Zero: TileInfo := TileInfo(0, 0, 0, NotAccessed, 0, 0, 0)

  /** A record with block `k`'s tile fields set. */
  function Placed(info: TileInfo, k: nat): TileInfo
  {
    info.(tileIndex := TileNumber(k), tileBank := TileBank(k), tileAddress := TileAddress(k))
  }

  /** The sprite search for block `k`: the first visible sprite using its
      tile, when sprites are on. */
  function SpriteInfo(v: Video, k: nat): (r: Option<TileInfo>)
    requires Valid(v)
    ensures r.Some? <==> SpritesEnabled(v) && SomeSpriteUses(v, TileNumber(k), TileBank(k))
    ensures r.Some? ==> (
      && r.value.accessed == ByOam && r.value.userIndex < SpriteCount
      && SpriteUses(v, r.value.userIndex, TileNumber(k), TileBank(k))
      && r.value.palette == SpritePalette(v, r.value.userIndex)
      && r.value.accessedTileIndex == SpriteTile(v, r.value.userIndex)
      && (forall j :: 0 <= j < r.value.userIndex ==> !SpriteUses(v, j, TileNumber(k), TileBank(k)))
      && r.value.tileIndex == TileNumber(k) && r.value.tileBank == TileBank(k))
  {
    if !SpritesEnabled(v) then None
    else match FirstSprite(v, TileNumber(k), TileBank(k), 0)
      case Some(i) => Some(Placed(TileInfo(0, 0, 0, ByOam, SpritePalette(v, i), SpriteTile(v, i), i), k))
      case None => None
  }

  /** The window cell the scan for block `k` stops at, if the window is
      scanned and one selects the tile. */
  function WindowScan(v: Video, k: nat): Option<Cell>
    requires Valid(v)
  {
    if WindowScanned(v) then FirstCell(v, WindowMap(v), WindowColumns(v), WindowRows(v), TileNumber(k), TileBank(k), 0, 0)
    else None
  }

  /** The background cell the scan for block `k` stops at. */
  function BackgroundScan(v: Video, k: nat): Option<Cell>
    requires Valid(v)
  {
    FirstCell(v, BackgroundMap(v), 32, 32, TileNumber(k), TileBank(k), 0, 0)
  }

  /** The record a map hit gives: the tile (as remapped) and the cell's
      palette. */
  function MapHit(v: Video, k: nat, tileMap: nat, c: Cell, how: Access): (r: TileInfo)
    requires Valid(v) && (tileMap == Map9800 || tileMap == Map9C00) && c.x < 32 && c.y < 32
    ensures r.accessed == how && r.accessedTileIndex == TileNumber(k)
    ensures r.tileIndex == TileNumber(k) && r.tileBank == TileBank(k)
  {
    Placed(TileInfo(0, 0, 0, how, CellPalette(v, tileMap, c.x, c.y), TileNumber(k), 0), k)
  }

  /** What the block's own search finds: the first visible sprite using
      the tile, else (with the background and window on) the first window
      cell, else the first background cell selecting it. */
  function Classify(v: Video, k: nat): (r: TileInfo)
    requires Valid(v)
    ensures r.tileIndex == TileNumber(k) && r.tileBank == TileBank(k)
    ensures r.accessed == ByOam <==> SpriteInfo(v, k).Some?
    ensures r.accessed == ByOam ==> r == SpriteInfo(v, k).value
    ensures r.accessed == ByWindow <==> SpriteInfo(v, k).None? && BgWindowEnabled(v) && WindowScan(v, k).Some?
    ensures r.accessed == ByBackground <==>
      SpriteInfo(v, k).None? && BgWindowEnabled(v) && WindowScan(v, k).None? && BackgroundScan(v, k).Some?
    ensures r.accessed == ByWindow || r.accessed == ByBackground ==> r.accessedTileIndex == TileNumber(k)
    ensures r.accessed == NotAccessed ==> r == Placed(Zero, k)
  {
    if SpriteInfo(v, k).Some? then SpriteInfo(v, k).value
    else if !BgWindowEnabled(v) then Placed(Zero, k)
    else if WindowScan(v, k).Some? then MapHit(v, k, WindowMap(v), WindowScan(v, k).value, ByWindow)
    else if BackgroundScan(v, k).Some? then MapHit(v, k, BackgroundMap(v), BackgroundScan(v, k).value, ByBackground)
    else Placed(Zero, k)
  }

  /** An 8x16 sprite found by block `k - 1` also marks block `k`. */
  predicate Marked(v: Video, k: nat)
    requires Valid(v)
  {
    k > 0 && SpriteHeight(v) == 16 && SpriteInfo(v, k - 1).Some?
  }

  /** The record the mark writes into block `k`: the sprite fields of
      block `k - 1`, the tile fields not yet set. */
  function Mark(v: Video, k: nat): TileInfo
    requires Valid(v) && k > 0 && SpriteInfo(v, k - 1).Some?
  {
    var c := SpriteInfo(v, k - 1).value;
    TileInfo(0, 0, 0, ByOam, c.palette, c.accessedTileIndex, c.userIndex)
  }

  /** The classifier's verdict for block `k`, as a closed form. */
  function BlockInfo(v: Video, k: nat): TileInfo
    requires Valid(v)
  {
    if Marked(v, k) then Placed(Mark(v, k), k) else Classify(v, k)
  }

  lemma EvenPlus(m: nat, r: nat)
    ensures (2 * m + r) % 2 == r % 2
  {
  }

  /** Column parity is tile parity. */
  lemma TileParity(k: nat)
    ensures TileNumber(k) % 2 == (k % BlockWidth) % 2
    ensures (k % BlockWidth) % 2 == 0 ==>
      (k + 1) % BlockWidth == k % BlockWidth + 1 && (k + 1) / BlockWidth == k / BlockWidth
      && TileNumber(k + 1) == TileNumber(k) + 1 && TileBank(k + 1) == TileBank(k)
  {
    var x, y := k % 32, k / 32;
    assert k == 32 * y + x && 0 <= x < 32;
    assert TileNumber(k) == 2 * (8 * y) + x % 16;
    EvenPlus(8 * y, x % 16);
    assert (x % 16) % 2 == x % 2;
    if x % 2 == 0 {
      assert x + 1 < 32 && k + 1 == 32 * y + (x + 1);
      assert (k + 1) % 32 == x + 1 && (k + 1) / 32 == y;
      assert (x + 1) % 16 == x % 16 + 1;
    }
  }

  /** An 8x16 match is always on an even column: the sprite's tile is
      even, so the next block is the odd tile beside it, in the same row
      and bank. */
  lemma TallMatchEvenColumn(v: Video, k: nat)
    requires Valid(v)
    ensures SpriteHeight(v) == 16 && SpriteInfo(v, k).Some? ==>
      (k % BlockWidth) % 2 == 0 && TileNumber(k + 1) == TileNumber(k) + 1 && TileBank(k + 1) == TileBank(k)
  {
    TileParity(k);
    if SpriteHeight(v) == 16 && SpriteInfo(v, k).Some? {
      var i := SpriteInfo(v, k).value.userIndex;
      assert SpriteTile(v, i) == TileNumber(k);
    }
  }

  /** A marked block never passes a mark on: marks land on odd columns. */
  lemma MarkNotChained(v: Video, k: nat)
    requires Valid(v) && Marked(v, k)
    ensures (k % 32) % 2 == 1
    ensures SpriteInfo(v, k).None?
  {
    var j := k - 1;
    TallMatchEvenColumn(v, j);
    assert (j % 32) % 2 == 0;
    NextColumnOdd(j);
    TallMatchEvenColumn(v, k);
  }

  lemma NextColumnOdd(j: nat)
    requires (j % 32) % 2 == 0
    ensures ((j + 1) % 32) % 2 == 1
  {
    TileParity(j);
    var a := j % 32;
    assert (j + 1) % 32 == a + 1;
    assert a == 2 * (a / 2);
    EvenPlus(a / 2, 1);
  }

  /** An odd column's block shows the tile after its left neighbour's. */
  lemma PreviousTile(k: nat)
    requires (k % 32) % 2 == 1
    ensures k > 0 && ((k - 1) % 32) % 2 == 0
    ensures TileNumber(k - 1) == TileNumber(k) - 1 && TileBank(k - 1) == TileBank(k)
  {
    assert k % 32 >= 1;
    assert (k - 1) % 32 == k % 32 - 1;
    TileParity(k - 1);
  }

  /** A block counts as sprite-used iff a visible sprite uses its tile or,
      in 8x16 mode, the tile before it on the same row. */
  lemma OamAccess(v: Video, k: nat)
    requires Valid(v)
    ensures BlockInfo(v, k).accessed == ByOam <==>
      SpritesEnabled(v) && (
        SomeSpriteUses(v, TileNumber(k), TileBank(k))
        || (SpriteHeight(v) == 16 && (k % 32) % 2 == 1 && SomeSpriteUses(v, TileNumber(k) - 1, TileBank(k))))
    ensures BlockInfo(v, k).tileIndex == TileNumber(k) && BlockInfo(v, k).tileBank == TileBank(k)
  {
    if Marked(v, k) {
      MarkNotChained(v, k);
      PreviousTile(k);
    } else if SpriteHeight(v) == 16 && (k % 32) % 2 == 1 {
      PreviousTile(k);
    }
  }

  /** Outside CGB mode nothing in bank 1 is ever marked as used. */
  lemma DmgUsesBankZero(v: Video, k: nat)
    requires Valid(v) && !v.cgb && BlockInfo(v, k).accessed != NotAccessed
    ensures TileBank(k) == 0
  {
    if Marked(v, k) {
      TallMatchEvenColumn(v, k - 1);
    } else if SpriteInfo(v, k).Some? {
      assert SpriteBank(v, SpriteInfo(v, k).value.userIndex) == 0;
    } else if WindowScan(v, k).Some? {
      var c := WindowScan(v, k).value;
      assert CellBank(v, WindowMap(v), c.x, c.y) == 0;
    } else {
      var c := BackgroundScan(v, k).value;
      assert CellBank(v, BackgroundMap(v), c.x, c.y) == 0;
    }
  }

  /** With sprites off and the background and window off (outside CGB
      mode), no block is used. */
  lemma AllOff(v: Video, k: nat)
    requires Valid(v) && !SpritesEnabled(v) && !BgWindowEnabled(v)
    ensures BlockInfo(v, k) == Placed(Zero, k)
  {
  }

  // ---------------------------------------------------------------------
  // The loop as written

  /** How block `k` decides whether block `k + 1` is marked. */
  lemma NextMarked(v: Video, k: nat)
    requires Valid(v)
    ensures Marked(v, k + 1) <==> !Marked(v, k) && Classify(v, k).accessed == ByOam && SpriteHeight(v) == 16
    ensures Marked(v, k + 1) ==> k % 32 != 31
    ensures Marked(v, k + 1) ==>
      Mark(v, k + 1) == TileInfo(0, 0, 0, ByOam, Classify(v, k).palette, Classify(v, k).accessedTileIndex, Classify(v, k).userIndex)
  {
    if Marked(v, k) {
      MarkNotChained(v, k);
    }
    TallMatchEvenColumn(v, k);
    if Marked(v, k + 1) {
      EvenColumnNotLast(k % BlockWidth);
    }
  }

  lemma EvenColumnNotLast(x: nat)
    requires x % 2 == 0
    ensures x != 31
  {
  }

  /** What one iteration of the loop relies on. */
  lemma BlockStep(v: Video, k: nat)
    requires Valid(v)
    ensures Placed(Zero, k).accessed == NotAccessed
    ensures !Marked(v, k) ==> BlockInfo(v, k) == Classify(v, k)
    ensures Marked(v, k) ==> BlockInfo(v, k) == Placed(Mark(v, k), k) && BlockInfo(v, k).accessed == ByOam
    ensures k < BlockCount && Marked(v, k + 1) ==> k + 1 < BlockCount
  {
    NextMarked(v, k);
  }

  /** One pass of the loop body for block `k`: set the tile fields, skip
      a marked block, otherwise search and, for an 8x16 sprite, mark the
      next record. */
  method VisitBlock(v: Video, tiles: seq<TileInfo>, k: nat) returns (next: seq<TileInfo>)
    requires Valid(v) && k < |tiles| == BlockCount
    requires tiles[k] == (if Marked(v, k) then Mark(v, k) else Zero)
    requires k + 1 < BlockCount ==> tiles[k + 1] == Zero
    ensures |next| == BlockCount
    ensures next[k] == BlockInfo(v, k)
    ensures k + 1 < BlockCount ==> next[k + 1] == (if Marked(v, k + 1) then Mark(v, k + 1) else Zero)
    ensures forall j :: 0 <= j < BlockCount && j != k && j != k + 1 ==> next[j] == tiles[j]
  {
    NextMarked(v, k);
    BlockStep(v, k);
    var placed := Placed(tiles[k], k);
    if placed.accessed == NotAccessed {
      var info := Classify(v, k);
      next := tiles[k := info];
      if info.accessed == ByOam && SpriteHeight(v) == 16 {
        next := next[k + 1 := TileInfo(0, 0, 0, ByOam, info.palette, info.accessedTileIndex, info.userIndex)];
      }
    } else {
      next := tiles[k := placed];
    }
  }

  /** `get_tileset_object_info`: the records start zeroed and the blocks
      are visited row by row. */
  method TilesetObjectInfo(v: Video) returns (tiles: seq<TileInfo>)
    requires Valid(v)
    ensures |tiles| == BlockCount
    ensures forall k :: 0 <= k < BlockCount ==> tiles[k] == BlockInfo(v, k)
  {
    tiles := seq(BlockCount, _ => Zero);
    var k := 0;
    while k < BlockCount
      invariant 0 <= k <= BlockCount && |tiles| == BlockCount
      invariant forall j :: 0 <= j < k ==> tiles[j] == BlockInfo(v, j)
      invariant k < BlockCount ==> tiles[k] == (if Marked(v, k) then Mark(v, k) else Zero)
      invariant forall j :: k < j < BlockCount ==> tiles[j] == Zero
    {
      tiles := VisitBlock(v, tiles, k);
      k := k + 1;
    }
  }
}

=== FILE: getline.dfy ===
/**
  The `getline` replacement used where the C library has none. It reads
  one character at a time up to and including a line break. It differs
  from POSIX.1-2008 `getline` in two ways: a last line without a line
  break is a failure (-1) even when characters were read, and `*n` is set
  to the number of characters read, not to the size of the buffer. The
  stream is a sequence of characters; what a failed call has read is
  gone from it.
 */
module GetLine {
  import opened Bytes

  /** The index of the first line break, if any. */
  function FirstBreak(s: seq<char>): (k: Option<nat>)
    ensures k.Some? ==> k.value < |s| && s[k.value] == '\n' && '\n' !in s[..k.value]
    ensures k.None? <==> '\n' !in s
  {
    if s == [] then None
    else if s[0] == '\n' then Some(0)
    else
      var k := FirstBreak(s[1..]);
      assert s == [s[0]] + s[1..];
      if k.Some? then
        assert s[..k.value + 1] == [s[0]] + s[1..][..k.value];
        Some(k.value + 1)
      else None
  }

  /** What one call leaves behind: the return value, `*n`, the buffer
      `*lineptr` points to, and the unread rest of the stream. */
  datatype Call = Call(ret: int, n: nat, buffer: seq<char>, rest: seq<char>)

  /** The loop as written: read a character or fail, append it, count it,
      stop after a line break; on success the old buffer is replaced by a
      zero-filled one of the line's size plus one, holding the line. */
  method ReadLine(stream: seq<char>, buffer: seq<char>) returns (c: Call)
    ensures FirstBreak(stream).Some? ==>
      var k := FirstBreak(stream).value;
      c == Call(k + 1, k + 1, stream[..k + 1] + ['\0'], stream[k + 1..])
    ensures FirstBreak(stream).None? ==> c == Call(-1, |stream|, buffer, [])
  {
    var n := 0;
    var str: seq<char> := [];
    var pos := 0;
    while true
      invariant 0 <= pos <= |stream| && n == pos && str == stream[..pos]
      invariant '\n' !in str
      decreases |stream| - pos
    {
      if pos == |stream| {
        assert str == stream;
        return Call(-1, n, buffer, []);
      }
      var ch := stream[pos];
      pos := pos + 1;
      str := str + [ch];
      n := n + 1;
      assert str == stream[..pos];
      if ch == '\n' {
        break;
      }
    }
    assert stream[..pos - 1] == str[..pos - 1];
    assert FirstBreak(stream) == Some(pos - 1);
    var zeroed := seq(|str| + 1, _ => '\0');
    var copy := str + zeroed[|str|..];
    assert copy == str + ['\0'];
    c := Call(n, n, copy, stream[pos..]);
  }

  /** The line a successful call returns, without its terminating zero. */
  function Line(c: Call): seq<char>
    requires |c.buffer| >= 1
  {
    c.buffer[..|c.buffer| - 1]
  }

  /** An independent description of a successful call: the stream splits
      into a line that ends with its only line break and the rest. */
  predicate SplitsAt(stream: seq<char>, line: seq<char>, rest: seq<char>)
  {
    stream == line + rest && line != [] && line[|line| - 1] == '\n' && '\n' !in line[..|line| - 1]
  }

  /** A call succeeds exactly when the stream holds a line break, and then
      returns the length of the line it split off, which is also `*n`. */
  lemma {:induction false} ReadLineMeaning(stream: seq<char>, buffer: seq<char>, c: Call)
    requires FirstBreak(stream).Some? ==>
      var k := FirstBreak(stream).value;
      c == Call(k + 1, k + 1, stream[..k + 1] + ['\0'], stream[k + 1..])
    requires FirstBreak(stream).None? ==> c == Call(-1, |stream|, buffer, [])
    ensures c.ret >= 0 <==> '\n' in stream
    ensures c.ret >= 0 ==> c.ret == c.n && |c.buffer| >= 1 && c.buffer[|c.buffer| - 1] == '\0'
    ensures c.ret >= 0 ==> SplitsAt(stream, Line(c), c.rest) && c.ret == |Line(c)|
    ensures c.ret < 0 ==> c.ret == -1 && c.n == |stream| && c.buffer == buffer && c.rest == []
  {
    if FirstBreak(stream).Some? {
      var k := FirstBreak(stream).value;
      assert Line(c) == stream[..k + 1];
      assert stream[..k + 1][..k] == stream[..k];
      assert stream == stream[..k + 1] + stream[k + 1..];
    }
  }

  /** The split is unique: only one line-and-rest pair fits a stream. */
  lemma SplitUnique(stream: seq<char>, l1: seq<char>, r1: seq<char>, l2: seq<char>, r2: seq<char>)
    requires SplitsAt(stream, l1, r1) && SplitsAt(stream, l2, r2)
    ensures l1 == l2 && r1 == r2
  {
    assert l1 == stream[..|l1|] && l2 == stream[..|l2|];
    assert r1 == stream[|l1|..] && r2 == stream[|l2|..];
  }

  /** Calling until failure: the lines read, in order. */
  function Lines(stream: seq<char>): seq<seq<char>>
    decreases |stream|
  {
    match FirstBreak(stream)
    case None => []
    case Some(k) => [stream[..k + 1]] + Lines(stream[k + 1..])
  }

  function Concat(lines: seq<seq<char>>): seq<char>
  {
    if lines == [] then [] else lines[0] + Concat(lines[1..])
  }

  lemma ConcatCons(x: seq<char>, ls: seq<seq<char>>)
    ensures Concat([x] + ls) == x + Concat(ls)
  {
    assert ([x] + ls)[1..] == ls;
  }

  /** Cutting at `j + t` is cutting at `j` and then at `t`. */
  lemma CutTwice(s: seq<char>, j: nat, t: nat)
    requires j + t <= |s|
    ensures s[..j + t] == s[..j] + s[j..][..t] && s[j + t..] == s[j..][t..]
  {
  }

  /** Reading a stream line by line gives back all of it except a last
      fragment without a line break, which is dropped. */
  lemma {:induction false} LinesCoverStream(stream: seq<char>)
    ensures |Concat(Lines(stream))| <= |stream|
    ensures Concat(Lines(stream)) == stream[..|Concat(Lines(stream))|]
    ensures '\n' !in stream[|Concat(Lines(stream))|..]
    decreases |stream|
  {
    match FirstBreak(stream)
    case None =>
      assert stream[0..] == stream;
    case Some(k) =>
      var rest := stream[k + 1..];
      LinesCoverStream(rest);
      var tail := Concat(Lines(rest));
      assert Lines(stream) == [stream[..k + 1]] + Lines(rest);
      ConcatCons(stream[..k + 1], Lines(rest));
      CutTwice(stream, k + 1, |tail|);
      assert Concat(Lines(stream)) == stream[..k + 1] + tail;
  }
}

=== FILE: header_gen.dfy ===
/**
  The build-time header generator (`bin_to_c_header.py <name> <input.bin>
  <output.h>`): it renders a binary as a C array of `0xNN` literals,
  eight to a line. File reads and writes become a byte sequence in and a
  string out.
 */
module HeaderGen {
  import opened Bytes
  import opened Text

  /** `"0x{:02X}".format(c)`: `0x` and two upper-case hex digits. */
  function Literal(b: byte): (s: string)
    ensures |s| == 4 && s[0] == '0' && s[1] == 'x'
    ensures HexValue(s[2]) == Some(b / 16) && HexValue(s[3]) == Some(b % 16)
    ensures !('a' <= s[2] <= 'z') && !('a' <= s[3] <= 'z')
  {
    var h := Hex2Upper(b);
    ['0', 'x', h[0], h[1]]
  }

  const Indent: string := "\n    "

  /** What the loop writes before the literal at 0-based position `l`:
      nothing before the first, a comma before every other one, and a
      line break with a four-space indent after the comma when `l` is a
      multiple of 8. */
  function Separator(l: nat): string
  {
    if l == 0 then "" else "," + (if l % 8 == 0 then Indent else "")
  }

  /** The `arr` string the loop builds over the bytes. */
  function Body(data: seq<byte>): string
  {
    if data == [] then ""
    else Body(data[..|data| - 1]) + Separator(|data| - 1) + Literal(data[|data| - 1])
  }

  const Banner: string := "/* NOTE: THIS FILE WAS AUTOMATICALLY GENERATED */\n"
  const DeclPrefix: string := "static unsigned char "
  const Closing: string := "\n};\n"

  /** Everything before the literal list: the banner line, the
      declaration with the name used verbatim, and the indent. */
  function Opening(name: string): string
  {
    Banner + DeclPrefix + name + "[] = {" + Indent
  }

  /** The output template. The upper-cased copy of the name the script
      computes is never referenced by the template. */
  function Header(name: string, arr: string): string
  {
    Opening(name) + arr + Closing
  }

  /** The script: the loop builds `arr`, the template wraps it. */
  method Render(name: string, data: seq<byte>) returns (out: string)
    ensures out == Header(name, Body(data))
  {
    var arr := BuildBody(data);
    out := Header(name, arr);
  }

  /** The script's loop, as written: a counter `l` and a string `arr`
      grown one literal at a time. */
  method BuildBody(data: seq<byte>) returns (arr: string)
    ensures arr == Body(data)
  {
    arr := "";
    var l := 0;
    while l < |data|
      invariant 0 <= l <= |data|
      invariant arr == Body(data[..l])
    {
      arr := AppendLiteral(data, l, arr);
      l := l + 1;
    }
    TakeAll(data);
  }

  /** One pass of the loop body: the separator, then the literal of
      `data[l]`. */
  method AppendLiteral(data: seq<byte>, l: nat, arr: string) returns (arr': string)
    requires l < |data| && arr == Body(data[..l])
    ensures arr' == Body(data[..l + 1])
  {
    var c := data[l];
    arr' := AppendSeparator(arr, l);
    BodySnoc(data, l, arr');
    arr' := arr' + Literal(c);
  }

  /** The start of the loop body: a comma before every literal but the
      first, and a line break with the indent before every eighth. */
  method AppendSeparator(arr: string, l: nat) returns (arr': string)
    ensures arr' == arr + Separator(l)
    ensures l == 0 <==> arr' == arr
  {
    arr' := arr;
    if l > 0 {
      arr' := arr' + ",";
      if l % 8 == 0 {
        arr' := arr' + Indent;
      }
    }
  }

  /** One more byte extends the body by its separator and literal. */
  lemma BodySnoc(data: seq<byte>, l: nat, arr: string)
    requires l < |data| && arr == Body(data[..l]) + Separator(l)
    ensures arr + Literal(data[l]) == Body(data[..l + 1])
  {
    TakeSnoc(data, l);
    assert data[..l + 1][..l] == data[..l];
  }

  /** The output starts with the banner, names the array verbatim, and
      ends with the closing brace line. */
  lemma HeaderShape(name: string, arr: string)
    ensures Header(name, arr)[..|Banner|] == Banner
    ensures Header(name, arr)[|Banner| + |DeclPrefix|..|Banner| + |DeclPrefix| + |name|] == name
    ensures Header(name, arr)[|Opening(name)|..|Opening(name)| + |arr|] == arr
    ensures Header(name, arr)[|Header(name, arr)| - |Closing|..] == Closing
  {
    var h, o := Header(name, arr), Opening(name);
    var p := Banner + DeclPrefix + name;
    Concat3(o, arr, Closing);
    Concat3(p, "[] = {", Indent);
    Concat3(Banner, DeclPrefix, name);
    var b, d := |Banner|, |Banner| + |DeclPrefix|;
    InfixOfPrefix(h, |o|, 0, b);
    InfixOfPrefix(o, |p|, 0, b);
    InfixOfPrefix(h, |o|, d, d + |name|);
    InfixOfPrefix(o, |p|, d, d + |name|);
  }

  // ---------------------------------------------------------------------
  // Reading the literals back

  predicate IsSeparatorChar(c: char) { c == ',' || c == '\n' || c == ' ' }

  /** Separator characters removed from the end. */
  function DropSeparators(s: string): (r: string)
    ensures |r| <= |s| && r == s[..|r|]
  {
    if s != [] && IsSeparatorChar(s[|s| - 1]) then DropSeparators(s[..|s| - 1]) else s
  }

  /** An independent reader for a literal list, scanning from the end:
      each `0xHH` token (either case) gives a byte, and commas, line
      breaks and spaces between tokens are skipped. `None` for anything
      else. */
  function ParseBody(s: string): Option<seq<byte>>
    decreases |s|
  {
    if s == [] then Some([])
    else if |s| < 4 then None
    else
      var tok := s[|s| - 4..];
      if tok[0] != '0' || tok[1] != 'x' then None
      else match (HexValue(tok[2]), HexValue(tok[3]))
        case (Some(h), Some(d)) =>
          if h * 16 + d < 0x100 then
            (match ParseBody(DropSeparators(s[..|s| - 4]))
             case Some(bs) => Some(bs + [h * 16 + d])
             case None => None)
          else None
        case _ => None
  }

  lemma {:induction false} DropTrailingSeparators(x: string, y: string)
    requires x == [] || !IsSeparatorChar(x[|x| - 1])
    requires forall k :: 0 <= k < |y| ==> IsSeparatorChar(y[k])
    ensures DropSeparators(x + y) == x
    decreases |y|
  {
    if y == [] {
      assert x + y == x;
    } else {
      assert (x + y)[..|x + y| - 1] == x + y[..|y| - 1];
      DropTrailingSeparators(x, y[..|y| - 1]);
    }
  }

  lemma SeparatorChars(l: nat)
    ensures forall k :: 0 <= k < |Separator(l)| ==> IsSeparatorChar(Separator(l)[k])
  {
  }

  lemma BodyEnd(data: seq<byte>)
    ensures Body(data) == [] || !IsSeparatorChar(Body(data)[|Body(data)| - 1])
  {
    if data != [] {
      var lit := Literal(data[|data| - 1]);
      assert Body(data)[|Body(data)| - 1] == lit[3];
    }
  }

  /** One step of the reader on a list that ends in a valid token. */
  lemma ParseBodyToken(s: string, v: byte)
    requires |s| >= 4 && s[|s| - 4] == '0' && s[|s| - 3] == 'x'
    requires HexValue(s[|s| - 2]) == Some(v / 16) && HexValue(s[|s| - 1]) == Some(v % 16)
    ensures ParseBody(s) ==
      match ParseBody(DropSeparators(s[..|s| - 4]))
      case Some(bs) => Some(bs + [v])
      case None => None
  {
    assert (v / 16) * 16 + v % 16 == v;
    var tok := s[|s| - 4..];
    assert tok[0] == '0' && tok[1] == 'x' && tok[2] == s[|s| - 2] && tok[3] == s[|s| - 1];
  }

  /** Reading a literal off the end of a list whose front, once its
      trailing separators are dropped, reads as `bs`. */
  lemma ParseLiteralStep(prefix: string, b: byte, bs: seq<byte>)
    requires ParseBody(DropSeparators(prefix)) == Some(bs)
    ensures ParseBody(prefix + Literal(b)) == Some(bs + [b])
  {
    var lit := Literal(b);
    var s := prefix + lit;
    SplitLast4(prefix, lit);
    assert s[|s| - 4] == '0' && s[|s| - 3] == 'x' && s[|s| - 2] == lit[2] && s[|s| - 1] == lit[3];
    ParseBodyToken(s, b);
  }

  lemma SplitLast4(x: string, y: string)
    requires |y| == 4
    ensures (x + y)[|x + y| - 4..] == y && (x + y)[..|x + y| - 4] == x
  {
  }

  /** Dropping the separator written after a body gives the body back. */
  lemma DropSeparatorAfterBody(data: seq<byte>, l: nat)
    ensures DropSeparators(Body(data) + Separator(l)) == Body(data)
  {
    BodyEnd(data);
    SeparatorChars(l);
    DropTrailingSeparators(Body(data), Separator(l));
  }

  /** Round trip: reading the rendered literals gives back the bytes, in
      order. */
  lemma {:induction false} ParseBodyRoundTrip(data: seq<byte>)
    ensures ParseBody(Body(data)) == Some(data)
    decreases |data|
  {
    if data != [] {
      var init := data[..|data| - 1];
      var b := data[|data| - 1];
      DropSeparatorAfterBody(init, |data| - 1);
      ParseBodyRoundTrip(init);
      var prefix := Body(init) + Separator(|data| - 1);
      ParseLiteralStep(prefix, b, init);
      assert Body(data) == prefix + Literal(b);
      InitLast(data);
    }
  }

  lemma LiteralHasNo(b: byte, c: char)
    requires c == ',' || c == '\n'
    ensures Count(Literal(b), c) == 0
  {
    CountAbsent(Literal(b), c);
  }

  lemma SeparatorCounts(l: nat)
    ensures Count(Separator(l), ',') == if l == 0 then 0 else 1
    ensures Count(Separator(l), '\n') == if l > 0 && l % 8 == 0 then 1 else 0
  {
    if l > 0 {
      var tail := if l % 8 == 0 then Indent else "";
      CountAppend(",", tail, ',');
      CountAppend(",", tail, '\n');
      CountAbsent(tail, ',');
      CountAbsent(",", '\n');
      assert Count(",", ',') == 1 by { assert ","[..0] == ""; }
      if l % 8 == 0 {
        assert Indent == "\n" + "    ";
        CountAppend("\n", "    ", '\n');
        CountAbsent("    ", '\n');
        assert Count("\n", '\n') == 1 by { assert "\n"[..0] == ""; }
      } else {
        CountAbsent(tail, '\n');
      }
    }
  }

  /** There is one comma between each pair of consecutive literals and
      none after the last. */
  lemma {:induction false} BodyCommas(data: seq<byte>)
    ensures Count(Body(data), ',') == if data == [] then 0 else |data| - 1
    decreases |data|
  {
    if data != [] {
      var init := data[..|data| - 1];
      var l := |data| - 1;
      BodyCommas(init);
      CountAppend(Body(init) + Separator(l), Literal(data[l]), ',');
      CountAppend(Body(init), Separator(l), ',');
      LiteralHasNo(data[l], ',');
      SeparatorCounts(l);
    }
  }

  /** A line break follows the 8th, 16th, 24th, ... literal and only
      those: with `n` bytes there are `(n - 1) / 8` of them. */
  lemma {:induction false} BodyLineBreaks(data: seq<byte>)
    ensures Count(Body(data), '\n') == if data == [] then 0 else (|data| - 1) / 8
    decreases |data|
  {
    if data != [] {
      var init := data[..|data| - 1];
      var l := |data| - 1;
      BodyLineBreaks(init);
      BodyCountStep(data, '\n');
      SeparatorCounts(l);
      if l > 0 {
        EighthStep(l);
      }
    }
  }

  /** The body of a prefix of the bytes is a prefix of the body. */
  lemma {:induction false} BodyPrefix(data: seq<byte>, m: nat)
    requires m <= |data|
    ensures Body(data[..m]) <= Body(data)
    decreases |data|
  {
    if m == |data| {
      assert data[..m] == data;
    } else {
      var init := data[..|data| - 1];
      assert init[..m] == data[..m];
      BodyPrefix(init, m);
      BodyUnfold(data);
    }
  }

  /** Where the line breaks are: the `j` literals before position `j` are
      followed by a comma, and then by a line break exactly when `j` is a
      multiple of 8. Together with `BodyLineBreaks`, which counts one
      break for each such `j`, there are no breaks anywhere else. */
  lemma BodyLineBreakAt(data: seq<byte>, j: nat)
    requires 0 < j < |data|
    ensures var i := |Body(data[..j])|;
      i + 1 < |Body(data)| && Body(data)[i] == ',' && (Body(data)[i + 1] == '\n' <==> j % 8 == 0)
  {
    var front := data[..j + 1];
    assert front[..j] == data[..j];
    BodyUnfold(front);
    BodyPrefix(data, j + 1);
    BreakAfter(Body(data), Body(front), Body(data[..j]), j, Literal(data[j]));
  }

  lemma BreakAfter(whole: string, front: string, b: string, j: nat, lit: string)
    requires front <= whole && front == b + Separator(j) + lit
    requires j > 0 && |lit| == 4 && lit[0] == '0'
    ensures |b| + 1 < |whole| && whole[|b|] == ',' && (whole[|b| + 1] == '\n' <==> j % 8 == 0)
  {
    SeparatorThenLiteral(b, j, lit);
    PrefixAt(front, whole, |b|);
    PrefixAt(front, whole, |b| + 1);
  }

  /** The two characters after a body: the separator's comma, then its
      line break or the next literal's `0`. */
  lemma SeparatorThenLiteral(b: string, j: nat, lit: string)
    requires j > 0 && |lit| == 4 && lit[0] == '0'
    ensures var t := b + Separator(j) + lit;
      |b| + 1 < |t| && t[|b|] == ',' && (t[|b| + 1] == '\n' <==> j % 8 == 0)
  {
    var t := b + Separator(j) + lit;
    if j % 8 == 0 {
      assert t == b + ",\n    " + lit;
    } else {
      assert t == b + "," + lit;
      assert t[|b| + 1] == lit[0];
    }
  }

  lemma PrefixAt(p: string, s: string, i: nat)
    requires p <= s && i < |p|
    ensures s[i] == p[i]
  {
    assert p == s[..|p|];
  }

  /** The last byte adds the commas and line breaks of its separator. */
  lemma BodyCountStep(data: seq<byte>, c: char)
    requires data != [] && (c == ',' || c == '\n')
    ensures Count(Body(data), c) == Count(Body(data[..|data| - 1]), c) + Count(Separator(|data| - 1), c)
  {
    var l := |data| - 1;
    var front := Body(data[..l]) + Separator(l);
    BodyUnfold(data);
    CountAppend(front, Literal(data[l]), c);
    CountAppend(Body(data[..l]), Separator(l), c);
    LiteralHasNo(data[l], c);
  }

  lemma BodyUnfold(data: seq<byte>)
    requires data != []
    ensures Body(data) == Body(data[..|data| - 1]) + Separator(|data| - 1) + Literal(data[|data| - 1])
  {
  }

  /** Passing `l` adds one multiple of 8 exactly when `l` is one. */
  lemma EighthStep(l: nat)
    requires l > 0
    ensures (l - 1) / 8 + (if l % 8 == 0 then 1 else 0) == l / 8
  {
  }

  /** An empty input leaves the literal list empty: the indent line is
      followed directly by the closing line. */
  lemma EmptyInput(name: string)
    ensures Header(name, Body([])) == Banner + DeclPrefix + name + "[] = {\n    \n};\n"
  {
  }

  /** How one invocation of the script ends: a usage error (exit status 1,
      nothing written) or the text written to the output file. */
  datatype Outcome = UsageError | Wrote(text: string)

  /** The whole script over `sys.argv` (program name first) and the
      content of the file named by `argv[2]`. */
  function Run(argv: seq<string>, data: seq<byte>): (o: Outcome)
    ensures |argv| != 4 <==> o.UsageError?
    ensures o.Wrote? ==> |Opening(argv[1])| + |Closing| <= |o.text|
    ensures o.Wrote? ==> ParseBody(o.text[|Opening(argv[1])|..|o.text| - |Closing|]) == Some(data)
  {
    if |argv| != 4 then UsageError
    else
      var arr := Body(data);
      var out := Header(argv[1], arr);
      ParseBodyRoundTrip(data);
      HeaderShape(argv[1], arr);
      Wrote(out)
  }
}

=== FILE: input_device.dfy ===
/**
  Control codes of the input devices (`input_device.cpp`). A gamepad
  button and a gamepad axis are packed into disjoint bit fields of one
  32-bit code: the button number plus one in bits 0-15, the axis number
  plus one in bits 24-30, and the axis direction in bit 31. Keyboard
  codes are Qt key codes. SDL's and Qt's name tables are foreign: they
  are parameters here.
 */
module InputCodes {
  import opened Bytes
  import opened Text

  const ButtonMask: u32 := 0x0000_FFFF
  const NegativeMask: u32 := 0x8000_0000
  /** `0xFF000000 ^ CONTROLLER_NEGATIVE_MASK` */
  const AxisMask: u32 := 0x7F00_0000

  /** `what & CONTROLLER_BUTTON_MASK` */
  function ButtonField(what: u32): nat { what % 0x1_0000 }

  /** `(what & CONTROLLER_AXIS_MASK) >> CONTROLLER_AXIS_SHIFT` */
  function AxisField(what: u32): nat { (what / 0x100_0000) % 0x80 }

  /** `what & CONTROLLER_NEGATIVE_MASK` is set. */
  predicate Negative(what: u32) { what >= NegativeMask }

  /** `controller_input_to_key(SDL_GameControllerButton)`: the button
      number plus one, cut to 16 bits. SDL's invalid button (-1) gives 0. */
  function ButtonKey(b: int): (k: u32)
    requires -1 <= b
    ensures k < 0x1_0000 && ButtonField(k) == k
    ensures AxisField(k) == 0 && !Negative(k)
  {
    (b + 1) % 0x1_0000
  }

  /** `controller_input_to_key(SDL_GameControllerAxis)`: the axis number
      plus one shifted to bit 24, cut to 32 bits and masked to bits
      24-30. */
  function AxisKey(a: int): (k: u32)
    requires -1 <= a
    ensures ButtonField(k) == 0 && !Negative(k)
    ensures AxisField(k) == (a + 1) % 0x80
  {
    ((a + 1) % 0x80) * 0x100_0000
  }

  /** The two fields never overlap: no code is both a button key and an
      axis key, except the code 0 that the invalid values map to. */
  lemma FieldsDisjoint(b: int, a: int)
    requires -1 <= b && -1 <= a
    requires ButtonKey(b) != 0 || AxisKey(a) != 0
    ensures ButtonKey(b) != AxisKey(a)
  {
  }

  datatype Control = Button(button: int) | Axis(axis: int)

  /** `controller_key_to_input`: the button field wins; a code with
      neither field set ends the program, so callers must not pass one. */
  function Decode(what: u32): (c: Control)
    requires ButtonField(what) != 0 || AxisField(what) != 0
    ensures c.Button? <==> ButtonField(what) != 0
    ensures c.Button? ==> 0 <= c.button < 0xFFFF
    ensures c.Axis? ==> 0 <= c.axis < 0x7F
  {
    if ButtonField(what) != 0 then Button(ButtonField(what) - 1)
    else Axis(AxisField(what) - 1)
  }

  /** Decoding inverts the button encoding for every button whose number
      plus one fits in 16 bits. */
  lemma ButtonRoundTrip(b: int)
    requires 0 <= b < 0xFFFF
    ensures Decode(ButtonKey(b)) == Button(b)
  {
  }

  /** Decoding inverts the axis encoding for every axis whose number plus
      one fits in 7 bits, whatever the direction bit. */
  lemma AxisRoundTrip(a: int, negative: bool)
    requires 0 <= a < 0x7F
    ensures Decode(AxisEvent(a, negative)) == Axis(a)
  {
    var k := AxisKey(a);
    if negative {
      assert AxisEvent(a, negative) == k + NegativeMask;
      assert (k + NegativeMask) / 0x100_0000 == k / 0x100_0000 + 0x80;
    }
  }

  /** `handle_input(SDL_GameControllerButton, bool)`: the code emitted. */
  function ButtonEvent(b: int): u32
    requires -1 <= b
  {
    ButtonKey(b)
  }

  /** `handle_input(SDL_GameControllerAxis, double)`: the axis key with
      the direction bit or-ed in when the value is below zero; the
      magnitude goes out as `fabs(value)`. */
  function AxisEvent(a: int, negative: bool): (k: u32)
    requires -1 <= a
    ensures Negative(k) <==> negative
    ensures ButtonField(k) == 0 && AxisField(k) == (a + 1) % 0x80
    ensures k % NegativeMask == AxisKey(a)
  {
    var key := AxisKey(a);
    if negative then
      assert (key + NegativeMask) / 0x100_0000 == key / 0x100_0000 + 0x80;
      key + NegativeMask
    else key
  }

  // ---------------------------------------------------------------------
  // Dispatch

  /** `emit_input`'s lookup: the lowest input type whose binding list
      holds the code, or none. At most one input is emitted. */
  method FindBinding(settings: seq<seq<u32>>, code: u32) returns (found: Option<nat>)
    ensures found.Some? ==> found.value < |settings| && code in settings[found.value]
    ensures found.Some? ==> forall j :: 0 <= j < found.value ==> code !in settings[j]
    ensures found.None? <==> forall j :: 0 <= j < |settings| ==> code !in settings[j]
  {
    var i := 0;
    while i < |settings|
      invariant 0 <= i <= |settings|
      invariant forall j :: 0 <= j < i ==> code !in settings[j]
    {
      if code in settings[i] {
        return Some(i);
      }
      i := i + 1;
    }
    return None;
  }

  // ---------------------------------------------------------------------
  // Keyboard names

  /** Qt's key codes for the three modifier keys. */
  const KeyShift: u32 := 0x0100_0020
  const KeyControl: u32 := 0x0100_0021
  const KeyAlt: u32 := 0x0100_0023

  predicate IsModifier(k: u32) { k == KeyShift || k == KeyControl || k == KeyAlt }

  /** `InputDeviceKeyboard::control_to_string`: the modifier keys have
      fixed names; any other key takes the text of its key sequence,
      `sequenceText` (`None` when the sequence is empty). */
  function KeyboardToString(what: u32, sequenceText: Option<string>): (r: Option<string>)
    ensures IsModifier(what) ==> r.Some?
    ensures !IsModifier(what) ==> r == sequenceText
  {
    if what == KeyShift then Some("Shift")
    else if what == KeyAlt then Some("Alt")
    else if what == KeyControl then Some("Control")
    else sequenceText
  }

  /** `InputDeviceKeyboard::control_from_string`: the three names first,
      then the first key of the parsed sequence, `parsed` (`None` when
      the sequence is empty). */
  function KeyboardFromString(what: string, parsed: Option<u32>): (r: Option<u32>)
    ensures what == "Shift" ==> r == Some(KeyShift)
    ensures what == "Control" ==> r == Some(KeyControl)
    ensures what == "Alt" ==> r == Some(KeyAlt)
  {
    if what == "Shift" then Some(KeyShift)
    else if what == "Control" then Some(KeyControl)
    else if what == "Alt" then Some(KeyAlt)
    else parsed
  }

  /** The modifier keys survive a save and a load whatever Qt's key
      sequence tables say. */
  lemma ModifierRoundTrip(k: u32, sequenceText: Option<string>, parsed: Option<u32>)
    requires IsModifier(k)
    ensures KeyboardFromString(KeyboardToString(k, sequenceText).value, parsed) == Some(k)
  {
  }

  // ---------------------------------------------------------------------
  // Gamepad names

  /** `SDL_GameControllerGetStringForButton` / `...ForAxis` and their
      inverses, with SDL's invalid value -1. */
  datatype SdlNames = SdlNames(
    buttonName: int -> string,
    axisName: int -> string,
    buttonFromName: string -> int,
    axisFromName: string -> int)

  /** `InputDeviceGamepad::control_to_string`: a button's SDL name, or an
      axis's SDL name followed by `-` when the direction bit is set and
      `+` otherwise. */
  function GamepadToString(names: SdlNames, what: u32): (r: string)
    requires ButtonField(what) != 0 || AxisField(what) != 0
    ensures Decode(what).Axis? ==> r != [] && (r[|r| - 1] == '-' <==> Negative(what))
    ensures Decode(what).Axis? ==> r[|r| - 1] == '-' || r[|r| - 1] == '+'
    ensures Decode(what).Axis? ==> r[..|r| - 1] == names.axisName(Decode(what).axis)
  {
    match Decode(what)
    case Button(b) => names.buttonName(b)
    case Axis(a) => names.axisName(a) + (if Negative(what) then "-" else "+")
  }

  predicate EndsInSign(what: string)
  {
    what != [] && (what[|what| - 1] == '+' || what[|what| - 1] == '-')
  }

  /** `InputDeviceGamepad::control_from_string` as written: a name ending
      in `+` or `-` whose stem is an axis name gives that axis's key,
      without the direction bit; otherwise a button name gives its key. */
  function GamepadFromStringAsWritten(names: SdlNames, what: string): (r: Option<u32>)
    ensures r.Some? ==> !Negative(r.value)
  {
    var axis := if EndsInSign(what) then names.axisFromName(what[..|what| - 1]) else -1;
    if axis >= 0 then Some(AxisKey(axis))
    else
      var button := names.buttonFromName(what);
      if button >= 0 then Some(ButtonKey(button)) else None
  }

  /** The same reader with the direction restored from the last character,
      as `control_to_string` writes it. */
  function GamepadFromString(names: SdlNames, what: string): (r: Option<u32>)
    ensures r.Some? && Negative(r.value) ==> EndsInSign(what) && what[|what| - 1] == '-'
  {
    var axis := if EndsInSign(what) then names.axisFromName(what[..|what| - 1]) else -1;
    if axis >= 0 then Some(AxisEvent(axis, what[|what| - 1] == '-'))
    else
      var button := names.buttonFromName(what);
      if button >= 0 then Some(ButtonKey(button)) else None
  }

  /** SDL's tables invert each other on valid values, and no button name
      ends in a sign character. */
  predicate NamesInvert(names: SdlNames)
  {
    && (forall b :: 0 <= b < 0xFFFF ==> names.buttonFromName(names.buttonName(b)) == b)
    && (forall a :: 0 <= a < 0x7F ==> names.axisFromName(names.axisName(a)) == a)
    && (forall b :: 0 <= b < 0xFFFF ==> !EndsInSign(names.buttonName(b)))
  }

  /** Every code a gamepad emits for an axis pushed below zero is saved as
      a name ending in `-`, and the loader as written reads it back as the
      same axis pushed the other way: the binding is lost. */
  lemma NegativeAxisLosesDirection(names: SdlNames, a: int)
    requires NamesInvert(names) && 0 <= a < 0x7F
    ensures GamepadFromStringAsWritten(names, GamepadToString(names, AxisEvent(a, true))) == Some(AxisKey(a))
    ensures AxisKey(a) != AxisEvent(a, true)
  {
    var what := AxisEvent(a, true);
    AxisRoundTrip(a, true);
    var s := GamepadToString(names, what);
    assert s[..|s| - 1] == names.axisName(a);
  }

  /** With the direction restored, every code a gamepad emits survives a
      save and a load. */
  lemma GamepadRoundTrip(names: SdlNames, what: u32)
    requires NamesInvert(names)
    requires ButtonField(what) != 0 || AxisField(what) != 0
    requires what == ButtonKey(ButtonField(what) - 1) || what == AxisEvent(AxisField(what) - 1, Negative(what))
    ensures GamepadFromString(names, GamepadToString(names, what)) == Some(what)
  {
    var s := GamepadToString(names, what);
    match Decode(what)
    case Button(b) =>
      assert s == names.buttonName(b);
      assert !EndsInSign(s);
    case Axis(a) =>
      assert s[..|s| - 1] == names.axisName(a);
      assert EndsInSign(s);
  }
}

/**
  The name tables of `input_device.hpp`: the 9-member input enum and the
  22-member gamepad enum, each mapped to its member's name and back, and
  the default gamepad bindings the constructor installs.
 */
module InputNames {
  import opened Bytes

  /** `Input_A` .. `Input_Turbo`, in declaration order. */
  const InputTypeNames: seq<string> :=
    ["A", "B", "Start", "Select", "Up", "Down", "Left", "Right", "Turbo"]

  /** `Controller_Input_A` .. `Controller_Input_Y`, in declaration order. */
  const ControllerNames: seq<string> :=
    ["A", "B", "Select", "Start", "Up", "Down", "Left", "Right",
     "LeftX", "LeftY", "RightX", "RightY", "Center", "Guide",
     "L1", "L2", "L3", "R1", "R2", "R3", "X", "Y"]

  const InputCount: nat := 9
  const ControllerCount: nat := 22

  /** A `switch` over the members: the name, or null (`None`) for any
      value outside the enum. */
  function NameOf(table: seq<string>, t: int): (r: Option<string>)
    ensures r.Some? <==> 0 <= t < |table|
    ensures r.Some? ==> r.value == table[t]
  {
    if 0 <= t < |table| then Some(table[t]) else None
  }

  /** A chain of `strcmp` tests in declaration order: the first member
      whose name equals the string. */
  function FromName(table: seq<string>, s: string): (r: Option<nat>)
    ensures r.Some? ==> r.value < |table| && table[r.value] == s
    ensures r.Some? ==> forall j :: 0 <= j < r.value ==> table[j] != s
    ensures r.None? <==> s !in table
  {
    if table == [] then None
    else if table[0] == s then Some(0)
    else match FromName(table[1..], s)
      case Some(i) => Some(i + 1)
      case None => None
  }

  predicate Distinct(table: seq<string>)
  {
    forall i, j :: 0 <= i < j < |table| ==> table[i] != table[j]
  }

  /** With distinct names, the name of a member reads back as that
      member. */
  lemma FromNameOf(table: seq<string>, t: nat)
    requires Distinct(table) && t < |table|
    ensures FromName(table, NameOf(table, t).value) == Some(t)
  {
    assert table[t] in table;
  }

  /** `input_type_to_string` */
  function InputTypeToString(t: int): Option<string> { NameOf(InputTypeNames, t) }

  /** `input_type_from_string` */
  function InputTypeFromString(s: string): Option<nat> { FromName(InputTypeNames, s) }

  /** `gamepad_input_type_to_string` */
  function ControllerToString(t: int): Option<string> { NameOf(ControllerNames, t) }

  /** `gamepad_input_type_from_string` */
  function ControllerFromString(s: string): Option<nat> { FromName(ControllerNames, s) }

  predicate Disjoint(a: seq<string>, b: seq<string>)
  {
    forall i, j :: 0 <= i < |a| && 0 <= j < |b| ==> a[i] != b[j]
  }

  /** Two distinct tables with no name in common make a distinct table. */
  lemma DistinctAppend(a: seq<string>, b: seq<string>)
    requires Distinct(a) && Distinct(b) && Disjoint(a, b)
    ensures Distinct(a + b)
  {
    forall i, j | 0 <= i < j < |a + b| ensures (a + b)[i] != (a + b)[j] {
      if j < |a| {
      } else if i < |a| {
        assert (a + b)[j] == b[j - |a|];
      } else {
        assert (a + b)[i] == b[i - |a|] && (a + b)[j] == b[j - |a|];
      }
    }
  }

  lemma InputNamesDistinct()
    ensures Distinct(InputTypeNames)
  {
  }

  // The controller table in three parts, so that each comparison of
  // literal names stays small.
  const ControllerButtons: seq<string> := ["A", "B", "Select", "Start", "Up", "Down", "Left", "Right"]
  const ControllerSticks: seq<string> := ["LeftX", "LeftY", "RightX", "RightY", "Center", "Guide"]
  const ControllerShoulders: seq<string> := ["L1", "L2", "L3", "R1", "R2", "R3", "X", "Y"]

  lemma ControllerParts()
    ensures ControllerNames == ControllerButtons + ControllerSticks + ControllerShoulders
    ensures Distinct(ControllerButtons) && Distinct(ControllerSticks) && Distinct(ControllerShoulders)
  {
  }

  lemma ControllerPartsDisjoint()
    ensures Disjoint(ControllerButtons, ControllerSticks)
    ensures Disjoint(ControllerButtons + ControllerSticks, ControllerShoulders)
  {
  }

  lemma ControllerNamesDistinct()
    ensures Distinct(ControllerNames)
  {
    ControllerParts();
    ControllerPartsDisjoint();
    DistinctAppend(ControllerButtons, ControllerSticks);
    DistinctAppend(ControllerButtons + ControllerSticks, ControllerShoulders);
  }


  /** Every input type's name reads back as that type; names and values
      outside the enum map to nothing. */
  lemma InputTypeRoundTrip(t: int, s: string)
    ensures 0 <= t < InputCount ==> InputTypeFromString(InputTypeToString(t).value) == Some(t)
    ensures t < 0 || t >= InputCount ==> InputTypeToString(t) == None
    ensures InputTypeFromString(s).Some? ==> InputTypeToString(InputTypeFromString(s).value) == Some(s)
    ensures s !in InputTypeNames ==> InputTypeFromString(s) == None
  {
    InputNamesDistinct();
    if 0 <= t < InputCount { FromNameOf(InputTypeNames, t); }
  }

  /** The same for all 22 gamepad inputs. */
  lemma ControllerRoundTrip(t: int, s: string)
    ensures 0 <= t < ControllerCount ==> ControllerFromString(ControllerToString(t).value) == Some(t)
    ensures t < 0 || t >= ControllerCount ==> ControllerToString(t) == None
    ensures ControllerFromString(s).Some? ==> ControllerToString(ControllerFromString(s).value) == Some(s)
    ensures s !in ControllerNames ==> ControllerFromString(s) == None
  {
    ControllerNamesDistinct();
    if 0 <= t < ControllerCount { FromNameOf(ControllerNames, t); }
  }

  // ---------------------------------------------------------------------
  // Default bindings

  /** `settings[Controller_Input_COUNT][2]`: two optional input types per
      gamepad input. */
  type Bindings = seq<seq<Option<nat>>>

  predicate WellFormed(t: Bindings)
  {
    |t| == ControllerCount && forall c :: 0 <= c < |t| ==> |t[c]| == 2
  }

  /** The constructor's assignments, in order: the `i`-th binds slot 0 of
      gamepad input `DefaultInputs[i]` to input type `i` (A, B, Start,
      Select, Up, Down, Left, Right, Turbo). */
  const DefaultInputs: seq<nat> := [0, 1, 3, 2, 4, 5, 6, 7, 18]

  function Empty(n: nat): (t: Bindings)
    ensures |t| == n && forall c :: 0 <= c < n ==> t[c] == [None, None]
  {
    if n == 0 then [] else Empty(n - 1) + [[None, None]]
  }

  /** The table after the first `k` assignments. */
  function Assign(k: nat): (t: Bindings)
    requires k <= |DefaultInputs|
    ensures WellFormed(t)
    decreases k
  {
    if k == 0 then Empty(ControllerCount)
    else
      var t := Assign(k - 1);
      var c := DefaultInputs[k - 1];
      t[c := t[c][0 := Some(k - 1)]]
  }

  function DefaultBindings(): Bindings { Assign(|DefaultInputs|) }

  /** The gamepad inputs the constructor binds. */
  predicate BoundByDefault(c: nat)
  {
    c < 8 || c == 18
  }

  /** No gamepad input is assigned twice. */
  lemma DefaultInputsDistinct()
    ensures forall i, j :: 0 <= i < j < |DefaultInputs| ==> DefaultInputs[i] != DefaultInputs[j]
  {
  }

  /** Every assigned gamepad input is one of the bound ones. */
  lemma DefaultInputsBound()
    ensures forall i :: 0 <= i < |DefaultInputs| ==> BoundByDefault(DefaultInputs[i])
  {
  }

  lemma {:induction false} AssignContents(k: nat, c: nat)
    requires k <= |DefaultInputs| && c < ControllerCount
    ensures Assign(k)[c][1] == None
    ensures Assign(k)[c][0].Some? <==> exists i :: 0 <= i < k && DefaultInputs[i] == c
    ensures forall i :: 0 <= i < k && DefaultInputs[i] == c ==> Assign(k)[c][0] == Some(i)
  {
    if k > 0 {
      AssignContents(k - 1, c);
      DefaultInputsDistinct();
    }
  }

  /** Which assignment binds a bound gamepad input, and that the two
      tables name the pair alike (R2 aside, which takes Turbo). */
  lemma DefaultPair(c: nat)
    requires BoundByDefault(c)
    ensures var i := if c == 2 then 3 else if c == 3 then 2 else if c == 18 then 8 else c;
      i < |DefaultInputs| && DefaultInputs[i] == c && c < ControllerCount &&
      InputTypeNames[i] == if c == 18 then "Turbo" else ControllerNames[c]
  {
    if c == 0 {
    } else if c == 1 {
    } else if c == 2 {
    } else if c == 3 {
    } else if c == 4 {
    } else if c == 5 {
    } else if c == 6 {
    } else if c == 7 {
    }
  }

  /** The default bindings: slot 0 of exactly the nine inputs A, B,
      Select, Start and the d-pad (to the input type of the same name)
      and R2 (to Turbo); every other slot empty. */
  lemma DefaultBindingsShape(c: nat)
    requires c < ControllerCount
    ensures WellFormed(DefaultBindings())
    ensures DefaultBindings()[c][1] == None
    ensures DefaultBindings()[c][0].Some? <==> BoundByDefault(c)
    ensures c < 8 ==> DefaultBindings()[c][0] == InputTypeFromString(ControllerNames[c])
    ensures c == 18 ==> DefaultBindings()[c][0] == InputTypeFromString("Turbo")
  {
    AssignContents(|DefaultInputs|, c);
    InputNamesDistinct();
    if BoundByDefault(c) {
      DefaultPair(c);
      var i := if c == 2 then 3 else if c == 3 then 2 else if c == 18 then 8 else c;
      assert DefaultBindings()[c][0] == Some(i);
      FromNameOf(InputTypeNames, i);
    } else {
      DefaultInputsBound();
    }
  }

}

=== FILE: model_dialog.dfy ===
/**
  The advanced model dialog (`EditAdvancedGameBoyModelDialog`): one tab
  per model with a boot-ROM path box, an "allow custom boot ROM" box, a
  revision combo box, a border box and, for the Game Boy Color and the two
  Super Game Boys, a "skip intro" box. Pressing OK decides whether the
  running game must be reset, asks for confirmation when it must, and
  writes every tab back into the window's settings.
 */
module ModelDialog {
  import opened Bytes
  import opened Models

  /** The revisions each tab offers, in combo-box order. */
  function Revisions(m: Model): (rs: seq<Revision>)
    ensures |rs| >= 1
  {
    match m
    case GB => [DmgB]
    case GBC => [CgbB, CgbC, CgbD, CgbE]
    case GBA => [Agb]
    case SGB => [SgbNtsc, SgbPal]
    case SGB2 => [Sgb2]
  }

  /** The combo index the tab starts on: the last entry equal to the
      stored revision, or the first entry when none is. */
  function RevisionIndex(rs: seq<Revision>, current: Revision): (i: nat)
    ensures rs != [] ==> i < |rs|
    ensures current in rs ==> rs[i] == current && forall j :: i < j < |rs| ==> rs[j] != current
    ensures current !in rs ==> i == 0
  {
    if rs == [] then 0
    else if rs[|rs| - 1] == current then |rs| - 1
    else
      var i := RevisionIndex(rs[..|rs| - 1], current);
      assert current in rs ==> current in rs[..|rs| - 1] by {
        if current in rs {
          var k :| 0 <= k < |rs| && rs[k] == current;
          assert rs[..|rs| - 1][k] == current;
        }
      }
      i
  }

  /** The `add_tab` loop over the revision list, as written: every match
      overwrites the index, so the last one wins. The combo box can be
      changed only when it has more than one entry. */
  method SelectRevision(rs: seq<Revision>, current: Revision) returns (index: nat, enabled: bool)
    ensures index == RevisionIndex(rs, current)
    ensures enabled <==> |rs| > 1
  {
    index := 0;
    var i := 0;
    while i < |rs|
      invariant 0 <= i <= |rs|
      invariant index == RevisionIndex(rs[..i], current)
    {
      assert rs[..i + 1][..i] == rs[..i];
      if rs[i] == current {
        index := i;
      }
      i := i + 1;
    }
    assert rs[..i] == rs;
    enabled := |rs| > 1;
  }

  /** Only the Game Boy Color and the Super Game Boy tabs offer a choice
      of revision. */
  lemma RevisionChoice(m: Model)
    ensures |Revisions(m)| > 1 <==> m == GBC || m == SGB
  {
  }

  // ---------------------------------------------------------------------
  // The form

  /** What one tab holds when OK is pressed. `fast` is the "skip intro"
      box; the Game Boy and Game Boy Advance tabs have none and their
      `fast` is never read. */
  datatype Tab = Tab(text: string, revision: Revision, allowCustom: bool, fast: bool, border: bool)

  datatype Form = Form(gb: Tab, gbc: Tab, gba: Tab, sgb: Tab, sgb2: Tab)
  {
    function For(m: Model): Tab
    {
      match m
      case GB => gb
      case GBC => gbc
      case GBA => gba
      case SGB => sgb
      case SGB2 => sgb2
    }
  }

  predicate HasSkipIntro(m: Model) { m == GBC || m == SGB || m == SGB2 }

  /** A path as the text box shows it: empty for none. */
  function PathText(p: Option<string>): (t: string)
    ensures p.None? ==> t == []
    ensures p.Some? ==> t == p.value
  {
    match p
    case None => ""
    case Some(v) => v
  }

  /** `set_possible_path`: empty text is no path, anything else that path. */
  function PathOf(text: string): (p: Option<string>)
    ensures p.None? <==> text == []
    ensures p.Some? ==> p.value == text
  {
    if text == [] then None else Some(text)
  }

  /** The tab as the constructor fills it from the stored settings: the
      stored path (whether or not it is allowed), the stored flags, and
      the revision the combo box lands on. */
  function InitialTab(s: ModelSettings, m: Model): (tab: Tab)
    ensures tab.revision in Revisions(m)
    ensures s.revision in Revisions(m) ==> tab.revision == s.revision
  {
    var rs := Revisions(m);
    Tab(PathText(s.bootRomPath), rs[RevisionIndex(rs, s.revision)], s.allowCustomBootRom, s.fastBoot, s.border)
  }

  function InitialForm(s: Settings): Form
  {
    Form(InitialTab(s.gb, GB), InitialTab(s.gbc, GBC), InitialTab(s.gba, GBA),
         InitialTab(s.sgb, SGB), InitialTab(s.sgb2, SGB2))
  }

  lemma InitialFormFor(s: Settings, m: Model)
    ensures InitialForm(s).For(m) == InitialTab(s.For(m), m)
  {
  }

  /** The settings a tab writes back for model `m`. */
  function CommitTab(prior: ModelSettings, tab: Tab, m: Model): (r: ModelSettings)
    ensures r.revision == tab.revision && r.allowCustomBootRom == tab.allowCustom && r.border == tab.border
    ensures r.bootRomPath == PathOf(tab.text)
    ensures r.fastBoot == if HasSkipIntro(m) then tab.fast else prior.fastBoot
  {
    ModelSettings(tab.revision, PathOf(tab.text), tab.allowCustom, if HasSkipIntro(m) then tab.fast else prior.fastBoot, tab.border)
  }

  /** Everything `perform_accept` stores, for every model. */
  function Commit(s: Settings, form: Form): (r: Settings)
    ensures forall m :: r.For(m) == CommitTab(s.For(m), form.For(m), m)
  {
    Settings(CommitTab(s.gb, form.gb, GB), CommitTab(s.gbc, form.gbc, GBC), CommitTab(s.gba, form.gba, GBA),
             CommitTab(s.sgb, form.sgb, SGB), CommitTab(s.sgb2, form.sgb2, SGB2))
  }

  /** Settings the dialog can show faithfully: no stored path is the empty
      string and every stored revision is one the tab offers. */
  predicate Displayable(s: Settings)
  {
    forall m :: s.For(m).bootRomPath != Some([]) && s.For(m).revision in Revisions(m)
  }

  /** One tab filled from a model's settings writes them back unchanged. */
  lemma TabRoundTrip(ms: ModelSettings, m: Model)
    requires ms.bootRomPath != Some([]) && ms.revision in Revisions(m)
    ensures CommitTab(ms, InitialTab(ms, m), m) == ms
  {
  }

  /** Opening the dialog and pressing OK without touching anything stores
      exactly the settings that were there. */
  lemma ReopenUnchanged(s: Settings)
    requires Displayable(s)
    ensures Commit(s, InitialForm(s)) == s
  {
    assert s.For(GB) == s.gb && s.For(GBC) == s.gbc && s.For(GBA) == s.gba;
    assert s.For(SGB) == s.sgb && s.For(SGB2) == s.sgb2;
    TabRoundTrip(s.gb, GB);
    TabRoundTrip(s.gbc, GBC);
    TabRoundTrip(s.gba, GBA);
    TabRoundTrip(s.sgb, SGB);
    TabRoundTrip(s.sgb2, SGB2);
  }

  // ---------------------------------------------------------------------
  // Whether a reset is needed

  /** The reset decision as written. The boot ROM it compares with the
      text box is the one in effect, which is empty whenever custom boot
      ROMs are not allowed, while the text box shows the stored path. For
      the Game Boy Color a revision change or a "skip intro" toggle always
      counts and a boot-ROM change counts only while the intro is not
      skipped. */
  predicate RequiresResetAsWritten(s: Settings, t: Model, romLoaded: bool, form: Form)
  {
    var current := s.For(t);
    var bootRom := PathText(BootRomFor(s, t));
    var fast := FastBootFor(s, t);
    var tab := form.For(t);
    romLoaded &&
    if t == GBC then
      current.revision != tab.revision
      || (fast != tab.fast || (!fast && bootRom != tab.text))
      || tab.allowCustom != current.allowCustomBootRom
    else
      bootRom != tab.text || current.revision != tab.revision || tab.allowCustom != current.allowCustomBootRom
  }

  /** The same decision comparing the text box with the stored path it was
      filled from. */
  predicate RequiresReset(s: Settings, t: Model, romLoaded: bool, form: Form)
  {
    var current := s.For(t);
    var stored := PathText(current.bootRomPath);
    var fast := FastBootFor(s, t);
    var tab := form.For(t);
    romLoaded &&
    if t == GBC then
      current.revision != tab.revision
      || (fast != tab.fast || (!fast && stored != tab.text))
      || tab.allowCustom != current.allowCustomBootRom
    else
      stored != tab.text || current.revision != tab.revision || tab.allowCustom != current.allowCustomBootRom
  }

  /** A stored path that custom boot ROMs do not allow: the dialog opens
      showing `boot.bin` and the effective boot ROM is the built-in one. */
  const DisallowedPath: Settings :=
    var gb := ModelSettings(DmgB, Some("boot.bin"), false, false, false);
    Settings(gb, ModelSettings(CgbE, None, false, false, false), ModelSettings(Agb, None, false, false, false),
             ModelSettings(SgbNtsc, None, false, false, false), ModelSettings(Sgb2, None, false, false, false))

  /** As written, pressing OK on an untouched dialog with a game running
      asks to reset the emulator for those settings. */
  lemma UntouchedDialogResetsAsWritten()
    ensures RequiresResetAsWritten(DisallowedPath, GB, true, InitialForm(DisallowedPath))
    ensures !RequiresReset(DisallowedPath, GB, true, InitialForm(DisallowedPath))
  {
    var s := DisallowedPath;
    assert BootRomFor(s, GB) == None;
    assert InitialForm(s).gb.text == "boot.bin";
  }

  /** Without a game running no reset is ever asked for. */
  lemma NoGameNoReset(s: Settings, t: Model, form: Form)
    ensures !RequiresReset(s, t, false, form) && !RequiresResetAsWritten(s, t, false, form)
  {
  }

  /** With the corrected comparison an untouched dialog never asks for a
      reset. */
  lemma UntouchedDialogKeepsGame(s: Settings, t: Model, romLoaded: bool)
    requires Displayable(s)
    ensures !RequiresReset(s, t, romLoaded, InitialForm(s))
  {
    InitialFormFor(s, t);
  }

  /** When no reset is asked for, the running game keeps its revision
      and, unless the Game Boy Color intro is skipped, its boot ROM; on
      the Game Boy Color the intro setting is kept too. */
  lemma NoResetKeepsGame(s: Settings, t: Model, form: Form)
    requires s.For(t).bootRomPath != Some([])
    requires !RequiresReset(s, t, true, form)
    ensures Commit(s, form).For(t).revision == s.For(t).revision
    ensures t != GBC || !FastBootFor(s, t) ==> BootRomFor(Commit(s, form), t) == BootRomFor(s, t)
    ensures t == GBC ==> FastBootFor(Commit(s, form), t) == FastBootFor(s, t)
  {
    var r := Commit(s, form);
    assert r.For(t) == CommitTab(s.For(t), form.For(t), t);
  }

  // ---------------------------------------------------------------------
  // Accepting

  /** What a reset hands to the emulator, from the new settings. */
  datatype Reload = Reload(bootRom: Option<string>, fastBoot: bool, revision: Revision)

  /** The end of `perform_accept`: nothing at all when the confirmation is
      cancelled; otherwise the new settings, the border mode applied in
      any case, and a reload of the current model when a reset is
      needed. */
  datatype Outcome =
    | Cancelled
    | Applied(settings: Settings, border: BorderMode, reload: Option<Reload>)

  /** The end of `perform_accept` once the reset decision `reset` is
      made: cancelled when a reset is needed and not confirmed; otherwise
      the form is committed, the border mode applied, and the current
      model reloaded exactly when a reset is needed. */
  function Finish(s: Settings, t: Model, reset: bool, form: Form, confirmed: bool): (o: Outcome)
    ensures o.Cancelled? <==> reset && !confirmed
    ensures o.Applied? ==> o.settings == Commit(s, form)
    ensures o.Applied? ==> (o.border == BorderAlways <==> form.For(t).border)
    ensures o.Applied? ==> (o.reload.Some? <==> reset)
    ensures o.Applied? && o.reload.Some? ==>
      o.reload.value.revision == form.For(t).revision &&
      o.reload.value.bootRom == (if form.For(t).allowCustom then PathOf(form.For(t).text) else None)
  {
    if reset && !confirmed then Cancelled
    else
      var next := Commit(s, form);
      var reload := if reset then Some(Reload(BootRomFor(next, t), FastBootFor(next, t), next.For(t).revision)) else None;
      Applied(next, BorderModeFor(next, t), reload)
  }

  /** `perform_accept` as written, deciding with `RequiresResetAsWritten`. */
  function AcceptAsWritten(s: Settings, t: Model, romLoaded: bool, form: Form, confirmed: bool): (o: Outcome)
    ensures o.Cancelled? <==> RequiresResetAsWritten(s, t, romLoaded, form) && !confirmed
    ensures !romLoaded ==> o.Applied? && o.reload.None?
    ensures o.Applied? ==> o.settings == Commit(s, form)
    ensures o.Applied? ==> (o.reload.Some? <==> RequiresResetAsWritten(s, t, romLoaded, form))
  {
    Finish(s, t, RequiresResetAsWritten(s, t, romLoaded, form), form, confirmed)
  }

  /** `perform_accept` with the corrected reset decision `RequiresReset`. */
  function Accept(s: Settings, t: Model, romLoaded: bool, form: Form, confirmed: bool): (o: Outcome)
    ensures o.Cancelled? <==> RequiresReset(s, t, romLoaded, form) && !confirmed
    ensures !romLoaded ==> o.Applied? && o.reload.None?
    ensures o.Applied? ==> o.settings == Commit(s, form)
    ensures o.Applied? ==> (o.border == BorderAlways <==> form.For(t).border)
    ensures o.Applied? ==> (o.reload.Some? <==> RequiresReset(s, t, romLoaded, form))
    ensures o.Applied? && o.reload.Some? ==>
      o.reload.value.revision == form.For(t).revision &&
      o.reload.value.bootRom == (if form.For(t).allowCustom then PathOf(form.For(t).text) else None)
  {
    Finish(s, t, RequiresReset(s, t, romLoaded, form), form, confirmed)
  }

  /** The two versions differ only where the effective boot ROM differs
      from the stored one: when custom boot ROMs are allowed (or none is
      stored) they accept identically. */
  lemma AcceptAgrees(s: Settings, t: Model, romLoaded: bool, form: Form, confirmed: bool)
    requires s.For(t).allowCustomBootRom || s.For(t).bootRomPath.None?
    ensures AcceptAsWritten(s, t, romLoaded, form, confirmed) == Accept(s, t, romLoaded, form, confirmed)
  {
    assert PathText(BootRomFor(s, t)) == PathText(s.For(t).bootRomPath);
  }

  /** As written, cancelling the confirmation on an untouched dialog for
      `DisallowedPath` keeps everything, and confirming it reloads the
      game; the corrected version applies the form without a reload. */
  lemma UntouchedDialogAcceptAsWritten()
    ensures AcceptAsWritten(DisallowedPath, GB, true, InitialForm(DisallowedPath), false).Cancelled?
    ensures AcceptAsWritten(DisallowedPath, GB, true, InitialForm(DisallowedPath), true).reload.Some?
    ensures Accept(DisallowedPath, GB, true, InitialForm(DisallowedPath), false).Applied?
    ensures Accept(DisallowedPath, GB, true, InitialForm(DisallowedPath), true).reload.None?
  {
    UntouchedDialogResetsAsWritten();
  }
}

=== FILE: models.dfy ===
/**
  The five hardware models the window can emulate and the per-model
  settings it keeps (`GameWindow::model_for_type`, `boot_rom_for_type`,
  `use_fast_boot_rom_for_type`, `use_border_for_type`), plus the
  fallback applied to a model number read from the settings file.
 */
module Models {
  import opened Bytes

  /** `GameWindow::GameBoyType`, in the order its switch statements list
      the members; `GameBoy_END` is the count. */
  datatype Model = GB | GBC | GBA | SGB | SGB2

  const ModelCount: int := 5

  function Ordinal(m: Model): (i: int)
    ensures 0 <= i < ModelCount
  {
    match m
    case GB => 0
    case GBC => 1
    case GBA => 2
    case SGB => 3
    case SGB2 => 4
  }

  /** The model number stored in the settings, with anything outside
      `[0, GameBoy_END)` replaced by the Game Boy Color. */
  function ModelFromSetting(i: int): (m: Model)
    ensures 0 <= i < ModelCount ==> Ordinal(m) == i
    ensures !(0 <= i < ModelCount) ==> m == GBC
  {
    if i < 0 || i >= ModelCount then GBC
    else if i == 0 then GB
    else if i == 1 then GBC
    else if i == 2 then GBA
    else if i == 3 then SGB
    else SGB2
  }

  /** Storing a model and reading it back gives the same model. */
  lemma ModelSettingRoundTrip(m: Model)
    ensures ModelFromSetting(Ordinal(m)) == m
  {
  }

  /** SameBoy's `GB_model_t` members the model dialog offers, and any
      other value a settings file may hold. Only identity matters here:
      the numeric codes are compared for equality and never computed. */
  datatype Revision = DmgB | CgbB | CgbC | CgbD | CgbE | Agb | SgbNtsc | SgbPal | Sgb2 | OtherRevision(code: int)

  /** What the window stores for one model. `allowCustomBootRom` is one
      switch standing for two spellings in the source: the dialog reads
      and writes `*_allow_custom_boot_rom`
      (edit_advanced_game_boy_model_dialog.cpp:152-176, 256-260) while
      `boot_rom_for_type` and the settings loader use
      `*_allow_external_boot_rom` (game_window.cpp:216-224, 322-326). The
      window header that would declare them is out of date, so the two
      are taken to be the same member. `fastBoot` is the Game Boy
      Color "skip intro" flag or the Super Game Boy `skip_intro` flag;
      the Game Boy and the Game Boy Advance have none and carry `false`. */
  datatype ModelSettings = ModelSettings(
    revision: Revision,
    bootRomPath: Option<string>,
    allowCustomBootRom: bool,
    fastBoot: bool,
    border: bool)

  datatype Settings = Settings(
    gb: ModelSettings, gbc: ModelSettings, gba: ModelSettings,
    sgb: ModelSettings, sgb2: ModelSettings)
  {
    function For(m: Model): ModelSettings
    {
      match m
      case GB => gb
      case GBC => gbc
      case GBA => gba
      case SGB => sgb
      case SGB2 => sgb2
    }

    /** The same settings with the entry for `m` replaced. */
    function With(m: Model, s: ModelSettings): (r: Settings)
      ensures r.For(m) == s
      ensures forall n :: n != m ==> r.For(n) == For(n)
    {
      match m
      case GB => this.(gb := s)
      case GBC => this.(gbc := s)
      case GBA => this.(gba := s)
      case SGB => this.(sgb := s)
      case SGB2 => this.(sgb2 := s)
    }
  }

  /** The boot ROM handed to the emulator: the stored path when custom
      boot ROMs are allowed for the model, otherwise none (the built-in
      one). */
  function BootRomFor(s: Settings, m: Model): (p: Option<string>)
    ensures !s.For(m).allowCustomBootRom ==> p == None
    ensures s.For(m).allowCustomBootRom ==> p == s.For(m).bootRomPath
  {
    if s.For(m).allowCustomBootRom then s.For(m).bootRomPath else None
  }

  /** Whether the boot animation is skipped: never on the Game Boy or the
      Game Boy Advance. */
  function FastBootFor(s: Settings, m: Model): (f: bool)
    ensures m == GB || m == GBA ==> !f
    ensures m == GBC || m == SGB || m == SGB2 ==> f == s.For(m).fastBoot
  {
    match m
    case GB => false
    case GBC => s.gbc.fastBoot
    case GBA => false
    case SGB => s.sgb.fastBoot
    case SGB2 => s.sgb2.fastBoot
  }

  /** The Super Game Boy border mode: always when the model's border flag
      is set, otherwise never. */
  datatype BorderMode = BorderAlways | BorderNever

  function BorderModeFor(s: Settings, m: Model): (b: BorderMode)
    ensures b == BorderAlways <==> s.For(m).border
  {
    if s.For(m).border then BorderAlways else BorderNever
  }
}

=== FILE: padder.dfy ===
/**
  The build-time padder (`append.py <name> <input.bin> <length>`): it
  appends zero bytes to a binary until it reaches the target length, or
  rejects a binary that is already longer. File reads and writes become a
  byte sequence in and a byte sequence out; the exit status and the two
  output streams become fields of the result.
 */
module Padder {
  import opened Bytes
  import opened Text

  /** `bytearray` of `n` zero bytes, built by the script's append loop. */
  function Zeros(n: nat): (z: seq<byte>)
    ensures |z| == n
    ensures forall i :: 0 <= i < n ==> z[i] == 0
  {
    if n == 0 then [] else Zeros(n - 1) + [0]
  }

  datatype PadResult = Padded(data: seq<byte>) | TooLarge

  /** The bytes the script appends to the file: `length - len(data)` zeros
      when the file is shorter than the target, nothing otherwise. */
  function Padding(data: seq<byte>, length: int): (p: seq<byte>)
    ensures |data| < length ==> |p| == length - |data|
    ensures |data| >= length ==> p == []
    ensures forall i :: 0 <= i < |p| ==> p[i] == 0
  {
    if |data| < length then Zeros(length - |data|) else []
  }

  /** The size decision and the content of the file afterwards. */
  function Pad(data: seq<byte>, length: int): (r: PadResult)
    ensures r.TooLarge? <==> |data| > length
    ensures r.Padded? ==> |r.data| == length
    ensures r.Padded? ==> r.data[..|data|] == data
    ensures r.Padded? ==> forall i :: |data| <= i < length ==> r.data[i] == 0
    ensures |data| == length ==> r == Padded(data)
  {
    if |data| > length then TooLarge else Padded(data + Padding(data, length))
  }

  /** A second run with the same target changes nothing. */
  lemma PadIdempotent(data: seq<byte>, length: int)
    requires Pad(data, length).Padded?
    ensures Padding(Pad(data, length).data, length) == []
    ensures Pad(Pad(data, length).data, length) == Pad(data, length)
  {
  }

  /** How one invocation of the script ends. */
  datatype Outcome =
    | UsageError               // wrong number of arguments
    | InvalidLength            // `int()` raised on the length argument
    | SizeExceeded(message: string)
    | Appended(bytes: seq<byte>)
    | Unchanged

  const UsageText: string := "Usage: {} <name> <input.bin> <length>\n"

  /** The process exit status of an outcome. */
  function ExitStatus(o: Outcome): int
  {
    match o
    case UsageError => 1
    case InvalidLength => 1
    case SizeExceeded(_) => 1
    case Appended(_) => 0
    case Unchanged => 0
  }

  /** The input file after the run: only an append changes it. */
  function FileAfter(file: seq<byte>, o: Outcome): seq<byte>
  {
    if o.Appended? then file + o.bytes else file
  }

  /** The text the script prints to standard output. The usage line is
      printed without substituting its `{}` placeholder. */
  function Stdout(o: Outcome): string
  {
    if o.UsageError? then UsageText else ""
  }

  /** The whole script over `sys.argv` (program name first) and the
      content of the file named by `argv[2]`. */
  function Run(argv: seq<string>, file: seq<byte>): (o: Outcome)
    ensures |argv| != 4 ==> o == UsageError
    ensures |argv| == 4 ==> (o.InvalidLength? <==> ParsePythonInt(argv[3]).None?)
    ensures o.UsageError? || o.InvalidLength? || o.SizeExceeded? ==> FileAfter(file, o) == file
    ensures |argv| == 4 && ParsePythonInt(argv[3]).Some? ==>
      var length := ParsePythonInt(argv[3]).value;
      && (o.SizeExceeded? <==> |file| > length)
      && (o.SizeExceeded? ==> o.message == "Error: " + argv[2] + " is larger than " + IntToDecimal(length) + "\n")
      && (o.Unchanged? <==> |file| == length)
      && (!o.SizeExceeded? ==> |FileAfter(file, o)| == length && FileAfter(file, o)[..|file|] == file)
    ensures o.Appended? ==> |o.bytes| > 0 && forall i :: 0 <= i < |o.bytes| ==> o.bytes[i] == 0
  {
    if |argv| != 4 then UsageError
    else match ParsePythonInt(argv[3])
      case None => InvalidLength
      case Some(length) => Sized(argv[2], file, length)
  }

  /** The script once the length has been read: the size check, then the
      append. */
  function Sized(path: string, file: seq<byte>, length: int): (o: Outcome)
    ensures o.SizeExceeded? || o.Appended? || o.Unchanged?
    ensures o.SizeExceeded? <==> |file| > length
    ensures o.SizeExceeded? ==> o.message == "Error: " + path + " is larger than " + IntToDecimal(length) + "\n"
    ensures o.Unchanged? <==> |file| == length
    ensures !o.SizeExceeded? ==> |FileAfter(file, o)| == length && FileAfter(file, o)[..|file|] == file
    ensures o.Appended? ==> |o.bytes| > 0 && forall i :: 0 <= i < |o.bytes| ==> o.bytes[i] == 0
  {
    if |file| > length then
      SizeExceeded("Error: " + path + " is larger than " + IntToDecimal(length) + "\n")
    else if |file| < length then
      Appended(Padding(file, length))
    else Unchanged
  }

  /** Running the script twice with the same arguments leaves the file as
      the first run left it, and the second run writes nothing. */
  lemma RunIdempotent(argv: seq<string>, file: seq<byte>)
    requires ExitStatus(Run(argv, file)) == 0
    ensures Run(argv, FileAfter(file, Run(argv, file))) == Unchanged
  {
  }
}

=== FILE: recent_roms.dfy ===
/**
  The "Recent ROMs" list of the window: opening a ROM moves its path to
  the front (`removeAll`, `push_front`) and keeps at most ten entries
  (`mid(0, 10)`).
 */
module RecentRoms {

  const MaxRecent: nat := 10

  /** `QStringList::removeAll`: every entry equal to `p` dropped, the
      others kept in order. */
  function RemoveAll(l: seq<string>, p: string): (r: seq<string>)
    ensures p !in r
    ensures forall x :: x in r <==> x in l && x != p
    ensures |r| <= |l|
  {
    if l == [] then []
    else (if l[0] == p then [] else [l[0]]) + RemoveAll(l[1..], p)
  }

  /** The list after opening the ROM at `p`. */
  function Open(l: seq<string>, p: string): (r: seq<string>)
    ensures 1 <= |r| <= MaxRecent
    ensures |r| == if |RemoveAll(l, p)| + 1 <= MaxRecent then |RemoveAll(l, p)| + 1 else MaxRecent
    ensures r[0] == p && p !in r[1..]
    ensures |r| - 1 <= |RemoveAll(l, p)|
    ensures r[1..] == RemoveAll(l, p)[..|r| - 1]
    ensures forall x :: x in r ==> x == p || x in l
  {
    var moved := [p] + RemoveAll(l, p);
    var r := if |moved| <= MaxRecent then moved else moved[..MaxRecent];
    assert r[1..] == RemoveAll(l, p)[..|r| - 1];
    r
  }

  /** The other entries keep their relative order: one that was before
      another still is, as long as both survive the cap. */
  lemma RemoveAllKeepsOrder(l: seq<string>, p: string, i: nat, j: nat)
    requires i < j < |l| && l[i] != p && l[j] != p
    ensures exists a, b ::
      (0 <= a < b < |RemoveAll(l, p)| && RemoveAll(l, p)[a] == l[i] && RemoveAll(l, p)[b] == l[j])
    decreases |l|
  {
    var r := RemoveAll(l, p);
    var rest := RemoveAll(l[1..], p);
    var h := if l[0] == p then [] else [l[0]];
    assert r == h + rest;
    if i == 0 {
      assert r[0] == l[0];
      assert l[1..][j - 1] == l[j] && l[j] in rest;
      var b :| 0 <= b < |rest| && rest[b] == l[j];
      assert r[1 + b] == l[j];
    } else {
      RemoveAllKeepsOrder(l[1..], p, i - 1, j - 1);
      var a, b :| 0 <= a < b < |rest| && rest[a] == l[i] && rest[b] == l[j];
      assert r[|h| + a] == l[i] && r[|h| + b] == l[j];
    }
  }

  /** Opening the same ROM twice in a row leaves the list as the first
      opening left it. */
  lemma OpenIdempotent(l: seq<string>, p: string)
    ensures Open(Open(l, p), p) == Open(l, p)
  {
    var r := Open(l, p);
    assert r == [p] + r[1..];
    RemoveAllAbsent(r[1..], p);
    assert RemoveAll(r, p) == r[1..] by {
      assert r[1..] == r[1..];
    }
  }

  lemma {:induction false} RemoveAllAbsent(l: seq<string>, p: string)
    requires p !in l
    ensures RemoveAll(l, p) == l
    decreases |l|
  {
    if l != [] {
      assert l == [l[0]] + l[1..];
      RemoveAllAbsent(l[1..], p);
    }
  }
}

=== FILE: save_paths.dfy ===
/**
  File names the window derives from the ROM path with
  `std::filesystem::path::replace_extension`: the battery save (`.sav`)
  and the numbered save states (`.s0`, `.s1`, ... as SameBoy names them,
  `GameWindow::get_save_state_path`). Paths are POSIX strings with `/`
  as the only separator.
 */
module SavePaths {
  import opened Bytes
  import opened Text

  /** Where the file name starts: just after the last separator. */
  function FileNameStart(p: string): (f: nat)
    ensures f <= |p|
  {
    LastIndexOf(p, '/') + 1
  }

  /** The index of the dot that starts the extension: the last dot of the
      file name, unless it is the file name's first character or the
      file name is `..`. */
  function ExtensionStart(p: string): (e: Option<nat>)
    ensures e.Some? ==> FileNameStart(p) < e.value < |p| && p[e.value] == '.'
  {
    var f := FileNameStart(p);
    var d := LastIndexOf(p[f..], '.');
    if d > 0 && p[f..] != ".." then Some(f + d) else None
  }

  /** An extension the window passes in: a dot followed by at least one
      character, none of them a dot or a separator. */
  predicate SimpleExtension(ext: string)
  {
    |ext| >= 2 && ext[0] == '.' && forall k :: 1 <= k < |ext| ==> ext[k] != '.' && ext[k] != '/'
  }

  /** The path without its extension. It keeps the directory part and
      a non-empty file name stays non-empty. */
  function Stem(p: string): (stem: string)
    ensures |stem| <= |p| && stem == p[..|stem|]
    ensures FileNameStart(stem) == FileNameStart(p)
    ensures FileNameStart(p) < |p| ==> FileNameStart(p) < |stem|
  {
    match ExtensionStart(p)
    case None => p
    case Some(e) =>
      var f := FileNameStart(p);
      assert p == p[..f] + p[f..];
      LastIndexOfAppend(p[..f], p[f..], '/');
      assert p[..e] == p[..f] + p[f..e];
      LastIndexOfAppend(p[..f], p[f..e], '/');
      p[..e]
  }

  /** `replace_extension(ext)` for an extension that starts with a dot:
      the old extension, if any, is cut off and `ext` appended. */
  function ReplaceExtension(p: string, ext: string): (r: string)
    requires |ext| > 0 && ext[0] == '.'
    ensures |r| >= |ext| && r[|r| - |ext|..] == ext
    ensures |r| - |ext| <= |p| && r[..|r| - |ext|] == p[..|r| - |ext|]
    ensures ExtensionStart(p).None? ==> r == p + ext
    ensures ExtensionStart(p).Some? ==> r == p[..ExtensionStart(p).value] + ext
  {
    var stem := Stem(p);
    assert (stem + ext)[..|stem|] == stem;
    stem + ext
  }

  /** A simple extension appended to a path that names a file is exactly
      what the next `replace_extension` cuts off. */
  lemma AppendedExtension(stem: string, ext: string)
    requires SimpleExtension(ext)
    requires FileNameStart(stem) < |stem|
    ensures ExtensionStart(stem + ext) == Some(|stem|)
  {
    var f := FileNameStart(stem);
    LastIndexOfAppend(stem, ext, '/');
    var name := (stem + ext)[f..];
    assert name == (stem[f..] + [ext[0]]) + ext[1..];
    LastIndexOfAppend(stem[f..] + [ext[0]], ext[1..], '.');
    assert LastIndexOf(name, '.') == |stem| - f;
    assert |name| >= 3;
  }

  /** Replacing an extension that was just put there replaces it again:
      the stem is kept, provided the path names a file. */
  lemma ReplaceTwice(p: string, e1: string, e2: string)
    requires SimpleExtension(e1) && SimpleExtension(e2)
    requires FileNameStart(p) < |p|
    ensures ReplaceExtension(ReplaceExtension(p, e1), e2) == ReplaceExtension(p, e2)
  {
    var stem := Stem(p);
    AppendedExtension(stem, e1);
    assert (stem + e1)[..|stem|] == stem;
  }

  /** `replace_extension(".sav")` on the ROM path. */
  function SavePath(romPath: string): (r: string)
    ensures |r| >= 4 && r[|r| - 4..] == ".sav"
    ensures ExtensionStart(romPath).None? ==> r == romPath + ".sav"
    ensures ExtensionStart(romPath).Some? ==> r == romPath[..ExtensionStart(romPath).value] + ".sav"
  {
    var ext := ".sav";
    assert |ext| == 4;
    ReplaceExtension(romPath, ext)
  }

  /** `get_save_state_path`: `.s<index>` in place of the `.sav` extension. */
  function SaveStatePath(savePath: string, index: int): (r: string)
  {
    ReplaceExtension(savePath, ".s" + IntToDecimal(index))
  }

  lemma ReplaceExtensionInjective(p: string, e1: string, e2: string)
    requires |e1| > 0 && e1[0] == '.' && |e2| > 0 && e2[0] == '.'
    requires e1 != e2
    ensures ReplaceExtension(p, e1) != ReplaceExtension(p, e2)
  {
    var stem := Stem(p);
    assert (stem + e1)[|stem|..] == e1;
    assert (stem + e2)[|stem|..] == e2;
  }

  /** Distinct slots get distinct files. */
  lemma SaveStatePathsDistinct(savePath: string, i: int, j: int)
    requires i != j
    ensures SaveStatePath(savePath, i) != SaveStatePath(savePath, j)
  {
    ParseDecimalOfInt(i);
    ParseDecimalOfInt(j);
    var di, dj := IntToDecimal(i), IntToDecimal(j);
    assert di != dj;
    assert (".s" + di)[2..] == di;
    assert (".s" + dj)[2..] == dj;
    ReplaceExtensionInjective(savePath, ".s" + di, ".s" + dj);
  }
}

=== FILE: save_states.dfy ===
/**
  The window's bounded undo/redo buffer of temporary save states. Every
  successful save-state load first backs up the running emulator state
  into the buffer; "revert" steps back through those backups and
  "unrevert" steps forward again, each time swapping the backup with the
  state it replaces. The emulator is reduced to its current state and the
  success flag of its load call.
 */
module SaveStates {
  import opened Bytes

  /** `temporary_save_states`, `next_temporary_save_state` and
      `temporary_save_state_buffer_length`. */
  datatype Buffer<S> = Buffer(states: seq<S>, next: nat, capacity: nat)

  /** The invariant every operation keeps. */
  predicate Valid<S>(b: Buffer<S>)
  {
    b.next <= |b.states| <= b.capacity
  }

  /** The buffer together with the state the emulator is running. */
  datatype Session<S> = Session(buffer: Buffer<S>, current: S)

  /** `load_save_state` as written. `None` stands for the undefined
      behaviour of `erase(begin())` on an empty vector, which is reached
      when the capacity is zero. */
  function LoadAsWritten<S>(s: Session<S>, file: S, allowed: bool, ok: bool): (r: Option<Session<S>>)
    requires Valid(s.buffer)
    ensures r == None <==> allowed && ok && s.buffer.capacity == 0
  {
    var b := s.buffer;
    if !allowed || !ok then Some(s)
    else if b.next + 1 > b.capacity then
      if b.states == [] then None
      else Some(Session(Buffer(b.states[1..][..b.next - 1] + [s.current], b.next, b.capacity), file))
    else
      Some(Session(Buffer(b.states[..b.next] + [s.current], b.next + 1, b.capacity), file))
  }

  /** A zero-length buffer, which the settings file can hold, makes the
      first successful load undefined. */
  lemma ZeroCapacityLoadUndefined<S>(current: S, file: S)
    ensures LoadAsWritten(Session(Buffer([], 0, 0), current), file, true, true) == None
  {
  }

  /** `load_save_state` with a zero capacity meaning "keep no backups":
      when the emulator accepts the state, the running state is pushed
      after the ones that can still be reverted to (dropping the ones that
      could be unreverted to), and the oldest one is dropped when the
      buffer is full. A refused load, or one made while save states are
      not allowed, changes nothing. */
  function Load<S>(s: Session<S>, file: S, allowed: bool, ok: bool): (r: Session<S>)
    requires Valid(s.buffer)
    ensures Valid(r.buffer) && r.buffer.capacity == s.buffer.capacity
    ensures !allowed || !ok ==> r == s
    ensures allowed && ok ==> r.current == file
    ensures allowed && ok && s.buffer.capacity > 0 ==>
      && r.buffer.next == |r.buffer.states| > 0
      && r.buffer.states[r.buffer.next - 1] == s.current
    ensures allowed && ok && s.buffer.next < s.buffer.capacity ==>
      r.buffer.next == s.buffer.next + 1 && r.buffer.states[..s.buffer.next] == s.buffer.states[..s.buffer.next]
    ensures allowed && ok && 0 < s.buffer.next == s.buffer.capacity ==>
      r.buffer.next == s.buffer.next && r.buffer.states[..s.buffer.next - 1] == s.buffer.states[1..]
  {
    var b := s.buffer;
    if !allowed || !ok then s
    else if b.capacity == 0 then s.(current := file)
    else if b.next + 1 > b.capacity then
      Session(Buffer(b.states[1..][..b.next - 1] + [s.current], b.next, b.capacity), file)
    else
      Session(Buffer(b.states[..b.next] + [s.current], b.next + 1, b.capacity), file)
  }

  /** Wherever the code as written is defined, it agrees with `Load`. */
  lemma LoadMatchesAsWritten<S>(s: Session<S>, file: S, allowed: bool, ok: bool)
    requires Valid(s.buffer) && s.buffer.capacity > 0
    ensures LoadAsWritten(s, file, allowed, ok) == Some(Load(s, file, allowed, ok))
  {
  }

  /** How a revert or unrevert request ends. */
  datatype Status = NothingToDo | Failed | Done

  datatype Step<S> = Step(session: Session<S>, status: Status)

  /** `action_revert_save_state`: load the newest backup and put the
      running state in its slot so that it can be unreverted to. */
  function Revert<S>(s: Session<S>, ok: bool): (r: Step<S>)
    requires Valid(s.buffer)
    ensures Valid(r.session.buffer)
    ensures r.status == NothingToDo <==> s.buffer.next == 0
    ensures r.status != Done ==> r.session == s
    ensures r.status == Done ==>
      && r.session.buffer.next == s.buffer.next - 1
      && r.session.current == s.buffer.states[s.buffer.next - 1]
      && |r.session.buffer.states| == |s.buffer.states|
      && r.session.buffer.states[r.session.buffer.next] == s.current
      && forall i :: 0 <= i < |s.buffer.states| && i != r.session.buffer.next ==>
           r.session.buffer.states[i] == s.buffer.states[i]
  {
    var b := s.buffer;
    if b.next == 0 then Step(s, NothingToDo)
    else if !ok then Step(s, Failed)
    else
      var n := b.next - 1;
      Step(Session(b.(states := b.states[n := s.current], next := n), b.states[n]), Done)
  }

  /** `action_unrevert_save_state`: load the backup just after the cursor
      and put the running state in its slot. */
  function Unrevert<S>(s: Session<S>, ok: bool): (r: Step<S>)
    requires Valid(s.buffer)
    ensures Valid(r.session.buffer)
    ensures r.status == NothingToDo <==> s.buffer.next == |s.buffer.states|
    ensures r.status != Done ==> r.session == s
    ensures r.status == Done ==>
      && r.session.buffer.next == s.buffer.next + 1
      && r.session.current == s.buffer.states[s.buffer.next]
      && |r.session.buffer.states| == |s.buffer.states|
      && r.session.buffer.states[s.buffer.next] == s.current
      && forall i :: 0 <= i < |s.buffer.states| && i != s.buffer.next ==>
           r.session.buffer.states[i] == s.buffer.states[i]
  {
    var b := s.buffer;
    if b.next == |b.states| then Step(s, NothingToDo)
    else if !ok then Step(s, Failed)
    else
      Step(Session(b.(states := b.states[b.next := s.current], next := b.next + 1), b.states[b.next]), Done)
  }

  /** Unreverting a successful revert restores the running state and the
      buffer exactly. */
  lemma RevertThenUnrevert<S>(s: Session<S>)
    requires Valid(s.buffer)
    requires Revert(s, true).status == Done
    ensures Unrevert(Revert(s, true).session, true) == Step(s, Done)
  {
    var b := s.buffer;
    var n := b.next - 1;
    assert b.states[n := s.current][n := b.states[n]] == b.states;
  }

  /** Reverting a successful unrevert restores the running state and the
      buffer exactly. */
  lemma UnrevertThenRevert<S>(s: Session<S>)
    requires Valid(s.buffer)
    requires Unrevert(s, true).status == Done
    ensures Revert(Unrevert(s, true).session, true) == Step(s, Done)
  {
    var b := s.buffer;
    assert b.states[b.next := s.current][b.next := b.states[b.next]] == b.states;
  }

  /** The point of the buffer: after a load by mistake, one revert brings
      back the state that was running before it. */
  lemma RevertUndoesLoad<S>(s: Session<S>, file: S)
    requires Valid(s.buffer) && s.buffer.capacity > 0
    ensures Revert(Load(s, file, true, true), true).status == Done
    ensures Revert(Load(s, file, true, true), true).session.current == s.current
  {
  }
}

=== FILE: speed_dialog.dfy ===
/**
  The rewind and speed dialog (`EditSpeedControlSettingsDialog`): for
  turbo, slow motion and rewind it shows an "enabled" box, a slider and a
  text box kept in step with each other, and on OK it validates the three
  texts and stores them. Speeds are percentages and the rewind length is
  in seconds; the text is read as a decimal integer, so the window's
  `double` fields and their `/ 100.0` scaling are not modelled.
 */
module SpeedDialog {
  import opened Bytes
  import opened Text

  datatype Control = Turbo | Slowmo | Rewind

  /** The `*_SLIDER_MAX`, `*_SLIDER_MIN`, `*_SLIDER_GRANULARITY` and
      `*_SLIDER_TICK_INTERVAL` constants. */
  function Max(c: Control): nat
  {
    match c
    case Turbo => 800
    case Slowmo => 100
    case Rewind => 180
  }

  function Min(c: Control): nat
  {
    match c
    case Turbo => 100
    case Slowmo => 0
    case Rewind => 15
  }

  function Granularity(c: Control): (g: nat)
    ensures g > 0
  {
    match c
    case Turbo => 25
    case Slowmo => 5
    case Rewind => 5
  }

  function TickInterval(c: Control): nat
  {
    match c
    case Turbo => 100
    case Slowmo => 25
    case Rewind => 15
  }

  /** The slider positions: each bound divided by the granularity, which
      divides every bound exactly. */
  function SliderMin(c: Control): (lo: nat)
    ensures lo * Granularity(c) == Min(c)
  {
    Min(c) / Granularity(c)
  }

  function SliderMax(c: Control): (hi: nat)
    ensures hi * Granularity(c) == Max(c)
    ensures SliderMin(c) < hi
  {
    Max(c) / Granularity(c)
  }

  function SliderTick(c: Control): (t: nat)
    ensures t * Granularity(c) == TickInterval(c)
  {
    TickInterval(c) / Granularity(c)
  }

  /** The slider ranges: turbo 4 to 32, slow motion 0 to 20, rewind 3 to 36. */
  lemma SliderRanges()
    ensures SliderMin(Turbo) == 4 && SliderMax(Turbo) == 32 && SliderTick(Turbo) == 4
    ensures SliderMin(Slowmo) == 0 && SliderMax(Slowmo) == 20 && SliderTick(Slowmo) == 5
    ensures SliderMin(Rewind) == 3 && SliderMax(Rewind) == 36 && SliderTick(Rewind) == 3
  {
    assert SliderMin(Turbo) * 25 == 100 && SliderMax(Turbo) * 25 == 800 && SliderTick(Turbo) * 25 == 100;
    assert SliderMax(Slowmo) * 5 == 100 && SliderTick(Slowmo) * 5 == 25;
    assert SliderMin(Rewind) * 5 == 15 && SliderMax(Rewind) * 5 == 180 && SliderTick(Rewind) * 5 == 15;
  }

  /** `QSlider::setValue`: a value outside the range is clamped to it. */
  function Clamp(v: int, lo: int, hi: int): (r: int)
    requires lo <= hi
    ensures lo <= r <= hi
    ensures lo <= v <= hi ==> r == v
    ensures v < lo ==> r == lo
    ensures v > hi ==> r == hi
  {
    if v < lo then lo else if v > hi then hi else v
  }

  /** `update_*_textbox`: the text box shows the slider position times the
      granularity. */
  function TextFor(c: Control, position: int): string
  {
    IntToDecimal(position * Granularity(c))
  }

  /** `QString::toInt()` without an `ok` flag: 0 when the text does not
      parse as a 32-bit integer. */
  function ToInt(text: string): (n: int)
    ensures -0x8000_0000 <= n < 0x8000_0000
  {
    match ParseInt32(text)
    case Some(v) => v
    case None => 0
  }

  /** `int / uint32_t` in C++: the `int` is converted to unsigned first,
      so a negative value becomes 2^32 plus that value. */
  function UnsignedQuotient(n: int, g: nat): (q: nat)
    requires -0x8000_0000 <= n < 0x8000_0000 && g > 0
    ensures n >= 0 ==> q == n / g
  {
    (if n < 0 then n + 0x1_0000_0000 else n) / g
  }

  /** `int / int` in C++: the quotient is truncated toward zero. */
  function SignedQuotient(n: int, g: nat): (q: int)
    requires g > 0
    ensures n >= 0 ==> q == n / g
    ensures n < 0 ==> q <= 0
  {
    if n < 0 then -((-n) / g) else n / g
  }

  /** `update_sliders` as written: the text's value divided by an unsigned
      granularity, then clamped by the slider. */
  function SliderForTextAsWritten(c: Control, text: string): (position: int)
    ensures SliderMin(c) <= position <= SliderMax(c)
  {
    Clamp(UnsignedQuotient(ToInt(text), Granularity(c)), SliderMin(c), SliderMax(c))
  }

  /** `update_sliders` with a signed division. */
  function SliderForText(c: Control, text: string): (position: int)
    ensures SliderMin(c) <= position <= SliderMax(c)
  {
    Clamp(SignedQuotient(ToInt(text), Granularity(c)), SliderMin(c), SliderMax(c))
  }

  lemma ToIntOfDecimal(n: int)
    requires -0x8000_0000 <= n < 0x8000_0000
    ensures ToInt(IntToDecimal(n)) == n
  {
    ParseDecimalOfInt(n);
  }

  /** As written, a negative amount puts the slider at its maximum. */
  lemma NegativeTextAsWritten(c: Control, n: int)
    requires -0x8000_0000 <= n < 0
    ensures SliderForTextAsWritten(c, IntToDecimal(n)) == SliderMax(c)
  {
    ToIntOfDecimal(n);
    assert UnsignedQuotient(n, Granularity(c)) >= 0x8000_0000 / 25;
  }

  /** With the signed division a negative amount puts the slider at its
      minimum. */
  lemma NegativeText(c: Control, n: int)
    requires -0x8000_0000 <= n < 0
    ensures SliderForText(c, IntToDecimal(n)) == SliderMin(c)
  {
    ToIntOfDecimal(n);
  }

  /** Moving the slider and reading the text box back gives the same
      position. */
  lemma SliderRoundTrip(c: Control, position: int)
    requires SliderMin(c) <= position <= SliderMax(c)
    ensures SliderForText(c, TextFor(c, position)) == position
    ensures SliderForTextAsWritten(c, TextFor(c, position)) == position
  {
    var g := Granularity(c);
    assert position * g <= 800;
    ToIntOfDecimal(position * g);
    MulDivCancel(position, c);
  }

  lemma MulDivCancel(p: int, c: Control)
    ensures p * Granularity(c) / Granularity(c) == p
  {
    if Granularity(c) == 25 {
      assert p * 25 / 25 == p;
    } else {
      assert p * 5 / 5 == p;
    }
  }

  /** Text to slider to text rounds an amount in range down to a multiple
      of the granularity; amounts out of range go to the nearest end. */
  lemma TextRoundsDown(c: Control, n: int)
    requires 0 <= n < 0x8000_0000
    ensures var v := SliderForText(c, IntToDecimal(n));
      (Min(c) <= n < Max(c) + Granularity(c) ==> v * Granularity(c) <= n < v * Granularity(c) + Granularity(c)) &&
      (n < Min(c) ==> v == SliderMin(c)) &&
      (n >= Max(c) ==> v == SliderMax(c))
  {
    ToIntOfDecimal(n);
    var g := Granularity(c);
    var q := n / g;
    assert q * g <= n < q * g + g;
    if n < Min(c) {
      assert q * g < SliderMin(c) * g;
    } else if n < Max(c) + g {
      assert SliderMin(c) * g <= n;
      assert SliderMin(c) <= q <= SliderMax(c);
    } else {
      assert q >= SliderMax(c);
    }
  }

  // ---------------------------------------------------------------------
  // Accepting

  /** The window's fields the dialog edits: turbo and slow-motion speeds
      in percent, the rewind length in seconds, and the three switches. */
  datatype Speeds = Speeds(
    turbo: int, slowmo: int, rewind: int,
    turboEnabled: bool, slowmoEnabled: bool, rewindEnabled: bool)

  /** The dialog's controls when OK is pressed. */
  datatype Form = Form(
    turboText: string, slowmoText: string, rewindText: string,
    turboEnabled: bool, slowmoEnabled: bool, rewindEnabled: bool)

  /** The result of OK: either a refusal, with nothing stored and the
      dialog left open, or the stored values and whether the rewind
      buffer was reset because its length changed. A refusal records the
      field named by the message box the failing check builds, and whether
      that box is shown. */
  datatype Outcome =
    | Rejected(field: Control, shown: bool)
    | Accepted(speeds: Speeds, rewindReset: bool)

  /** `toDouble(&ok)` read as an integer: the value and whether it parsed;
      the value is 0 when it did not. */
  function Amount(text: string): (r: (int, bool))
    ensures r.1 <==> ParseDecimal(text).Some?
    ensures r.1 ==> r.0 == ParseDecimal(text).value
    ensures !r.1 ==> r.0 == 0
  {
    match ParseDecimal(text)
    case Some(v) => (v, true)
    case None => (0, false)
  }

  predicate Valid(text: string)
  {
    Amount(text).1 && Amount(text).0 >= 0
  }

  /** Storing the three amounts once all are valid. */
  function Store(w: Speeds, form: Form): (o: Outcome)
  {
    var rewind := Amount(form.rewindText).0;
    Accepted(
      Speeds(Amount(form.turboText).0, Amount(form.slowmoText).0, rewind,
             form.turboEnabled, form.slowmoEnabled, form.rewindEnabled),
      w.rewind != rewind)
  }

  /** `perform_accept` as written: the second check pairs the slow-motion
      parse flag with the turbo amount and names slow motion, the third
      pairs the turbo flag with the slow-motion amount and names turbo.
      The message box of a failing check is never shown (`exec()` is
      never called on it), so every refusal is silent. */
  function AcceptAsWritten(w: Speeds, form: Form): (o: Outcome)
    ensures o.Rejected? ==> !o.shown
    ensures o.Rejected? && o.field == Slowmo ==> Valid(form.rewindText) && !(Amount(form.slowmoText).1 && Amount(form.turboText).0 >= 0)
    ensures o.Rejected? && o.field == Turbo ==> Valid(form.rewindText) && !(Amount(form.turboText).1 && Amount(form.slowmoText).0 >= 0)
  {
    var (rewind, rewindOk) := Amount(form.rewindText);
    var (slowmo, slowmoOk) := Amount(form.slowmoText);
    var (turbo, turboOk) := Amount(form.turboText);
    if !rewindOk || rewind < 0 then Rejected(Rewind, false)
    else if !slowmoOk || turbo < 0 then Rejected(Slowmo, false)
    else if !turboOk || slowmo < 0 then Rejected(Turbo, false)
    else Store(w, form)
  }

  /** `perform_accept` corrected: each check names the field it tests and
      its message box is shown. */
  function Accept(w: Speeds, form: Form): (o: Outcome)
    ensures o.Accepted? <==> Valid(form.rewindText) && Valid(form.slowmoText) && Valid(form.turboText)
    ensures o.Rejected? ==> o.shown
    ensures o.Rejected? && o.field == Rewind ==> !Valid(form.rewindText)
    ensures o.Rejected? && o.field == Slowmo ==> Valid(form.rewindText) && !Valid(form.slowmoText)
    ensures o.Rejected? && o.field == Turbo ==> Valid(form.rewindText) && Valid(form.slowmoText) && !Valid(form.turboText)
    ensures o.Accepted? ==>
      ParseDecimal(form.turboText) == Some(o.speeds.turbo) &&
      ParseDecimal(form.slowmoText) == Some(o.speeds.slowmo) &&
      ParseDecimal(form.rewindText) == Some(o.speeds.rewind) &&
      o.speeds.turboEnabled == form.turboEnabled && o.speeds.slowmoEnabled == form.slowmoEnabled &&
      o.speeds.rewindEnabled == form.rewindEnabled
    ensures o.Accepted? ==> (o.rewindReset <==> o.speeds.rewind != w.rewind)
  {
    if !Valid(form.rewindText) then Rejected(Rewind, true)
    else if !Valid(form.slowmoText) then Rejected(Slowmo, true)
    else if !Valid(form.turboText) then Rejected(Turbo, true)
    else Store(w, form)
  }

  /** As written, an amount that does not parse is refused without any
      message: the dialog simply stays open. */
  lemma SilentRefusalAsWritten(w: Speeds, form: Form)
    requires !Amount(form.rewindText).1
    ensures AcceptAsWritten(w, form) == Rejected(Rewind, false)
    ensures Accept(w, form) == Rejected(Rewind, true)
  {
  }

  /** The cross-wiring and the missing message change only what the
      refusal would say: both versions accept the same forms and store
      the same values. */
  lemma CrossWiredSameVerdict(w: Speeds, form: Form)
    ensures AcceptAsWritten(w, form).Rejected? <==> Accept(w, form).Rejected?
    ensures Accept(w, form).Accepted? ==> AcceptAsWritten(w, form) == Accept(w, form)
  {
  }

  /** A negative turbo amount, with the other two valid, is refused by the
      check whose message box names the slow-motion speed. */
  lemma CrossWiredMessage(w: Speeds, form: Form)
    requires Valid(form.rewindText) && Valid(form.slowmoText)
    requires Amount(form.turboText).1 && Amount(form.turboText).0 < 0
    ensures AcceptAsWritten(w, form) == Rejected(Slowmo, false)
    ensures Accept(w, form) == Rejected(Turbo, true)
  {
  }

  /** For instance turbo `-100`, slow motion `50` and rewind `60`. */
  lemma CrossWiredExample(w: Speeds)
    ensures var form := Form(IntToDecimal(-100), IntToDecimal(50), IntToDecimal(60), true, true, true);
      AcceptAsWritten(w, form) == Rejected(Slowmo, false) && Accept(w, form) == Rejected(Turbo, true)
  {
    ParseDecimalOfInt(-100);
    ParseDecimalOfInt(50);
    ParseDecimalOfInt(60);
    CrossWiredMessage(w, Form(IntToDecimal(-100), IntToDecimal(50), IntToDecimal(60), true, true, true));
  }

  /** The form the dialog opens with: each amount as a decimal integer. */
  function Opening(w: Speeds): Form
  {
    Form(IntToDecimal(w.turbo), IntToDecimal(w.slowmo), IntToDecimal(w.rewind),
         w.turboEnabled, w.slowmoEnabled, w.rewindEnabled)
  }

  /** Pressing OK on the untouched dialog stores what was there and does
      not reset the rewind buffer. */
  lemma AcceptUnchanged(w: Speeds)
    requires w.turbo >= 0 && w.slowmo >= 0 && w.rewind >= 0
    ensures Accept(w, Opening(w)) == Accepted(w, false)
  {
    ParseDecimalOfInt(w.turbo);
    ParseDecimalOfInt(w.slowmo);
    ParseDecimalOfInt(w.rewind);
  }

  /** The sliders as the dialog opens them: `update_sliders` as written,
      on the opening texts. */
  function OpeningSliders(w: Speeds): (positions: (int, int, int))
    ensures SliderMin(Turbo) <= positions.0 <= SliderMax(Turbo)
    ensures SliderMin(Slowmo) <= positions.1 <= SliderMax(Slowmo)
    ensures SliderMin(Rewind) <= positions.2 <= SliderMax(Rewind)
  {
    var f := Opening(w);
    (SliderForTextAsWritten(Turbo, f.turboText),
     SliderForTextAsWritten(Slowmo, f.slowmoText),
     SliderForTextAsWritten(Rewind, f.rewindText))
  }

  /** The window never hands the dialog a negative amount, so the
      unsigned division is harmless on opening: each slider starts at its
      amount divided by the granularity, clamped, exactly as the signed
      division would put it. */
  lemma OpeningSlidersFollowWindow(w: Speeds)
    requires 0 <= w.turbo < 0x8000_0000 && 0 <= w.slowmo < 0x8000_0000 && 0 <= w.rewind < 0x8000_0000
    ensures OpeningSliders(w) ==
      (Clamp(w.turbo / Granularity(Turbo), SliderMin(Turbo), SliderMax(Turbo)),
       Clamp(w.slowmo / Granularity(Slowmo), SliderMin(Slowmo), SliderMax(Slowmo)),
       Clamp(w.rewind / Granularity(Rewind), SliderMin(Rewind), SliderMax(Rewind)))
    ensures var f := Opening(w);
      OpeningSliders(w) ==
      (SliderForText(Turbo, f.turboText), SliderForText(Slowmo, f.slowmoText), SliderForText(Rewind, f.rewindText))
  {
    ToIntOfDecimal(w.turbo);
    ToIntOfDecimal(w.slowmo);
    ToIntOfDecimal(w.rewind);
  }
}

=== FILE: text.dfy ===
/**
  String operations with the semantics of the Qt, C and Python library
  calls the front end uses: `QString::trimmed`, `QString::mid`,
  `QString::indexOf`, `QString::split`, `QString::toInt`/`toUInt`,
  `printf("%02X")`/`printf("%04x")`, `printf("%i")` and Python's `int()`.
  Strings are sequences of characters; no encoding is modelled.
 */
module Text {
  import opened Bytes

  /** `QChar::isSpace`, the white space `QString::trimmed` skips: the
      controls from tab to carriage return, next-line, and the Unicode
      space, line and paragraph separators. Python's `str.isspace` (what
      `int()` skips) holds for these and for U+001C to U+001F as well. */
  predicate IsSpace(c: char)
  {
    c == ' ' || '\t' <= c <= '\r' || c == '\U{85}' || c == '\U{A0}' || c == '\U{1680}'
    || '\U{2000}' <= c <= '\U{200A}' || c == '\U{2028}' || c == '\U{2029}' || c == '\U{202F}'
    || c == '\U{205F}' || c == '\U{3000}'
  }

  /** Leading white space removed. */
  function TrimStart(s: string): (r: string)
    ensures |r| <= |s| && r == s[|s| - |r|..]
    ensures r == [] || !IsSpace(r[0])
    ensures forall i :: 0 <= i < |s| - |r| ==> IsSpace(s[i])
  {
    if s == [] || !IsSpace(s[0]) then s else TrimStart(s[1..])
  }

  /** Trailing white space removed. */
  function TrimEnd(s: string): (r: string)
    ensures |r| <= |s| && r == s[..|r|]
    ensures r == [] || !IsSpace(r[|r| - 1])
    ensures forall i :: |r| <= i < |s| ==> IsSpace(s[i])
  {
    if s == [] || !IsSpace(s[|s| - 1]) then s else TrimEnd(s[..|s| - 1])
  }

  /** `QString::trimmed`: the infix left once white space is removed from
      both ends. */
  function Trim(s: string): (r: string)
    ensures |r| <= |s|
    ensures r == [] || (!IsSpace(r[0]) && !IsSpace(r[|r| - 1]))
    ensures r == [] <==> forall i :: 0 <= i < |s| ==> IsSpace(s[i])
  {
    TrimBothEnds(s);
    TrimEnd(TrimStart(s))
  }

  lemma TrimBothEnds(s: string)
    ensures var r := TrimEnd(TrimStart(s));
      r == [] || (!IsSpace(r[0]) && !IsSpace(r[|r| - 1]))
    ensures TrimEnd(TrimStart(s)) == [] <==> forall i :: 0 <= i < |s| ==> IsSpace(s[i])
  {
    var t := TrimStart(s);
    var r := TrimEnd(t);
    var a := |s| - |t|;
    if r == [] {
      assert t == [];
    } else {
      assert r[0] == t[0] == s[a];
    }
  }

  /** `QString::indexOf(c, from)` for a non-negative `from`: the first
      position at or after `from` holding `c`, or -1. */
  function IndexOf(s: string, c: char, from: nat): (r: int)
    ensures r == -1 <==> forall i :: from <= i < |s| ==> s[i] != c
    ensures r != -1 ==> from <= r < |s| && s[r] == c
    ensures r != -1 ==> forall i :: from <= i < r ==> s[i] != c
    decreases |s| - from
  {
    if from >= |s| then -1
    else if s[from] == c then from
    else IndexOf(s, c, from + 1)
  }

  /** The index of the last `c` in `s`, or -1 (`lastIndexOf`). */
  function LastIndexOf(s: string, c: char): (r: int)
    ensures -1 <= r < |s|
    ensures r >= 0 ==> s[r] == c
    ensures forall k :: r < k < |s| ==> s[k] != c
  {
    if s == [] then -1
    else if s[|s| - 1] == c then |s| - 1
    else LastIndexOf(s[..|s| - 1], c)
  }

  lemma {:induction false} LastIndexOfAppend(a: string, b: string, c: char)
    requires forall k :: 0 <= k < |b| ==> b[k] != c
    ensures LastIndexOf(a + b, c) == LastIndexOf(a, c)
    decreases |b|
  {
    if b != [] {
      assert (a + b)[..|a + b| - 1] == a + b[..|b| - 1];
      LastIndexOfAppend(a, b[..|b| - 1], c);
    } else {
      assert a + b == a;
    }
  }

  /** `QString::mid(pos, n)` for a non-negative `pos`: empty when `pos` is
      past the end; the whole tail when `n` is negative or reaches past the
      end; otherwise the `n` characters from `pos`. */
  function Mid(s: string, pos: nat, n: int): (r: string)
    ensures pos > |s| ==> r == []
    ensures pos <= |s| && (n < 0 || pos + n > |s|) ==> r == s[pos..]
    ensures pos <= |s| && 0 <= n && pos + n <= |s| ==> r == s[pos..pos + n]
  {
    if pos > |s| then []
    else if n < 0 || pos + n > |s| then s[pos..]
    else s[pos..pos + n]
  }

  /** A negative length takes the rest of the string. */
  lemma MidToEnd(s: string, pos: nat)
    requires pos <= |s|
    ensures Mid(s, pos, -1) == s[pos..]
  {
  }

  /** The tail from `pos` (`QString::mid(pos)`). */
  function From(s: string, pos: nat): string
  {
    Mid(s, pos, -1)
  }

  predicate StartsWith(s: string, prefix: string)
  {
    |prefix| <= |s| && s[..|prefix|] == prefix
  }

  predicate EndsWith(s: string, suffix: string)
  {
    |suffix| <= |s| && s[|s| - |suffix|..] == suffix
  }

  /** Parts joined back together with the separator between them. */
  function Join(parts: seq<string>, sep: char): string
  {
    if parts == [] then []
    else if |parts| == 1 then parts[0]
    else parts[0] + [sep] + Join(parts[1..], sep)
  }

  /** `QString::split(sep)`: empty parts are kept, so joining the parts
      gives the input back and there is always at least one part. */
  function Split(s: string, sep: char): (parts: seq<string>)
    ensures |parts| >= 1
    ensures forall k :: 0 <= k < |parts| ==> sep !in parts[k]
    ensures Join(parts, sep) == s
    decreases |s|
  {
    var i := IndexOf(s, sep, 0);
    if i == -1 then [s]
    else
      var rest := Split(s[i + 1..], sep);
      assert s == s[..i] + [sep] + s[i + 1..];
      [s[..i]] + rest
  }

  // ---------------------------------------------------------------------
  // Hexadecimal

  const UpperDigits: string := "0123456789ABCDEF"
  const LowerDigits: string := "0123456789abcdef"

  /** The value of one hexadecimal digit of either case. */
  function HexValue(c: char): Option<nat>
  {
    if '0' <= c <= '9' then Some(c as int - '0' as int)
    else if 'A' <= c <= 'F' then Some(c as int - 'A' as int + 10)
    else if 'a' <= c <= 'f' then Some(c as int - 'a' as int + 10)
    else None
  }

  predicate IsHexDigit(c: char) { HexValue(c).Some? }

  lemma UpperDigitValue(d: nat)
    requires d < 16
    ensures HexValue(UpperDigits[d]) == Some(d)
    ensures !('a' <= UpperDigits[d] <= 'z')
  {
  }

  lemma LowerDigitValue(d: nat)
    requires d < 16
    ensures HexValue(LowerDigits[d]) == Some(d)
  {
  }

  /** `printf("%02X", b)`. */
  function Hex2Upper(b: byte): (r: string)
    ensures |r| == 2
    ensures HexValue(r[0]) == Some(b / 16) && HexValue(r[1]) == Some(b % 16)
    ensures !('a' <= r[0] <= 'z') && !('a' <= r[1] <= 'z')
  {
    UpperDigitValue(b / 16);
    UpperDigitValue(b % 16);
    [UpperDigits[b / 16], UpperDigits[b % 16]]
  }

  /** `printf("%04x", v)` for a 16-bit value: exactly four lower-case
      digits, most significant first. */
  function Hex4Lower(v: u16): (r: string)
    ensures |r| == 4
  {
    LowerHex(v, 4)
  }

  /** The lowest `n` hexadecimal digits of `v`, lower case, most
      significant first. */
  function LowerHex(v: nat, n: nat): (r: string)
    ensures |r| == n
    decreases n
  {
    if n == 0 then [] else LowerHex(v / 16, n - 1) + [LowerDigits[v % 16]]
  }

  function Pow16(n: nat): (r: nat)
    ensures r >= 1
  {
    if n == 0 then 1 else 16 * Pow16(n - 1)
  }

  /** Reading the digits back gives the value whenever it fits. */
  lemma {:induction false} LowerHexValue(v: nat, n: nat)
    requires v < Pow16(n)
    ensures HexDigitsValue(LowerHex(v, n)) == Some(v)
    decreases n
  {
    if n > 0 {
      var high, low := v / 16, v % 16;
      DigitSplit(v, n);
      LowerHexValue(high, n - 1);
      LowerDigitValue(low);
      HexSnoc(LowerHex(high, n - 1), LowerDigits[low], high, low);
    }
  }

  /** Dropping the last hexadecimal digit leaves a value of one digit fewer. */
  lemma DigitSplit(v: nat, n: nat)
    requires 0 < n && v < Pow16(n)
    ensures v / 16 < Pow16(n - 1) && v == v / 16 * 16 + v % 16
  {
  }

  /** Every character written is a hexadecimal digit. */
  lemma {:induction false} LowerHexDigits(v: nat, n: nat)
    ensures forall k :: 0 <= k < n ==> IsHexDigit(LowerHex(v, n)[k])
    decreases n
  {
    if n > 0 {
      LowerHexDigits(v / 16, n - 1);
      LowerDigitValue(v % 16);
    }
  }

  /** Reading the four digits back gives the value. */
  lemma Hex4LowerValue(v: u16)
    ensures HexDigitsValue(Hex4Lower(v)) == Some(v)
  {
    assert Pow16(4) == 0x1_0000;
    LowerHexValue(v, 4);
  }

  lemma HexSnoc(s: string, c: char, h: nat, d: nat)
    requires HexDigitsValue(s) == Some(h) && HexValue(c) == Some(d)
    ensures HexDigitsValue(s + [c]) == Some(h * 16 + d)
  {
    assert (s + [c])[..|s|] == s;
  }

  /** The value of a string made only of hexadecimal digits, read most
      significant first; `None` if any character is not a digit. */
  function HexDigitsValue(s: string): Option<nat>
  {
    if s == [] then Some(0)
    else
      match (HexDigitsValue(s[..|s| - 1]), HexValue(s[|s| - 1]))
      case (Some(h), Some(d)) => Some(h * 16 + d)
      case _ => None
  }

  /** `QString::toUInt(&ok, 16)`: surrounding white space is ignored, an
      optional `0x`/`0X` prefix is accepted, at least one digit is needed
      and the value must fit in 32 bits; on failure the result is 0. */
  function ParseHexU32(s: string): (r: u32)
  {
    var t := Trim(s);
    var digits := if |t| >= 2 && t[0] == '0' && (t[1] == 'x' || t[1] == 'X') then t[2..] else t;
    match HexDigitsValue(digits)
    case Some(v) => if digits != [] && v < 0x1_0000_0000 then v else 0
    case None => 0
  }

  lemma HexDigitNotSpace(c: char)
    requires IsHexDigit(c)
    ensures !IsSpace(c) && c != 'x' && c != 'X'
  {
  }

  /** Four hexadecimal digits read back as their value. */
  lemma ParseHexOfFourDigits(h: string, v: nat)
    requires |h| == 4 && IsHexDigit(h[0]) && IsHexDigit(h[1]) && IsHexDigit(h[3])
    requires HexDigitsValue(h) == Some(v) && v < 0x1_0000_0000
    ensures ParseHexU32(h) == v
  {
    HexDigitNotSpace(h[0]);
    HexDigitNotSpace(h[1]);
    HexDigitNotSpace(h[3]);
    TrimOfTrimmed(h);
  }

  // ---------------------------------------------------------------------
  // Decimal

  function DecimalDigit(d: nat): (c: char)
    requires d < 10
    ensures '0' <= c <= '9' && c as int - '0' as int == d
  {
    "0123456789"[d]
  }

  predicate AllDecimal(s: string)
  {
    forall k :: 0 <= k < |s| ==> '0' <= s[k] <= '9'
  }

  /** A natural number in base 10 without leading zeros (`printf("%u")`). */
  function NatToDecimal(n: nat): (r: string)
    ensures |r| >= 1 && AllDecimal(r)
    ensures DecimalValue(r) == n
  {
    if n < 10 then [DecimalDigit(n)]
    else
      var r := NatToDecimal(n / 10) + [DecimalDigit(n % 10)];
      assert r[..|r| - 1] == NatToDecimal(n / 10);
      r
  }

  /** An integer in base 10 with a leading `-` when negative (`printf("%i")`,
      `QString::number`, Python's `str`). */
  function IntToDecimal(i: int): string
  {
    if i < 0 then "-" + NatToDecimal(-i) else NatToDecimal(i)
  }

  /** The value of a string of decimal digits, most significant first. */
  function DecimalValue(s: string): nat
    requires AllDecimal(s)
  {
    if s == [] then 0
    else DecimalValue(s[..|s| - 1]) * 10 + (s[|s| - 1] as int - '0' as int)
  }

  /** A base-10 integer with an optional sign, after white space is
      trimmed; `None` when no digits are present or any other character
      appears. No range limit. */
  function ParseDecimal(s: string): (r: Option<int>)
  {
    var t := Trim(s);
    var digits := AfterSign(t);
    if digits != [] && AllDecimal(digits) then Some(Signed(t, DecimalValue(digits))) else None
  }

  /** The text after a leading `-` or `+`, if there is one. */
  function AfterSign(t: string): (d: string)
    ensures |t| >= 1 && (t[0] == '-' || t[0] == '+') ==> d == t[1..]
    ensures !(|t| >= 1 && (t[0] == '-' || t[0] == '+')) ==> d == t
  {
    if |t| >= 1 && (t[0] == '-' || t[0] == '+') then t[1..] else t
  }

  /** A magnitude with the sign `t` starts with. */
  function Signed(t: string, v: nat): (i: int)
    ensures |t| >= 1 && t[0] == '-' ==> i == -(v as int)
    ensures !(|t| >= 1 && t[0] == '-') ==> i == v
  {
    if |t| >= 1 && t[0] == '-' then -(v as int) else v
  }

  lemma {:induction false} ParseDecimalOfInt(i: int)
    ensures ParseDecimal(IntToDecimal(i)) == Some(i)
  {
    var s := IntToDecimal(i);
    if i < 0 {
      var n := NatToDecimal(-i);
      assert s == "-" + n;
      assert s[1..] == n;
      assert !IsSpace(s[|s| - 1]) by { assert s[|s| - 1] == n[|n| - 1]; }
      TrimOfTrimmed(s);
    } else {
      assert '0' <= s[0] <= '9';
      TrimOfTrimmed(s);
    }
  }

  /** Digits in groups joined by single underscores, with a digit at
      each end: the digit part Python's `int()` accepts in base 10. */
  predicate Grouped(d: string)
  {
    && d != [] && '0' <= d[0] <= '9' && '0' <= d[|d| - 1] <= '9'
    && DigitsOrUnderscores(d)
    && (forall k :: 0 <= k < |d| - 1 ==> d[k] != '_' || d[k + 1] != '_')
  }

  predicate DigitsOrUnderscores(d: string)
  {
    forall k :: 0 <= k < |d| ==> '0' <= d[k] <= '9' || d[k] == '_'
  }

  predicate NoUnderscore(d: string)
  {
    forall k :: 0 <= k < |d| ==> d[k] != '_'
  }

  /** The digits of a grouped number with the underscores dropped. */
  function Ungroup(d: string): (r: string)
    ensures NoUnderscore(r)
    ensures NoUnderscore(d) ==> r == d
    ensures DigitsOrUnderscores(d) ==> AllDecimal(r)
    ensures d != [] && d[|d| - 1] != '_' ==> r != []
  {
    if d == [] then []
    else
      var front := Ungroup(d[..|d| - 1]);
      assert DigitsOrUnderscores(d) ==> DigitsOrUnderscores(d[..|d| - 1]);
      assert NoUnderscore(d) ==> NoUnderscore(d[..|d| - 1]);
      if d[|d| - 1] == '_' then front else front + [d[|d| - 1]]
  }

  /** Python's `int()` in base 10: white space trimmed, an optional
      sign, then grouped digits. Only the digits 0 to 9 are recognised. */
  function ParsePythonInt(s: string): (r: Option<int>)
  {
    SignedGrouped(Trim(s))
  }

  /** The trimmed text of `int()`: an optional sign, then grouped digits. */
  function SignedGrouped(t: string): (r: Option<int>)
  {
    var digits := AfterSign(t);
    if Grouped(digits) then Some(Signed(t, DecimalValue(Ungroup(digits)))) else None
  }

  /** Trimming keeps only characters of the original text. */
  lemma TrimKeeps(s: string)
    requires NoUnderscore(s)
    ensures NoUnderscore(Trim(s))
  {
    var t := TrimStart(s);
    var u := TrimEnd(t);
    assert Trim(s) == u;
    SliceKeeps(s, |s| - |t|, |s|);
    assert t == s[|s| - |t|..|s|];
    SliceKeeps(t, 0, |u|);
    assert u == t[0..|u|];
  }

  lemma SliceKeeps(s: string, i: nat, j: nat)
    requires NoUnderscore(s) && i <= j <= |s|
    ensures NoUnderscore(s[i..j])
  {
    assert forall k :: 0 <= k < j - i ==> s[i..j][k] == s[i + k];
  }

  /** Without underscores, grouped digits are plain decimal digits. */
  lemma GroupedPlain(d: string)
    requires NoUnderscore(d)
    ensures Grouped(d) <==> d != [] && AllDecimal(d)
    ensures Ungroup(d) == d
  {
  }

  /** Without underscores, Python's `int()` and the plain decimal parse
      read the same text the same way. */
  lemma PythonIntAgrees(s: string)
    requires NoUnderscore(s)
    ensures ParsePythonInt(s) == ParseDecimal(s)
  {
    var t := Trim(s);
    TrimKeeps(s);
    var digits := AfterSign(t);
    assert NoUnderscore(digits) by {
      if |t| >= 1 && (t[0] == '-' || t[0] == '+') {
        assert forall k :: 0 <= k < |digits| ==> digits[k] == t[k + 1];
      }
    }
    GroupedPlain(digits);
  }

  lemma PythonIntOfInt(i: int)
    ensures ParsePythonInt(IntToDecimal(i)) == Some(i)
  {
    var s := IntToDecimal(i);
    assert NoUnderscore(s) by {
      forall k | 0 <= k < |s|
        ensures s[k] != '_'
      {
        if i < 0 {
          assert s[k] == '-' || s[k] == NatToDecimal(-i)[k - 1];
        }
      }
    }
    PythonIntAgrees(s);
    ParseDecimalOfInt(i);
  }

  lemma {:induction false} UngroupAppend(a: string, b: string)
    ensures Ungroup(a + b) == Ungroup(a) + Ungroup(b)
    decreases |b|
  {
    if b == [] {
      assert a + b == a;
    } else {
      assert (a + b)[..|a + b| - 1] == a + b[..|b| - 1];
      UngroupAppend(a, b[..|b| - 1]);
    }
  }

  /** Two groups of digits joined by one underscore read as the digits
      written together, as Python's `int("1_000")` reads 1000. */
  lemma PythonIntJoin(a: string, b: string)
    requires a != [] && b != [] && AllDecimal(a) && AllDecimal(b)
    ensures ParsePythonInt(a + "_" + b) == ParseDecimal(a + b)
    ensures ParsePythonInt(a + "_" + b).Some?
  {
    var s := a + "_" + b;
    GroupedJoin(a, b);
    PlainDigits(s);
    PlainDigits(a + b);
  }

  /** Text that starts and ends with a digit is its own trimmed, unsigned
      text. */
  lemma PlainDigits(s: string)
    requires s != [] && '0' <= s[0] <= '9' && '0' <= s[|s| - 1] <= '9'
    ensures AfterSign(Trim(s)) == s
  {
    TrimOfTrimmed(s);
  }

  lemma GroupedJoin(a: string, b: string)
    requires a != [] && b != [] && AllDecimal(a) && AllDecimal(b)
    ensures Grouped(a + "_" + b) && Ungroup(a + "_" + b) == a + b
    ensures var s := a + "_" + b; '0' <= s[0] <= '9' && '0' <= s[|s| - 1] <= '9'
    ensures var ab := a + b; AllDecimal(ab) && '0' <= ab[0] <= '9' && '0' <= ab[|ab| - 1] <= '9'
  {
    JoinIsGrouped(a, b);
    JoinUngroups(a, b);
    JoinDigits(a, b);
  }

  lemma JoinIsGrouped(a: string, b: string)
    requires a != [] && b != [] && AllDecimal(a) && AllDecimal(b)
    ensures Grouped(a + "_" + b)
  {
    var s := a + "_" + b;
    assert s[0] == a[0] && s[|s| - 1] == b[|b| - 1];
    forall k | 0 <= k < |s| - 1
      ensures s[k] != '_' || s[k + 1] != '_'
    {
      if k < |a| { assert s[k] == a[k]; }
      else if k == |a| { assert s[k + 1] == b[0]; }
      else { assert s[k] == b[k - |a| - 1]; }
    }
    forall k | 0 <= k < |s|
      ensures '0' <= s[k] <= '9' || s[k] == '_'
    {
      if k < |a| { assert s[k] == a[k]; }
      else if k > |a| { assert s[k] == b[k - |a| - 1]; }
    }
  }

  lemma JoinUngroups(a: string, b: string)
    requires AllDecimal(a) && AllDecimal(b)
    ensures Ungroup(a + "_" + b) == a + b
  {
    UngroupAppend(a + "_", b);
    UngroupAppend(a, "_");
    assert Ungroup("_") == [] by { assert "_"[..0] == []; }
    assert NoUnderscore(a) && NoUnderscore(b);
  }

  lemma JoinDigits(a: string, b: string)
    requires a != [] && b != [] && AllDecimal(a) && AllDecimal(b)
    ensures var s := a + "_" + b; '0' <= s[0] <= '9' && '0' <= s[|s| - 1] <= '9'
    ensures var ab := a + b; AllDecimal(ab) && '0' <= ab[0] <= '9' && '0' <= ab[|ab| - 1] <= '9'
  {
    var s := a + "_" + b;
    assert s[0] == a[0] && s[|s| - 1] == b[|b| - 1];
    var ab := a + b;
    assert ab[0] == a[0] && ab[|ab| - 1] == b[|b| - 1];
    forall k | 0 <= k < |ab|
      ensures '0' <= ab[k] <= '9'
    {
      if k < |a| { assert ab[k] == a[k]; } else { assert ab[k] == b[k - |a|]; }
    }
  }

  /** An underscore at either end of the trimmed text makes `int()` fail. */
  lemma PythonIntEdgeUnderscore(s: string)
    requires Trim(s) != [] && (Trim(s)[0] == '_' || Trim(s)[|Trim(s)| - 1] == '_')
    ensures ParsePythonInt(s) == None
  {
    EdgeUnderscore(Trim(s));
  }

  lemma EdgeUnderscore(t: string)
    requires t != [] && (t[0] == '_' || t[|t| - 1] == '_')
    ensures SignedGrouped(t) == None
  {
    var d := AfterSign(t);
    if d != [] {
      assert d[|d| - 1] == t[|t| - 1];
    }
  }

  /** A leading space does not change the trimmed text. */
  lemma TrimLeadingSpace(s: string)
    requires s != [] && IsSpace(s[0])
    ensures Trim(s) == Trim(s[1..])
  {
    assert TrimStart(s) == TrimStart(s[1..]);
  }

  /** One leading space before trimmed text is all `Trim` removes. */
  lemma TrimOneSpace(s: string)
    requires |s| >= 2 && IsSpace(s[0]) && !IsSpace(s[1]) && !IsSpace(s[|s| - 1])
    ensures Trim(s) == s[1..]
  {
    TrimLeadingSpace(s);
    TrimOfTrimmed(s[1..]);
  }

  lemma TrimOfTrimmed(s: string)
    requires s != [] && !IsSpace(s[0]) && !IsSpace(s[|s| - 1])
    ensures Trim(s) == s
  {
    assert TrimStart(s) == s;
    assert TrimEnd(s) == s;
  }

  /** `QString::toInt(&ok, 10)`: as `ParseDecimal`, but a value outside the
      signed 32-bit range is a failure too. */
  function ParseInt32(s: string): (r: Option<int>)
    ensures r.Some? ==> -0x8000_0000 <= r.value < 0x8000_0000
    ensures r.Some? ==> ParseDecimal(s) == r
  {
    match ParseDecimal(s)
    case Some(v) => if -0x8000_0000 <= v < 0x8000_0000 then Some(v) else None
    case None => None
  }

  /** Number of occurrences of a character. */
  function Count(s: string, c: char): nat
  {
    if s == [] then 0 else Count(s[..|s| - 1], c) + (if s[|s| - 1] == c then 1 else 0)
  }

  lemma {:induction false} CountAbsent(s: string, c: char)
    requires forall k :: 0 <= k < |s| ==> s[k] != c
    ensures Count(s, c) == 0
    decreases |s|
  {
    if s != [] {
      CountAbsent(s[..|s| - 1], c);
    }
  }

  lemma {:induction false} CountAppend(a: string, b: string, c: char)
    ensures Count(a + b, c) == Count(a, c) + Count(b, c)
    decreases |b|
  {
    if b == [] {
      assert a + b == a;
    } else {
      assert (a + b)[..|a + b| - 1] == a + b[..|b| - 1];
      CountAppend(a, b[..|b| - 1], c);
    }
  }
}

=== FILE: trace_export.dfy ===
/**
  The debugger's break-and-trace results dialog: the register panel shown
  for the selected step of a trace, and the export of the whole trace tree
  as CSV or JSON. The tree widget, the file dialog and the file handle are
  left out: the export is a function from the tree to the lines that
  `add_line` writes, each followed by a line break.
 */
module TraceExport {
  import opened Bytes
  import opened Text
  import SavePaths

  /** One traced step: its disassembled instruction and the CPU registers. */
  datatype Step = Step(
    instruction: string,
    a: byte, f: byte, b: byte, c: byte, d: byte, e: byte,
    hl: u16, sp: u16, pc: u16)

  /** A node of the trace tree: a step and the steps traced below it. */
  datatype Node = Node(step: Step, children: seq<Node>)

  // SM83 flag bits of the F register.
  const CarryBit: nat := 4
  const HalfCarryBit: nat := 5
  const SubtractBit: nat := 6
  const ZeroBit: nat := 7

  /** Shifting the pair `a:f` right by log2(16) keeps the parity of `f`'s shift. */
  lemma Shift16Parity(a: byte, f: byte)
    ensures ((a * 256 + f) / 16) % 2 == (f / 16) % 2
  {
    assert f == (f / 16) * 16 + f % 16;
    assert (a * 256 + f) / 16 == 2 * (a * 8) + f / 16;
  }

  /** Shifting the pair `a:f` right by log2(32) keeps the parity of `f`'s shift. */
  lemma Shift32Parity(a: byte, f: byte)
    ensures ((a * 256 + f) / 32) % 2 == (f / 32) % 2
  {
    assert f == (f / 32) * 32 + f % 32;
    assert (a * 256 + f) / 32 == 2 * (a * 4) + f / 32;
  }

  /** Shifting the pair `a:f` right by log2(64) keeps the parity of `f`'s shift. */
  lemma Shift64Parity(a: byte, f: byte)
    ensures ((a * 256 + f) / 64) % 2 == (f / 64) % 2
  {
    assert f == (f / 64) * 64 + f % 64;
    assert (a * 256 + f) / 64 == 2 * (a * 2) + f / 64;
  }

  /** Shifting the pair `a:f` right by log2(128) keeps the parity of `f`'s shift. */
  lemma Shift128Parity(a: byte, f: byte)
    ensures ((a * 256 + f) / 128) % 2 == (f / 128) % 2
  {
    assert f == (f / 128) * 128 + f % 128;
    assert (a * 256 + f) / 128 == 2 * (a * 1) + f / 128;
  }

  /** Bit `k` of `f` is set iff it is one of the flag bits tested on the packed pair `af`. */
  lemma PairFlagBit(a: byte, f: byte, k: nat)
    requires 4 <= k <= 7
    ensures Bit(Pack(a, f), k) <==> Bit(f, k)
  {
    assert Pow2(4) == 16 && Pow2(5) == 32 && Pow2(6) == 64 && Pow2(7) == 128;
    if k == 4 {
      Shift16Parity(a, f);
    } else if k == 5 {
      Shift32Parity(a, f);
    } else if k == 6 {
      Shift64Parity(a, f);
    } else {
      Shift128Parity(a, f);
    }
  }

  // ---------------------------------------------------------------------
  // The register panel

  /** What the panel shows: the register pairs and the four-letter flag string. */
  datatype Panel = Panel(af: u16, hl: u16, bc: u16, sp: u16, de: u16, pc: u16, flags: string)

  /** The flag string: `____` with each position overwritten by its
      letter when that bit of `af` is set, in the order C, H, N, Z. */
  function Flags(af: u16): (s: string)
    ensures |s| == 4
  {
    var s0 := "____";
    var s1 := if Bit(af, CarryBit) then s0[0 := 'C'] else s0;
    var s2 := if Bit(af, HalfCarryBit) then s1[1 := 'H'] else s1;
    var s3 := if Bit(af, SubtractBit) then s2[2 := 'N'] else s2;
    if Bit(af, ZeroBit) then s3[3 := 'Z'] else s3
  }

  /** `show_info_for_register`: the pairs packed high byte first from the
      selected step, or all zero when nothing is selected. */
  function ShowInfo(selected: Option<Step>): (p: Panel)
    ensures selected.None? ==> p == Panel(0, 0, 0, 0, 0, 0, "____")
    ensures selected.Some? ==>
      var s := selected.value;
      Hi(p.af) == s.a && Lo(p.af) == s.f && Hi(p.bc) == s.b && Lo(p.bc) == s.c &&
      Hi(p.de) == s.d && Lo(p.de) == s.e && p.hl == s.hl && p.sp == s.sp && p.pc == s.pc
    ensures |p.flags| == 4
    ensures selected.Some? ==> (p.flags[0] == 'C' <==> Bit(selected.value.f, CarryBit))
    ensures selected.Some? ==> (p.flags[1] == 'H' <==> Bit(selected.value.f, HalfCarryBit))
    ensures selected.Some? ==> (p.flags[2] == 'N' <==> Bit(selected.value.f, SubtractBit))
    ensures selected.Some? ==> (p.flags[3] == 'Z' <==> Bit(selected.value.f, ZeroBit))
    ensures forall i :: 0 <= i < 4 ==> p.flags[i] == "CHNZ"[i] || p.flags[i] == '_'
  {
    match selected
    case None =>
      assert !Bit(0, CarryBit) && !Bit(0, HalfCarryBit) && !Bit(0, SubtractBit) && !Bit(0, ZeroBit);
      Panel(0, 0, 0, 0, 0, 0, Flags(0))
    case Some(s) =>
      var af := Pack(s.a, s.f);
      PairFlagBit(s.a, s.f, CarryBit);
      PairFlagBit(s.a, s.f, HalfCarryBit);
      PairFlagBit(s.a, s.f, SubtractBit);
      PairFlagBit(s.a, s.f, ZeroBit);
      Panel(af, s.hl, Pack(s.b, s.c), s.sp, Pack(s.d, s.e), s.pc, Flags(af))
  }

  /** The panel's label text: a title, three lines of two registers
      each, then the flags. */
  function PanelText(p: Panel): (t: string)
    ensures |t| == 85 + |p.flags|
    ensures t[85..] == p.flags
  {
    var body := PanelBody(p);
    SuffixOfAppend(body, p.flags, |p.flags|);
    body + p.flags
  }

  /** Everything before the flags. */
  function PanelBody(p: Panel): (b: string)
    ensures |b| == 85
  {
    "Registers:\n\n" + RegisterPair("AF", p.af, "HL", p.hl) + PanelRest(p)
  }

  function PanelRest(p: Panel): (r: string)
    ensures |r| == 53
  {
    ",\n" + RegisterPair("BC", p.bc, "SP", p.sp) + PanelTail(p)
  }

  function PanelTail(p: Panel): (r: string)
    ensures |r| == 31
  {
    ",\n" + RegisterPair("DE", p.de, "PC", p.pc) + "\n\nFlags: "
  }

  /** The AF and HL columns of the label. */
  lemma PanelFirstLine(p: Panel)
    ensures var t := PanelText(p);
      t[17..21] == Hex4Lower(p.af) && t[28..32] == Hex4Lower(p.hl)
  {
    var body := PanelBody(p);
    SliceOfLeft(body, p.flags, 12, 32);
    SliceOfMiddle("Registers:\n\n", RegisterPair("AF", p.af, "HL", p.hl), PanelRest(p));
    PairIn(PanelText(p), 12, RegisterPair("AF", p.af, "HL", p.hl), p.af, p.hl);
  }

  /** The BC and SP columns of the label. */
  lemma PanelSecondLine(p: Panel)
    ensures var t := PanelText(p);
      t[39..43] == Hex4Lower(p.bc) && t[50..54] == Hex4Lower(p.sp)
  {
    var body, line := PanelBody(p), RegisterPair("BC", p.bc, "SP", p.sp);
    SliceOfLeft(body, p.flags, 34, 54);
    SliceOfRight("Registers:\n\n" + RegisterPair("AF", p.af, "HL", p.hl), PanelRest(p), 2, 22);
    SliceOfMiddle(",\n", line, PanelTail(p));
    PairIn(PanelText(p), 34, line, p.bc, p.sp);
  }

  /** The DE and PC columns of the label. */
  lemma PanelThirdLine(p: Panel)
    ensures var t := PanelText(p);
      t[61..65] == Hex4Lower(p.de) && t[72..76] == Hex4Lower(p.pc)
  {
    var body, line := PanelBody(p), RegisterPair("DE", p.de, "PC", p.pc);
    SliceOfLeft(body, p.flags, 56, 76);
    SliceOfRight("Registers:\n\n" + RegisterPair("AF", p.af, "HL", p.hl), PanelRest(p), 24, 44);
    SliceOfRight(",\n" + RegisterPair("BC", p.bc, "SP", p.sp), PanelTail(p), 2, 22);
    SliceOfMiddle(",\n", line, "\n\nFlags: ");
    PairIn(PanelText(p), 56, line, p.de, p.pc);
  }

  /** `XX: $hhhh, YY: $hhhh`: one line of the panel, two registers. */
  function RegisterPair(n1: string, v1: u16, n2: string, v2: u16): (r: string)
    requires |n1| == 2 && |n2| == 2
    ensures |r| == 20 && r[5..9] == Hex4Lower(v1) && r[16..20] == Hex4Lower(v2)
  {
    var front, back := n1 + ": $", ", " + n2 + ": $";
    var h1, h2 := Hex4Lower(v1), Hex4Lower(v2);
    SliceOfLeft(front + h1, back + h2, 5, 9);
    SliceOfRight(front, h1, 0, 4);
    SliceOfRight(front + h1, back + h2, 7, 11);
    SliceOfRight(back, h2, 0, 4);
    (front + h1) + (back + h2)
  }

  /** A register line found at column `k` of the text. */
  lemma PairIn(t: string, k: nat, l: string, v1: u16, v2: u16)
    requires k + 20 <= |t| && |l| == 20 && t[k..k + 20] == l
    requires l[5..9] == Hex4Lower(v1) && l[16..20] == Hex4Lower(v2)
    ensures t[k + 5..k + 9] == Hex4Lower(v1) && t[k + 16..k + 20] == Hex4Lower(v2)
  {
    SliceOfSlice(t, k, 20, 5, 9);
    SliceOfSlice(t, k, 20, 16, 20);
  }

  /** Every register of a selected step can be read back from the label. */
  lemma PanelTextReadsBack(s: Step)
    ensures var t := PanelText(ShowInfo(Some(s)));
      HexDigitsValue(t[17..21]) == Some(Pack(s.a, s.f)) &&
      HexDigitsValue(t[28..32]) == Some(s.hl as nat) &&
      HexDigitsValue(t[39..43]) == Some(Pack(s.b, s.c)) &&
      HexDigitsValue(t[50..54]) == Some(s.sp as nat) &&
      HexDigitsValue(t[61..65]) == Some(Pack(s.d, s.e)) &&
      HexDigitsValue(t[72..76]) == Some(s.pc as nat)
  {
    var p := ShowInfo(Some(s));
    PanelFirstLine(p);
    PanelSecondLine(p);
    PanelThirdLine(p);
    Hex4LowerValue(Pack(s.a, s.f));
    Hex4LowerValue(s.hl);
    Hex4LowerValue(Pack(s.b, s.c));
    Hex4LowerValue(s.sp);
    Hex4LowerValue(Pack(s.d, s.e));
    Hex4LowerValue(s.pc);
  }

  // ---------------------------------------------------------------------
  // Export format

  datatype Format = Json | Csv

  /** `std::filesystem::path::extension`: from the dot that starts the
      extension to the end, or empty. */
  function Extension(path: string): string
  {
    match SavePaths.ExtensionStart(path)
    case None => ""
    case Some(e) => path[e..]
  }

  /** CSV exactly when the chosen file's extension is `.csv`; JSON for
      every other extension, including none. */
  function FormatFor(path: string): Format
  {
    if Extension(path) == ".csv" then Csv else Json
  }

  /** A file name with a `.csv` extension exports CSV, one with `.json`
      exports JSON; the comparison is case-sensitive. */
  lemma FormatOfExtension(stem: string)
    requires SavePaths.FileNameStart(stem) < |stem|
    ensures FormatFor(stem + ".csv") == Csv
    ensures FormatFor(stem + ".json") == Json
    ensures FormatFor(stem + ".CSV") == Json
  {
    SavePaths.AppendedExtension(stem, ".csv");
    assert (stem + ".csv")[|stem|..] == ".csv";
    SavePaths.AppendedExtension(stem, ".json");
    assert (stem + ".json")[|stem|..] == ".json";
    SavePaths.AppendedExtension(stem, ".CSV");
    assert (stem + ".CSV")[|stem|..] == ".CSV";
  }

  // ---------------------------------------------------------------------
  // Pre-order traversal

  /** A step together with the depth at which the export visits it. */
  datatype Visit = Visit(depth: int, step: Step)

  /** The order `export_directory` visits a directory in: each node, then
      its children one level deeper, then its later siblings. */
  function Preorder(dir: seq<Node>, depth: int): (vs: seq<Visit>)
    ensures |vs| >= |dir|
    decreases dir
  {
    if dir == [] then []
    else
      assert dir[0] in dir;
      [Visit(depth, dir[0].step)] + Preorder(dir[0].children, depth + 1) + Preorder(dir[1..], depth)
  }

  /** The length of the longest prefix of `vs` visited deeper than `depth`. */
  function Deeper(vs: seq<Visit>, depth: int): (n: nat)
    ensures n <= |vs|
  {
    if vs == [] || vs[0].depth <= depth then 0 else 1 + Deeper(vs[1..], depth)
  }

  /** An independent reader of a visit list: a visit at `depth` starts a
      node whose children are the visits right after it that lie deeper.
      `None` when the list does not have that shape. */
  function Rebuild(vs: seq<Visit>, depth: int): Option<seq<Node>>
    decreases |vs|
  {
    if vs == [] then Some([])
    else if vs[0].depth != depth then None
    else
      var n := Deeper(vs[1..], depth);
      var children := Rebuild(vs[1..1 + n], depth + 1);
      var rest := Rebuild(vs[1 + n..], depth);
      if children.Some? && rest.Some? then Some([Node(vs[0].step, children.value)] + rest.value) else None
  }

  /** Every visit of a directory is at its depth or deeper, and the first
      is the first node at exactly that depth. */
  lemma {:induction false} PreorderDepths(dir: seq<Node>, depth: int)
    ensures AtLeast(Preorder(dir, depth), depth)
    ensures dir != [] ==> Preorder(dir, depth)[0] == Visit(depth, dir[0].step)
    decreases dir
  {
    if dir != [] {
      assert dir[0] in dir;
      PreorderDepths(dir[0].children, depth + 1);
      PreorderDepths(dir[1..], depth);
    }
  }

  /** Every visit is at `depth` or deeper. */
  predicate AtLeast(vs: seq<Visit>, depth: int)
  {
    forall i :: 0 <= i < |vs| ==> vs[i].depth >= depth
  }

  lemma {:induction false} DeeperAppend(xs: seq<Visit>, ys: seq<Visit>, depth: int)
    requires AtLeast(xs, depth + 1)
    requires ys == [] || ys[0].depth == depth
    ensures Deeper(xs + ys, depth) == |xs|
    decreases |xs|
  {
    if xs != [] {
      assert (xs + ys)[1..] == xs[1..] + ys;
      DeeperAppend(xs[1..], ys, depth);
    } else {
      assert xs + ys == ys;
    }
  }

  /** One step of the reader: a visit at `depth`, its deeper visits and the
      siblings' visits give the node and the siblings read back. */
  lemma RebuildStep(depth: int, step: Step, kids: seq<Visit>, rest: seq<Visit>, children: seq<Node>, siblings: seq<Node>)
    requires AtLeast(kids, depth + 1)
    requires rest == [] || rest[0].depth == depth
    requires Rebuild(kids, depth + 1) == Some(children)
    requires Rebuild(rest, depth) == Some(siblings)
    ensures Rebuild([Visit(depth, step)] + kids + rest, depth) == Some([Node(step, children)] + siblings)
  {
    var v := Visit(depth, step);
    var vs := [v] + kids + rest;
    Pieces(v, kids, rest);
    DeeperAppend(kids, rest, depth);
    RebuildUnfold(vs, depth, |kids|, Some(children), Some(siblings));
  }

  /** Where the parts of `[v] + kids + rest` sit. */
  lemma Pieces(v: Visit, kids: seq<Visit>, rest: seq<Visit>)
    ensures var vs := [v] + kids + rest;
      vs[0] == v && vs[1..] == kids + rest && vs[1..1 + |kids|] == kids && vs[1 + |kids|..] == rest
  {
    var vs := [v] + kids + rest;
    assert vs[1..] == kids + rest;
    assert vs[1..1 + |kids|] == kids;
  }

  /** One unfolding of `Rebuild` on a list that starts at its depth. */
  lemma RebuildUnfold(vs: seq<Visit>, depth: int, n: nat, children: Option<seq<Node>>, rest: Option<seq<Node>>)
    requires vs != [] && vs[0].depth == depth
    requires n == Deeper(vs[1..], depth)
    requires children == Rebuild(vs[1..1 + n], depth + 1) && rest == Rebuild(vs[1 + n..], depth)
    ensures Rebuild(vs, depth) == if children.Some? && rest.Some? then Some([Node(vs[0].step, children.value)] + rest.value) else None
  {
  }

  /** The depth column determines the tree: reading the pre-order visits
      back gives the directory that was exported. */
  lemma {:induction false} PreorderRoundTrip(dir: seq<Node>, depth: int)
    ensures Rebuild(Preorder(dir, depth), depth) == Some(dir)
    decreases dir
  {
    if dir != [] {
      assert dir[0] in dir;
      PreorderRoundTrip(dir[0].children, depth + 1);
      PreorderRoundTrip(dir[1..], depth);
      PreorderRoundTripStep(dir, depth);
    }
  }

  /** The inductive step: a node's visits and its siblings' visits read
      back to the node and its siblings. */
  lemma PreorderRoundTripStep(dir: seq<Node>, depth: int)
    requires dir != []
    requires Rebuild(Preorder(dir[0].children, depth + 1), depth + 1) == Some(dir[0].children)
    requires Rebuild(Preorder(dir[1..], depth), depth) == Some(dir[1..])
    ensures Rebuild(Preorder(dir, depth), depth) == Some(dir)
  {
    var kids := Preorder(dir[0].children, depth + 1);
    var rest := Preorder(dir[1..], depth);
    assert AtLeast(kids, depth + 1) by {
      PreorderDepths(dir[0].children, depth + 1);
    }
    assert rest == [] || rest[0].depth == depth by {
      PreorderDepths(dir[1..], depth);
    }
    RebuildStep(depth, dir[0].step, kids, rest, dir[0].children, dir[1..]);
    assert Preorder(dir, depth) == [Visit(depth, dir[0].step)] + kids + rest by {
      PreorderUnfold(dir, depth);
    }
    ConsTail(dir);
  }

  lemma PreorderUnfold(dir: seq<Node>, depth: int)
    requires dir != []
    ensures Preorder(dir, depth) ==
      [Visit(depth, dir[0].step)] + Preorder(dir[0].children, depth + 1) + Preorder(dir[1..], depth)
  {
  }

  lemma ConsTail(dir: seq<Node>)
    requires dir != []
    ensures [Node(dir[0].step, dir[0].children)] + dir[1..] == dir
  {
  }

  // ---------------------------------------------------------------------
  // CSV

  const CsvHeader: string := "depth,instruction,af,bc,de,hl,sp,pc,carry,halfcarry,subtract,zero"

  /** `%i` of a flag test: `1` when set, `0` otherwise. */
  function FlagDigit(f: byte, k: nat): (c: char)
    ensures c == '1' <==> Bit(f, k)
    ensures c == '0' <==> !Bit(f, k)
  {
    if Bit(f, k) then '1' else '0'
  }

  /** The four flag columns C, H, N and Z that close a row. */
  function FlagColumns(f: byte): (r: string)
    ensures |r| == 8
  {
    [',', FlagDigit(f, CarryBit), ',', FlagDigit(f, HalfCarryBit),
     ',', FlagDigit(f, SubtractBit), ',', FlagDigit(f, ZeroBit)]
  }

  /** One CSV row: depth, quoted instruction, the six registers as `$`
      and four lower-case hex digits, and the four flags as 0/1. */
  function CsvRow(v: Visit): string
  {
    IntToDecimal(v.depth) + RegisterColumns(v.step) + FlagColumns(v.step.f)
  }

  /** Every row ends with the flag columns C, H, N and Z. */
  lemma CsvRowFlags(v: Visit)
    ensures var row := CsvRow(v);
      |row| >= 8 && row[|row| - 8..] == FlagColumns(v.step.f)
  {
    SuffixOfAppend(IntToDecimal(v.depth) + RegisterColumns(v.step), FlagColumns(v.step.f), 8);
  }

  /** The instruction and register columns after the depth: the comma
      that ends the depth comes first. */
  function RegisterColumns(s: Step): (r: string)
    ensures r != [] && r[0] == ','
  {
    ",\"" + s.instruction + "\",$" + Hex4Lower(Pack(s.a, s.f))
      + ",$" + Hex4Lower(Pack(s.b, s.c)) + ",$" + Hex4Lower(Pack(s.d, s.e))
      + ",$" + Hex4Lower(s.hl) + ",$" + Hex4Lower(s.sp) + ",$" + Hex4Lower(s.pc)
  }

  lemma DecimalHasNoComma(i: int)
    ensures ',' !in IntToDecimal(i)
  {
    var n := NatToDecimal(if i < 0 then -i else i);
    assert forall k :: 0 <= k < |n| ==> n[k] != ',';
    if i < 0 {
      assert IntToDecimal(i) == "-" + n;
    }
  }

  /** `c` first occurs right after a prefix `a` that does not contain it. */
  lemma IndexOfFirst(s: string, a: string, c: char)
    requires |a| < |s| && s[..|a|] == a && c !in a && s[|a|] == c
    ensures IndexOf(s, c, 0) == |a|
  {
    assert forall k :: 0 <= k < |a| ==> s[k] == a[k];
    IndexOfScan(s, c, 0, |a|);
  }

  lemma {:induction false} IndexOfScan(s: string, c: char, from: nat, at: nat)
    requires from <= at < |s| && s[at] == c
    requires forall k :: from <= k < at ==> s[k] != c
    ensures IndexOf(s, c, from) == at
    decreases at - from
  {
    if from < at {
      IndexOfScan(s, c, from + 1, at);
    }
  }

  /** The depth column reads back: the text before the first comma is the
      visit's depth in decimal. */
  lemma CsvRowDepth(v: Visit)
    ensures var row := CsvRow(v);
      0 <= IndexOf(row, ',', 0) <= |row| &&
      ParseDecimal(row[..IndexOf(row, ',', 0)]) == Some(v.depth)
  {
    var d, r := IntToDecimal(v.depth), RegisterColumns(v.step);
    var row := CsvRow(v);
    Concat3(d, r, FlagColumns(v.step.f));
    DecimalHasNoComma(v.depth);
    IndexOfFirst(row, d, ',');
    ParseDecimalOfInt(v.depth);
  }

  /** The CSV file: the header, then one row per visit in pre-order,
      top-level nodes at depth 0. */
  function CsvLines(results: seq<Node>): (lines: seq<string>)
    ensures |lines| == 1 + |Preorder(results, 0)|
    ensures lines[0] == CsvHeader
    ensures forall i :: 0 <= i < |Preorder(results, 0)| ==> lines[i + 1] == CsvRow(Preorder(results, 0)[i])
  {
    var vs := Preorder(results, 0);
    [CsvHeader] + seq(|vs|, i requires 0 <= i < |vs| => CsvRow(vs[i]))
  }

  // ---------------------------------------------------------------------
  // JSON

  /** A line before rendering: its indent in spaces and its text. */
  datatype Line = Line(indent: nat, text: string)

  /** `add_json_line` at nesting `depth`: (depth + 1) * 4 spaces. */
  function JsonLine(depth: nat, text: string): Line
  {
    Line((depth + 1) * 4, text)
  }

  function Render(l: Line): string
  {
    seq(l.indent, _ => ' ') + l.text
  }

  /** `format_number`: a quoted `$` and four lower-case hex digits. */
  function Number(v: u16): string
  {
    "\"$" + Hex4Lower(v) + "\""
  }

  function BoolDigit(f: byte, k: nat): string
  {
    [FlagDigit(f, k)]
  }

  /** `"name": value,` -- every member but the last. */
  function Member(name: string, value: string): (t: string)
    ensures t != [] && t[0] == '"' && t[|t| - 1] == ','
  {
    "\"" + name + "\": " + value + ","
  }

  /** The last member, `"zero"`, followed by a comma only when the
      children list comes after it. */
  function ZeroMember(f: byte, hasChildren: bool): (t: string)
    ensures |t| >= 9 && t[..8] == "\"zero\": "
    ensures t[|t| - 1] == ',' <==> hasChildren
    ensures t[|t| - 1] != '{' && t[|t| - 1] != '['
  {
    var z := "\"zero\": " + BoolDigit(f, ZeroBit) + (if hasChildren then "," else "");
    assert z[..8] == "\"zero\": ";
    z
  }

  /** The names of the ten members before `"zero"`, in order. */
  const MemberNames: seq<string> :=
    ["instruction", "af", "bc", "de", "hl", "sp", "pc", "carry", "halfcarry", "subtract"]

  /** Their values: the quoted instruction, six registers, three flags. */
  function MemberValues(s: Step): (vs: seq<string>)
    ensures |vs| == 10
  {
    [ "\"" + s.instruction + "\"",
      Number(Pack(s.a, s.f)), Number(Pack(s.b, s.c)), Number(Pack(s.d, s.e)),
      Number(s.hl), Number(s.sp), Number(s.pc),
      BoolDigit(s.f, CarryBit), BoolDigit(s.f, HalfCarryBit), BoolDigit(s.f, SubtractBit) ]
  }

  /** The eleven member lines of an object, in order; only the last one,
      `"zero"`, depends on the children. */
  function Members(s: Step, hasChildren: bool): (texts: seq<string>)
    ensures TextsOk(texts, hasChildren)
  {
    var front := MemberTexts(MemberNames, MemberValues(s));
    var texts := front + [ZeroMember(s.f, hasChildren)];
    assert forall i :: 0 <= i < 10 ==> texts[i] == front[i];
    texts
  }

  /** `"name": value,` for each name and value, in order. */
  function MemberTexts(names: seq<string>, values: seq<string>): (texts: seq<string>)
    requires |names| == |values|
    ensures |texts| == |names|
    ensures forall i :: 0 <= i < |texts| ==> MemberText(texts[i])
  {
    seq(|names|, i requires 0 <= i < |names| => Member(names[i], values[i]))
  }

  function MemberLines(texts: seq<string>, depth: nat): (ls: seq<Line>)
    ensures |ls| == |texts|
    ensures forall i :: 0 <= i < |texts| ==> ls[i] == JsonLine(depth, texts[i])
  {
    seq(|texts|, i requires 0 <= i < |texts| => JsonLine(depth, texts[i]))
  }

  /** One object of `export_directory` at nesting `depth`: `{`, the
      members one level in, the children list when there are children,
      and the closing brace, followed by a comma unless the object is
      the last of its list. */
  function NodeLines(node: Node, depth: nat, last: bool): seq<Line>
    decreases node, 1
  {
    [JsonLine(depth, "{")]
      + MemberLines(Members(node.step, node.children != []), depth + 1)
      + ChildrenBlock(node.children, depth)
      + [JsonLine(depth, if last then "}" else "},")]
  }

  /** The `"children"` list of an object at `depth`, absent when there
      are no children. */
  function ChildrenBlock(children: seq<Node>, depth: nat): seq<Line>
    decreases children, 1
  {
    if children == [] then []
    else [JsonLine(depth + 1, "\"children\": [")] + DirLines(children, depth + 2) + [JsonLine(depth + 1, "]")]
  }

  /** The objects of one directory, in order. */
  function DirLines(dir: seq<Node>, depth: nat): seq<Line>
    decreases dir, 0
  {
    if dir == [] then []
    else
      assert dir[0] in dir;
      NodeLines(dir[0], depth, |dir| == 1) + DirLines(dir[1..], depth)
  }

  /** The JSON file: `[`, the top-level objects, `]`. */
  function JsonLines(results: seq<Node>): seq<Line>
  {
    [Line(0, "[")] + DirLines(results, 0) + [Line(0, "]")]
  }

  // The comma rule of JSON, stated on lines: a line that does not open an
  // object or list ends with a comma exactly when the next line does not
  // close one.

  predicate Opens(l: Line) { l.text != [] && (l.text[|l.text| - 1] == '{' || l.text[|l.text| - 1] == '[') }
  predicate Closes(l: Line) { l.text != [] && (l.text[0] == '}' || l.text[0] == ']') }
  predicate EndsWithComma(l: Line) { l.text != [] && l.text[|l.text| - 1] == ',' }

  predicate Follows(x: Line, y: Line)
  {
    !Opens(x) ==> (EndsWithComma(x) <==> !Closes(y))
  }

  predicate CommaRule(ls: seq<Line>)
  {
    forall i :: 0 <= i < |ls| - 1 ==> Follows(ls[i], ls[i + 1])
  }

  lemma Glue(xs: seq<Line>, ys: seq<Line>)
    requires CommaRule(xs) && CommaRule(ys)
    requires xs != [] && ys != [] ==> Follows(xs[|xs| - 1], ys[0])
    ensures CommaRule(xs + ys)
  {
    var zs := xs + ys;
    forall i | 0 <= i < |zs| - 1
      ensures Follows(zs[i], zs[i + 1])
    {
      if i < |xs| - 1 {
        assert zs[i] == xs[i] && zs[i + 1] == xs[i + 1];
      } else if i == |xs| - 1 {
        assert zs[i] == xs[|xs| - 1] && zs[i + 1] == ys[0];
      } else {
        assert zs[i] == ys[i - |xs|] && zs[i + 1] == ys[i - |xs| + 1];
      }
    }
  }

  /** The member lines keep the comma rule, and the last one, `"zero"`,
      carries a comma exactly when the children list follows. */
  lemma MembersRule(s: Step, hasChildren: bool, depth: nat)
    ensures var ls := MemberLines(Members(s, hasChildren), depth);
      CommaRule(ls) && !Opens(ls[10]) && !Closes(ls[0]) &&
      (EndsWithComma(ls[10]) <==> hasChildren)
    ensures MembersOk(MemberLines(Members(s, hasChildren), depth), hasChildren)
  {
    TextsRule(Members(s, hasChildren), hasChildren, depth);
  }

  /** A member text: quoted name first, a comma last. */
  predicate MemberText(t: string)
  {
    t != [] && t[0] == '"' && t[|t| - 1] == ','
  }

  /** Eleven member texts, all but the last ending with a comma, the last
      with one exactly when children follow. */
  predicate TextsOk(texts: seq<string>, hasChildren: bool)
  {
    |texts| == 11 && (forall i :: 0 <= i < 10 ==> MemberText(texts[i])) && LastMemberText(texts[10], hasChildren)
  }

  /** The `"zero"` text: a comma last exactly when children follow. */
  predicate LastMemberText(z: string, hasChildren: bool)
  {
    |z| >= 9 && z[..8] == "\"zero\": " && z[0] == '"' && z[|z| - 1] != '{' && z[|z| - 1] != '[' && (z[|z| - 1] == ',' <==> hasChildren)
  }

  lemma TextsRule(texts: seq<string>, hasChildren: bool, depth: nat)
    requires TextsOk(texts, hasChildren)
    ensures var ls := MemberLines(texts, depth);
      CommaRule(ls) && !Opens(ls[10]) && !Closes(ls[0]) &&
      (EndsWithComma(ls[10]) <==> hasChildren)
    ensures MembersOk(MemberLines(texts, depth), hasChildren)
  {
    forall i | 0 <= i < 10
      ensures Follows(MemberLines(texts, depth)[i], MemberLines(texts, depth)[i + 1])
    {
      assert MemberText(texts[i]);
    }
  }

  /** A non-empty directory renders as objects that start with `{` and
      end with a bare `}`, and keeps the comma rule inside. */
  lemma {:induction false} DirRule(dir: seq<Node>, depth: nat)
    ensures CommaRule(DirLines(dir, depth))
    ensures dir != [] ==> ObjectsOk(DirLines(dir, depth), depth)
    decreases dir, 0
  {
    if dir != [] {
      assert dir[0] in dir;
      NodeRule(dir[0], depth, |dir| == 1);
      DirRule(dir[1..], depth);
      var head := NodeLines(dir[0], depth, |dir| == 1);
      var tail := DirLines(dir[1..], depth);
      if tail != [] {
        CloseThenOpen(depth);
        assert Follows(head[|head| - 1], tail[0]);
      }
      Glue(head, tail);
      assert DirLines(dir, depth) == head + tail;
      if tail == [] {
        assert |dir| == 1;
      }
    }
  }

  lemma {:induction false} NodeRule(node: Node, depth: nat, last: bool)
    ensures CommaRule(NodeLines(node, depth, last))
    ensures |NodeLines(node, depth, last)| >= 2
    ensures NodeLines(node, depth, last)[0] == JsonLine(depth, "{")
    ensures NodeLines(node, depth, last)[|NodeLines(node, depth, last)| - 1] == JsonLine(depth, if last then "}" else "},")
    decreases node, 1
  {
    var hasChildren := node.children != [];
    var open := JsonLine(depth, "{");
    var members := MemberLines(Members(node.step, hasChildren), depth + 1);
    var close := JsonLine(depth, if last then "}" else "},");
    MembersRule(node.step, hasChildren, depth + 1);
    var list := ChildrenBlock(node.children, depth);
    if hasChildren {
      DirRule(node.children, depth + 2);
      ChildrenList(DirLines(node.children, depth + 2), depth);
    }
    ObjectShape(open, members, list, close);
    assert NodeLines(node, depth, last) == [open] + members + list + [close];
  }

  /** An object that is not the last of its list closes with `},`, and
      the next one opens with `{`. */
  lemma CloseThenOpen(depth: nat)
    ensures Follows(JsonLine(depth, "},"), JsonLine(depth, "{"))
  {
  }

  /** A list of objects at `depth`, each starting with `{`, the list ending
      with a bare `}`, the comma rule kept throughout. */
  predicate ObjectsOk(ls: seq<Line>, depth: nat)
  {
    CommaRule(ls) && |ls| >= 2 && ls[0] == JsonLine(depth, "{") && ls[|ls| - 1] == JsonLine(depth, "}")
  }

  /** Member lines that keep the comma rule, the last ending with a comma
      exactly when a children list follows. */
  predicate MembersOk(ms: seq<Line>, hasChildren: bool)
  {
    CommaRule(ms) && ms != [] && !Opens(ms[|ms| - 1]) && (EndsWithComma(ms[|ms| - 1]) <==> hasChildren)
  }

  /** A block inside an object that keeps the comma rule, neither starts
      with a closing bracket nor ends opening one, and ends without a
      comma. */
  predicate ListOk(ls: seq<Line>)
  {
    CommaRule(ls) && ls != [] && !Closes(ls[0]) && !Opens(ls[|ls| - 1]) && !EndsWithComma(ls[|ls| - 1])
  }

  /** The `"children"` list around the child objects. */
  lemma ChildrenList(inner: seq<Line>, depth: nat)
    requires ObjectsOk(inner, depth + 2)
    ensures ListOk([JsonLine(depth + 1, "\"children\": [")] + inner + [JsonLine(depth + 1, "]")])
  {
    var first, final := JsonLine(depth + 1, "\"children\": ["), JsonLine(depth + 1, "]");
    Glue([first], inner);
    var head := [first] + inner;
    assert head[|head| - 1] == inner[|inner| - 1];
    Glue(head, [final]);
  }

  /** The lines of one object: the opening brace, the members, the
      optional children list and the closing brace. */
  lemma ObjectShape(open: Line, members: seq<Line>, list: seq<Line>, close: Line)
    requires Opens(open) && Closes(close)
    requires MembersOk(members, list != [])
    requires list != [] ==> ListOk(list)
    ensures var ls := [open] + members + list + [close];
      CommaRule(ls) && |ls| >= 2 && ls[0] == open && ls[|ls| - 1] == close
  {
    Glue([open], members);
    var head := [open] + members;
    assert head[|head| - 1] == members[|members| - 1];
    Glue(head, list);
    var body := head + list;
    assert body[|body| - 1] == if list == [] then members[|members| - 1] else list[|list| - 1];
    Glue(body, [close]);
  }

  /** The whole JSON file is one list and keeps the comma rule throughout:
      every object but the last of its list is followed by a comma, and
      nothing before a closing bracket is. */
  lemma JsonWellPunctuated(results: seq<Node>)
    ensures var ls := JsonLines(results);
      CommaRule(ls) && ls[0] == Line(0, "[") && ls[|ls| - 1] == Line(0, "]")
  {
    DirRule(results, 0);
    Glue([Line(0, "[")], DirLines(results, 0));
    Glue([Line(0, "[")] + DirLines(results, 0), [Line(0, "]")]);
  }

  /** The last member line, `"zero"`, ends with a comma exactly when a
      children list follows it. */
  lemma ZeroComma(s: Step, hasChildren: bool, depth: nat)
    ensures var l := MemberLines(Members(s, hasChildren), depth)[10];
      l.text[..8] == "\"zero\": " && (EndsWithComma(l) <==> hasChildren)
  {
    var texts := Members(s, hasChildren);
    TextsRule(texts, hasChildren, depth);
    assert MemberLines(texts, depth)[10].text == texts[10];
    assert LastMemberText(texts[10], hasChildren);
  }

  // ---------------------------------------------------------------------
  // The export

  /** `export_results` for the chosen path: the lines written, in order,
      each followed by a line break in the file. */
  function ExportLines(path: string, results: seq<Node>): (lines: seq<string>)
    ensures FormatFor(path) == Csv ==> lines == CsvLines(results)
    ensures FormatFor(path) == Json ==>
      |lines| == |JsonLines(results)| &&
      forall i :: 0 <= i < |lines| ==> lines[i] == Render(JsonLines(results)[i])
  {
    match FormatFor(path)
    case Csv => CsvLines(results)
    case Json =>
      var ls := JsonLines(results);
      seq(|ls|, i requires 0 <= i < |ls| => Render(ls[i]))
  }

  /** What ends up in the file: every line followed by `\n`. */
  function FileText(lines: seq<string>): string
  {
    if lines == [] then "" else FileText(lines[..|lines| - 1]) + lines[|lines| - 1] + "\n"
  }
}
